=== FILE: README.md ===
# Vampire plugin rules in Dafny

This project models the game rules of a Minecraft (Paper/Bukkit) vampire
plugin and proves properties about them. Its subject is the logic under the
Bukkit and Hibernate plumbing. Each player has a condition record: the
vampire flag, the infection level, two blood fields, cooldowns, a truce
countdown and a pending blood trade.

The model covers:

- the periodic tick that decays blood, drives bloodlust, switches night vision,
  advances infection and selects sunlight damage;
- the Dark and Light altars, from the cube scan around the core block to the
  delayed ritual;
- the inventory helpers that count, check and remove resources;
- the bounded accumulators and their save hook;
- blood offers and the row rules of the database store;
- the small parsers, tables and encoders: colour codes, material names,
  boolean and bounded-number arguments, infection reasons, the message table
  with `%n%` substitution, the configuration loaders and validators, the
  damage and effect handlers, blood flasks and holy water.

## Representation

- A Java `double` is a Dafny `real`, and a `long` or `int` is an `int`.
- Objects whose fields the plugin updates in place are classes. Examples are
  `VampirePlayer`, `BloodOffer`, the accumulators, the altars, the altar
  manager, the language and plugin configuration, and the store.
- Each class exposes a value snapshot (`View()`, `Status()`, `Spec()`), so
  method contracts can state the whole new state.
- Bukkit is abstracted:
  - the player is `Host.HostPlayer`, with an inventory array, the held slot,
    health and active potion effects;
  - being online, distances, world time and the water and helmet checks
    arrive as parameters;
  - every cancellable event is a boolean veto supplied by the caller.
  - a potion effect built with three arguments is `Host.BasicEffect`:
    Bukkit's `PotionEffect(type, duration, amplifier)` passes ambient false
    and keeps particles, although its documentation says ambient true.
- `Double.parseDouble`, `String.format("%.1f")`, `Material.valueOf` and
  `ChatColor.translateAlternateColorCodes` are supplied as function
  parameters.
- The Hibernate store is two maps, players by uuid and offers by generated
  id. Each transaction is one method.

## Behaviour worth knowing

These follow from the code as written, and the model keeps them. Lemmas
exhibit most of them.

- **Day test:** the tick's test is `time >= 13000 || time <= 23000`, which
  holds at every world time.
  - Night vision is switched on at every tick (`Task.NightVisionAlwaysOn`).
  - The sunlight damage branch is never reached (`Task.NoSunDamageEver`).
- **Bloodlust threshold:** the shipped bloodlust threshold (15) is above the
  blood cap (10), so bloodlust never ends once a vampire has ticked
  (`Task.BloodlustNeverEndsAboveCap`).
- **Zero-length ticks:** two ticks of zero length do not always agree.
  - A human at infection 1.0 converts on the first tick and gets night
    vision on the second (`Task.ZeroTickConversionDiffers`).
  - Apart from that case a zero-length tick settles the record
    (`Task.ZeroTickSettles`).
- **Ritual resources:** a successful altar ritual takes its resources twice.
  - The kind-specific `use` takes them once through `playerRemoveAttempt`.
  - The delayed `AltarAbstract.use` takes them again.
  - `Altars.RitualTakesResourcesTwice` states the combined effect.
- **Dark altar conversion:** the Dark altar converts a player at infection
  1.0 and leaves the infection there. The tick's conversion resets it to 0.
- **Accumulator saves:**
  - `VampirePlayerAccumulator.setValue` saves on the unclamped request.
  - `addValue` goes through the overriding `setValue` and may save a second
    time.
  - The superclass constructor calls the override before the player
    reference is assigned.
- **Offer matching:**
  - `rejectBloodOffer` also matches offers that were already accepted.
  - Several matching offers make `uniqueResult()` throw. The transaction
    then rolls back.
- **Default load paths:**
  - The default path of the vampire settings sets fifteen values. It does not
    set the blood decrease rate or the low-blood threshold, so they stay 0 on
    a first load.
  - `loadDefaults` is never called, so the combat, shriek and trade getters
    read the raw file.
- **Flask vampiric check:** a blood flask whose lore has a single line makes
  `isBloodFlaskVampiric` throw.
- **Holy water ingredients:** `consumeIngredients` throws on a null water
  bottle. It spends one stack twice when both arguments are the same stack.
- **Shriek:** the shrieker is inside their own shriek and blinds
  themselves.

## Model

| member | source | states |
|---|---|---|
| Entity.TradedBlood | src/main/java/org/clockworx/vampire/entity/VampirePlayer.java:726-794 | after a completed trade both blood levels lie in [0, 10] |
| Entity.TradeConservesBlood | src/main/java/org/clockworx/vampire/entity/VampirePlayer.java:726-794 | a trade never creates blood: the sender loses exactly the amount, the sum does not grow, and it is kept whenever the receiver stays under the cap |
| Entity.VampirePlayer.constructor | src/main/java/org/clockworx/vampire/entity/VampirePlayer.java:73-104 | a new record is human, uninfected, at zero blood, with no pending trade, and its regeneration and infection clocks at the creation time |
| Entity.VampirePlayer.IsInfected | src/main/java/org/clockworx/vampire/entity/VampirePlayer.java:182-184 | infected exactly when the infection level is above zero |
| Entity.VampirePlayer.IsHuman | src/main/java/org/clockworx/vampire/entity/VampirePlayer.java:173-175 | human exactly when neither a vampire nor infected |
| Entity.VampirePlayer.SetVampire | src/main/java/org/clockworx/vampire/entity/VampirePlayer.java:156-166 | only the vampire flag changes; infection is kept |
| Entity.VampirePlayer.SetInfectionLevel | src/main/java/org/clockworx/vampire/entity/VampirePlayer.java:201-211 | infection ends in [0, 1] (1.5 becomes 1, -0.3 becomes 0), and nothing else changes |
| Entity.VampirePlayer.SetBlood | src/main/java/org/clockworx/vampire/entity/VampirePlayer.java:284-293 | blood ends in [0, 10], the request clamped, and nothing else changes |
| Entity.VampirePlayer.SetTemperature | src/main/java/org/clockworx/vampire/entity/VampirePlayer.java:475-477 | temperature ends in [0, 1], the request clamped |
| Entity.VampirePlayer.SetRadiation | src/main/java/org/clockworx/vampire/entity/VampirePlayer.java:497-499 | radiation ends in [0, 1], the request clamped |
| Entity.VampirePlayer.SetInfection | src/main/java/org/clockworx/vampire/entity/VampirePlayer.java:1089-1098 | stores the raw infection with no clamping, so the [0, 1] bound is not kept here |
| Entity.VampirePlayer.SetBloodLevel | src/main/java/org/clockworx/vampire/entity/VampirePlayer.java:1074-1083 | stores the raw second blood field with no clamping |
| Entity.VampirePlayer.AddInfection | src/main/java/org/clockworx/vampire/entity/VampirePlayer.java:1137-1141 | infection grows by the amount unclamped; the reason and the time are recorded |
| Entity.VampirePlayer.UseBlood | src/main/java/org/clockworx/vampire/entity/VampirePlayer.java:1143-1149 | succeeds iff bloodLevel >= amount and then subtracts exactly amount; on failure nothing changes |
| Entity.VampirePlayer.AddBlood | src/main/java/org/clockworx/vampire/entity/VampirePlayer.java:1151-1154 | bloodLevel grows by the amount unclamped, and the regeneration time is stamped |
| Entity.VampirePlayer.Shriek | src/main/java/org/clockworx/vampire/entity/VampirePlayer.java:694-721 | offline does nothing; within the cooldown the shriek time is kept and the whole seconds left are reported; otherwise the shriek time becomes now |
| Entity.VampirePlayer.UpdateTruce | src/main/java/org/clockworx/vampire/entity/VampirePlayer.java:874-882 | a running countdown only decreases and never goes below zero; restored iff it has just reached zero |
| Entity.VampirePlayer.IsTruceBroken | src/main/java/org/clockworx/vampire/entity/VampirePlayer.java:889-891 | broken iff time is left on the countdown |
| Entity.VampirePlayer.TruceBreak | src/main/java/org/clockworx/vampire/entity/VampirePlayer.java:896-905 | an online player's countdown is set to the break time; offline nothing changes |
| Entity.VampirePlayer.CombatDamageFactor | src/main/java/org/clockworx/vampire/entity/VampirePlayer.java:924-930 | the bloodlust factor while bloodlusting, the other one otherwise |
| Entity.VampirePlayer.CombatInfectRisk | src/main/java/org/clockworx/vampire/entity/VampirePlayer.java:937-943 | the intent risk while intending, the other one otherwise |
| Entity.VampirePlayer.WithinDistanceOf | src/main/java/org/clockworx/vampire/entity/VampirePlayer.java:858-867 | true iff both are online and the distance is at most the maximum |
| Entity.VampirePlayer.OfferTrade | src/main/java/org/clockworx/vampire/entity/VampirePlayer.java:802-849 | the target's pending offer is replaced only when both are online, close enough and the sender holds the amount; the sender's blood never changes |
| Entity.VampirePlayer.AcceptTrade | src/main/java/org/clockworx/vampire/entity/VampirePlayer.java:726-794 | no offer does nothing; an expired offer is cleared without transfer; offline, distance and blood failures keep it; success moves the amount through the clamping setters and clears the offer |
| Entity.VampirePlayer.SettleTrade | src/main/java/org/clockworx/vampire/entity/VampirePlayer.java:776-778 | the sender's clamped setter runs first and then the receiver's, and the offer is cleared; when the sender is the receiver both act on the same blood |
| Task.NightTestAlwaysHolds | src/main/java/org/clockworx/vampire/task/VampireTask.java:228 | the night test holds at every world time |
| Task.SunlightFactor | src/main/java/org/clockworx/vampire/task/VampireTask.java:316-339 | the damage share is 0.5 in water, 0.7 with a helmet, 1.0 otherwise |
| Task.NoSunDamageEver | src/main/java/org/clockworx/vampire/task/VampireTask.java:305-345 | the sunlight branch is unreachable because the night test always holds |
| Task.VampireTask.constructor | src/main/java/org/clockworx/vampire/task/VampireTask.java:30-32 | the task starts with no previous run |
| Task.VampireTask.Run | src/main/java/org/clockworx/vampire/task/VampireTask.java:60-79 | the delta is now minus the previous run, and the previous run becomes now |
| Task.VampireTask.UpdatePlayer | src/main/java/org/clockworx/vampire/task/VampireTask.java:87-121 | a skipped player is untouched; otherwise the record becomes the five steps applied in order, the bounds of the clamping setters are kept, the save happens when a whole minute has just passed, and the report says low blood iff the decayed vampire is below the threshold, conversion iff the player has just become a vampire, and weakness iff an infected human's raised infection is above 0.5 or converts |
| Task.VampireTask.UpdateBlood | src/main/java/org/clockworx/vampire/task/VampireTask.java:129-155 | the record after blood decay; the low-blood branch is taken iff a vampire is below the threshold |
| Task.VampireTask.UpdateBloodlust | src/main/java/org/clockworx/vampire/task/VampireTask.java:163-209 | the record after the bloodlust threshold machine |
| Task.VampireTask.UpdateNightVision | src/main/java/org/clockworx/vampire/task/VampireTask.java:217-253 | the record after the night-vision switch |
| Task.VampireTask.UpdateInfection | src/main/java/org/clockworx/vampire/task/VampireTask.java:261-297 | the record after infection progression; weakened iff an infected human's raised infection is above 0.5 (or reached conversion), converted iff the player has just become a vampire |
| Task.VampireTask.UpdateEnvironmentalDamage | src/main/java/org/clockworx/vampire/task/VampireTask.java:305-345 | the sunlight damage and burning selected for the surroundings |
| Task.BloodStep | src/main/java/org/clockworx/vampire/task/VampireTask.java:129-155 | the record after updateBlood: a vampire's blood lowered by the decay rate, floored at 0 and clamped by setBlood (properties in BloodDecay and TickKeepsBloodInRange) |
| Task.BloodlustStep | src/main/java/org/clockworx/vampire/task/VampireTask.java:163-209 | the record after updateBloodlust: entry below the threshold, then drain and exit (properties in BloodlustEntry, BloodlustExit and BloodlustMatchesThreshold) |
| Task.NightVisionStep | src/main/java/org/clockworx/vampire/task/VampireTask.java:217-253 | the record after updateNightVision with the night test as written (property in NightVisionAlwaysOn) |
| Task.InfectionStep | src/main/java/org/clockworx/vampire/task/VampireTask.java:261-297 | the record after updateInfection: growth capped at 1 and conversion with the reset to 0 (properties in InfectionProgress and TickConversionResetsInfection) |
| Task.Tick | src/main/java/org/clockworx/vampire/task/VampireTask.java:102-115 | the four record-changing steps in the order updatePlayer runs them |
| Task.Updated | src/main/java/org/clockworx/vampire/task/VampireTask.java:87-115 | the record unchanged for a skipped player, else one tick with the delta converted to seconds |
| Task.TickKeepsBloodInRange | src/main/java/org/clockworx/vampire/task/VampireTask.java:103-115 | a tick keeps the clamped blood in [0, 10] |
| Task.BloodDecay | src/main/java/org/clockworx/vampire/task/VampireTask.java:130-141 | decay touches only vampires and sets blood to max(0, blood - rate * dt) |
| Task.BloodlustEntry | src/main/java/org/clockworx/vampire/task/VampireTask.java:174-178 | a vampire that is not bloodlusting enters bloodlust exactly when blood is below the threshold |
| Task.BloodlustExit | src/main/java/org/clockworx/vampire/task/VampireTask.java:199-207 | while bloodlusting, blood never rises: it drops by exactly the drain, or to 0 when the drain is larger; bloodlust stays on iff that blood is below the threshold, and only blood and the bloodlust flag change |
| Task.BloodlustMatchesThreshold | src/main/java/org/clockworx/vampire/task/VampireTask.java:163-209 | after the bloodlust step, and after a whole tick, a vampire is bloodlusting exactly when its blood is below the threshold, from any starting state |
| Task.BloodlustNeverEndsAboveCap | src/main/java/org/clockworx/vampire/task/VampireTask.java:163-209 | with a threshold above the cap, a vampire is bloodlusting after every tick |
| Task.BloodlustSeesDecayedBlood | src/main/java/org/clockworx/vampire/task/VampireTask.java:103-115 | the step order matters: blood decayed in the same tick triggers bloodlust that the undecayed blood would not |
| Task.NightVisionAlwaysOn | src/main/java/org/clockworx/vampire/task/VampireTask.java:217-253 | every tick leaves a vampire using night vision |
| Task.InfectionProgress | src/main/java/org/clockworx/vampire/task/VampireTask.java:261-297 | only infected non-vampires change; from a level in [0, 1] the player converts exactly when level plus increase reaches 1, otherwise the level rises by exactly the increase; the level stays in [0, 1] and no other field changes |
| Task.TickConversionResetsInfection | src/main/java/org/clockworx/vampire/task/VampireTask.java:280-289 | a tick that converts a player leaves infection at 0 |
| Task.InfectionCompletesExample | src/main/java/org/clockworx/vampire/task/VampireTask.java:261-297 | infection 0.9 at rate 0.05 over two seconds converts |
| Task.ZeroTickSettles | src/main/java/org/clockworx/vampire/task/VampireTask.java:87-121 | a second zero-length tick changes nothing unless the first converted the player |
| Task.ZeroTickConversionDiffers | src/main/java/org/clockworx/vampire/task/VampireTask.java:87-121 | without that exception the statement fails: a conversion on the first tick changes night vision on the second |
| AltarStructure.Row | src/main/java/org/clockworx/vampire/altar/AltarAbstract.java:338-350 | one row of the cube has one block per x offset |
| AltarStructure.DistinctConcat | src/main/java/org/clockworx/vampire/altar/AltarAbstract.java:338-350 | joining disjoint duplicate-free block lists keeps them duplicate-free |
| AltarStructure.RowMember | src/main/java/org/clockworx/vampire/altar/AltarAbstract.java:338-350 | a row holds exactly the blocks at its y and z with x in range |
| AltarStructure.RowDistinct | src/main/java/org/clockworx/vampire/altar/AltarAbstract.java:338-350 | a row holds no block twice |
| AltarStructure.LayerLength | src/main/java/org/clockworx/vampire/altar/AltarAbstract.java:338-350 | a layer holds (r - z0 + 1)(2r + 1) blocks |
| AltarStructure.LayerMember | src/main/java/org/clockworx/vampire/altar/AltarAbstract.java:338-350 | a layer holds exactly the blocks at its y with z and x in range |
| AltarStructure.RowBeforeRows | src/main/java/org/clockworx/vampire/altar/AltarAbstract.java:338-350 | no block of a row recurs in the later rows of its layer |
| AltarStructure.LayerDistinct | src/main/java/org/clockworx/vampire/altar/AltarAbstract.java:338-350 | a layer holds no block twice |
| AltarStructure.LayersLength | src/main/java/org/clockworx/vampire/altar/AltarAbstract.java:338-350 | the layers hold (r - y0 + 1)(2r + 1)^2 blocks |
| AltarStructure.LayersMember | src/main/java/org/clockworx/vampire/altar/AltarAbstract.java:338-350 | the layers hold exactly the blocks with y, z and x in range |
| AltarStructure.LayerBelowLayers | src/main/java/org/clockworx/vampire/altar/AltarAbstract.java:338-350 | no block of a layer recurs in the layers above it |
| AltarStructure.LayersDistinct | src/main/java/org/clockworx/vampire/altar/AltarAbstract.java:338-350 | the layers hold no block twice |
| AltarStructure.CubeBlocksLength | src/main/java/org/clockworx/vampire/altar/AltarAbstract.java:338-350 | getCubeBlocks returns (2r+1)^3 blocks |
| AltarStructure.CubeBlocksMembers | src/main/java/org/clockworx/vampire/altar/AltarAbstract.java:338-350 | getCubeBlocks returns exactly the blocks within r of the centre on every axis |
| AltarStructure.CubeBlocksShape | src/main/java/org/clockworx/vampire/altar/AltarAbstract.java:338-350 | getCubeBlocks returns (2r+1)^3 distinct blocks, exactly those within r of the centre on every axis |
| AltarStructure.CubeBlocksNegative | src/main/java/org/clockworx/vampire/altar/AltarAbstract.java:338-350 | a negative radius gives no blocks |
| AltarStructure.CubeBlocks | src/main/java/org/clockworx/vampire/altar/AltarAbstract.java:338-350 | the blocks of the cube in x, y, z loop order; properties in CubeBlocksLength, CubeBlocksMembers, CubeBlocksShape and CubeBlocksNegative |
| AltarStructure.TypesAt | src/main/java/org/clockworx/vampire/altar/AltarAbstract.java:318-329 | the block types read at each scanned position, in order |
| AltarStructure.CountMaterialsIsHistogram | src/main/java/org/clockworx/vampire/altar/AltarAbstract.java:318-329 | countMaterials counts only wanted materials, each entry being its number of blocks, and absent materials have no entry |
| AltarStructure.CountMaterials | src/main/java/org/clockworx/vampire/altar/AltarAbstract.java:318-329 | the per-material count of wanted blocks; CountMaterialsIsHistogram states it is the histogram restricted to wanted materials |
| AltarStructure.SumValuesRemove | src/main/java/org/clockworx/vampire/altar/AltarAbstract.java:285-289 | the sum of a count map does not depend on the order of its entries |
| AltarStructure.SumValuesPositive | src/main/java/org/clockworx/vampire/altar/AltarAbstract.java:285-289 | non-negative counts sum to more than zero iff some count is positive |
| AltarStructure.SumCollection | src/main/java/org/clockworx/vampire/altar/AltarAbstract.java:285-289 | the summing loop returns the sum of all values |
| AltarStructure.Missing | src/main/java/org/clockworx/vampire/altar/AltarAbstract.java:297-309 | one non-negative shortfall per required material, max(0, required - nearby) with nearby defaulting to 0 |
| AltarStructure.MissingNoneIff | src/main/java/org/clockworx/vampire/altar/AltarAbstract.java:297-309 | the shortfall sums to zero iff every requirement is met |
| Altars.WithCore | src/main/java/org/clockworx/vampire/altar/AltarAbstract.java:123-125 | the core material is required, at count 1 when it was absent and at its own count otherwise |
| Altars.WithCoreIdempotent | src/main/java/org/clockworx/vampire/altar/AltarAbstract.java:123-125 | adding the core a second time changes nothing |
| Altars.BuiltInAltarsRequireCore | src/main/java/org/clockworx/vampire/altar/AltarDark.java:45-64 | both built-in altars already require their core, so evalBlockUse never changes their requirements |
| Altars.OutcomesOf | src/main/java/org/clockworx/vampire/altar/AltarManager.java:51-63 | one answer per altar, in list order |
| Altars.StartOutcome | src/main/java/org/clockworx/vampire/altar/AltarDark.java:85-115 | the ritual starts only with every resource held, never for a vampire at the Dark altar and only for the infected at the Light altar |
| Altars.StructureCompleteIff | src/main/java/org/clockworx/vampire/altar/AltarAbstract.java:134-155 | the structure passes iff the found blocks reach the minimum ratio and no required material is short |
| Altars.MovedProperties | src/main/java/org/clockworx/vampire/altar/AltarAbstract.java:88-97 | no anchor means no move; the anchor location itself is no move; turning is no move; a move is a change of world, x, y or z |
| Altars.Moved | src/main/java/org/clockworx/vampire/altar/AltarAbstract.java:88-97 | an anchor exists and differs in world, x, y or z; properties in MovedProperties |
| Altars.AnchorRegistry.HasPlayerMoved | src/main/java/org/clockworx/vampire/altar/AltarAbstract.java:88-97 | Moved against the player's registered anchor, none when unregistered; properties in MovedProperties |
| Altars.AnchorRegistry.constructor | src/main/java/org/clockworx/vampire/altar/AltarAbstract.java:68-79 | the anchor map starts empty |
| Altars.AnchorRegistry.Register | src/main/java/org/clockworx/vampire/altar/AltarAbstract.java:68-70 | the player's anchor becomes the location; other anchors are kept |
| Altars.AnchorRegistry.Unregister | src/main/java/org/clockworx/vampire/altar/AltarAbstract.java:77-79 | the player's anchor is removed; other anchors are kept |
| Altars.DarkRitual | src/main/java/org/clockworx/vampire/altar/AltarDark.java:118-163 | a vetoed change keeps the record; otherwise infection rises into (0, 1] (min(1, x + 0.2) or 0.1), and conversion happens only at 1.0 with the infection left there |
| Altars.LightRitual | src/main/java/org/clockworx/vampire/altar/AltarLight.java:118-146 | infection drops to max(0, x - 0.2) unless vetoed; the vampire flag never changes |
| Altars.Healed | src/main/java/org/clockworx/vampire/altar/AltarLight.java:140 | health rises by 4 up to the maximum and never drops |
| Altars.DarkRitualsToConvert | src/main/java/org/clockworx/vampire/altar/AltarDark.java:118-163 | six unvetoed Dark rituals convert a player with no infection, and five do not (exact arithmetic; the count is the same in doubles) |
| Altars.LightRitualsCure | src/main/java/org/clockworx/vampire/altar/AltarLight.java:118-146 | five unvetoed Light rituals cure any infection in [0, 1], counted in exact arithmetic (see Left out) |
| Altars.RitualTakesResourcesTwice | src/main/java/org/clockworx/vampire/altar/AltarDark.java:101-110 | a successful ritual removes its resources twice, so a requirement of n items costs min(2n, available) |
| Altars.FirstStarted | src/main/java/org/clockworx/vampire/altar/AltarManager.java:56-62 | the index of the first started altar, with none before it |
| Altars.FirstStartedIs | src/main/java/org/clockworx/vampire/altar/AltarManager.java:56-62 | a started answer with none before it is the first |
| Altars.SpecsOf | src/main/java/org/clockworx/vampire/altar/AltarManager.java:51-63 | the snapshot of each altar, in list order |
| Altars.Altar.Dark | src/main/java/org/clockworx/vampire/altar/AltarDark.java:45-64 | the Dark altar: obsidian core, and the obsidian, netherrack, soul sand, diamond block and gold block requirements with its four resource stacks |
| Altars.Altar.Light | src/main/java/org/clockworx/vampire/altar/AltarLight.java:47-66 | the Light altar: diamond block core, and the glowstone, quartz block, sea lantern, diamond block and gold block requirements with its four resource stacks |
| Altars.Altar.EvalBlockUse | src/main/java/org/clockworx/vampire/altar/AltarAbstract.java:111-168 | the answer follows the player, core, structure, event and start checks; resources are taken once only on success; the core is added to the requirements once the core block matches |
| Altars.Altar.Start | src/main/java/org/clockworx/vampire/altar/AltarLight.java:85-115 | the kind check, then the all-or-nothing resource removal; the inventory changes only when the ritual starts |
| Altars.Altar.Complete | src/main/java/org/clockworx/vampire/altar/AltarAbstract.java:179-212 | unless vetoed, the resources are removed again, the ritual is applied, the anchor is dropped and the answer is true; a veto changes nothing |
| Altars.Altar.ApplyEffects | src/main/java/org/clockworx/vampire/altar/AltarLight.java:118-146 | the record becomes the ritual of the altar's kind; the Light altar heals whether or not the infection change was vetoed |
| Altars.AltarManager.constructor | src/main/java/org/clockworx/vampire/altar/AltarManager.java:25-33 | the Dark altar is registered first, then the Light altar |
| Altars.AltarManager.RegisterAltar | src/main/java/org/clockworx/vampire/altar/AltarManager.java:40-42 | the altar is appended and the rest of the list is kept |
| Altars.AltarManager.Specs | src/main/java/org/clockworx/vampire/altar/AltarManager.java:51-63 | the snapshot of each managed altar, in order |
| Altars.AltarManager.TryAltar | src/main/java/org/clockworx/vampire/altar/AltarManager.java:56-62 | one loop pass evaluates the i-th altar and leaves every other altar unchanged |
| Altars.AltarManager.HandleBlockInteract | src/main/java/org/clockworx/vampire/altar/AltarManager.java:51-63 | false without a player record; otherwise true at the first altar that starts, with only that altar's resources taken, and false with the inventory untouched when none starts |
| Altars.HandledByFirst | src/main/java/org/clockworx/vampire/altar/AltarManager.java:51-63 | stopping at the first starting altar with its resources taken is the handled outcome |
| Altars.HandledByNone | src/main/java/org/clockworx/vampire/altar/AltarManager.java:51-63 | running out of altars with the inventory untouched is the handled outcome |
| Resources.AvailableAppend | src/main/java/org/clockworx/vampire/util/ResourceUtil.java:212-227 | counting splits over concatenated inventories |
| Resources.AvailableSnoc | src/main/java/org/clockworx/vampire/util/ResourceUtil.java:212-227 | the count of a prefix grows by the next slot's share |
| Resources.Removed | src/main/java/org/clockworx/vampire/util/ResourceUtil.java:235-252 | removal keeps the number of slots |
| Resources.RemovedTakesAvailable | src/main/java/org/clockworx/vampire/util/ResourceUtil.java:235-252 | removeItem takes min(required, available) in total |
| Resources.RemovedFrame | src/main/java/org/clockworx/vampire/util/ResourceUtil.java:235-252 | slots that do not match are unchanged, and matching ones only lose amount |
| Resources.RemovedAll | src/main/java/org/clockworx/vampire/util/ResourceUtil.java:195-202 | removing a list of requirements keeps the number of slots |
| Resources.SameTypeRequirementsNotSummed | src/main/java/org/clockworx/vampire/util/ResourceUtil.java:185-197 | two requirements of 8 bones pass with 10 bones held, and removing both takes only those 10 |
| Resources.HasItem | src/main/java/org/clockworx/vampire/util/ResourceUtil.java:55-71 | true iff the matching stacks hold at least the required amount |
| Resources.HasEach | src/main/java/org/clockworx/vampire/util/ResourceUtil.java:80-87 | true iff every requirement is held on its own |
| Resources.RemoveItem | src/main/java/org/clockworx/vampire/util/ResourceUtil.java:235-252 | the inventory after taking the amount from matching stacks in slot order |
| Resources.RemovedUnfold | src/main/java/org/clockworx/vampire/util/ResourceUtil.java:235-252 | one step of removeItem: the first slot gives min(remaining, its amount) and the rest is removed from what is left |
| Resources.RemovedHead | src/main/java/org/clockworx/vampire/util/ResourceUtil.java:235-252 | the count after a removal is what the first slot keeps plus what the rest keeps |
| Resources.TakeSplits | src/main/java/org/clockworx/vampire/util/ResourceUtil.java:235-252 | taking from the first stack and then the rest takes min(required, available) in all |
| Resources.RemoveAttempt | src/main/java/org/clockworx/vampire/util/ResourceUtil.java:180-203 | true iff every requirement is held, in which case all are removed in order; otherwise the inventory is untouched |
| Resources.Describe | src/main/java/org/clockworx/vampire/util/ResourceUtil.java:162-169 | three fixed names for water bottle, lapis and charcoal, otherwise the lower-cased enum name with spaces |
| Resources.Breakdown | src/main/java/org/clockworx/vampire/util/ResourceUtil.java:330-343 | seconds below a minute, whole minutes below an hour, otherwise hours with the minutes modulo 60 |
| Resources.FormatTimeExample | src/main/java/org/clockworx/vampire/util/ResourceUtil.java:330-343 | 3725 seconds read "1 hours, 2 minutes", and 59 read "59 seconds" |
| Resources.FormatTime | src/main/java/org/clockworx/vampire/util/ResourceUtil.java:330-343 | the breakdown's numbers with their unit words (checked on examples by FormatTimeExample) |
| Accumulators.Bounded | src/main/java/org/clockworx/vampire/accumulator/Accumulator.java:35-38 | the stored value is at most max, at least min when min <= max, the value itself when in range, and max when min > max |
| Accumulators.BoundedIdempotent | src/main/java/org/clockworx/vampire/accumulator/Accumulator.java:35-38 | storing the stored value again changes nothing |
| Accumulators.BoundedAtBounds | src/main/java/org/clockworx/vampire/accumulator/Accumulator.java:71-83 | the stored value is at min iff the request was at or below min, and at max iff it was at or above max |
| Accumulators.Accumulator.constructor | src/main/java/org/clockworx/vampire/accumulator/Accumulator.java:15-20 | the bounds are set and the initial value is stored clamped |
| Accumulators.Accumulator.SetValue | src/main/java/org/clockworx/vampire/accumulator/Accumulator.java:35-38 | the value becomes the request clamped to the bounds; with min < max, isAtMin holds iff the request was at or below min and isAtMax iff it was at or above max |
| Accumulators.Accumulator.AddValue | src/main/java/org/clockworx/vampire/accumulator/Accumulator.java:44-47 | the value becomes old value plus d, clamped; with min < max, isAtMin and isAtMax hold iff old value plus d reached that bound |
| Accumulators.Accumulator.IsAtMin | src/main/java/org/clockworx/vampire/accumulator/Accumulator.java:71-74 | value <= min; SetValue and AddValue state when it holds, and BoundedAtBounds relates it to the request |
| Accumulators.Accumulator.IsAtMax | src/main/java/org/clockworx/vampire/accumulator/Accumulator.java:80-83 | value >= max; SetValue and AddValue state when it holds, and BoundedAtBounds relates it to the request |
| Accumulators.Accumulator.Equals | src/main/java/org/clockworx/vampire/accumulator/Accumulator.java:85-94 | the same object, or one with equal value, min and max; EqualsIsEquivalence |
| Accumulators.Accumulator.EqualsIsEquivalence | src/main/java/org/clockworx/vampire/accumulator/Accumulator.java:85-94 | equals is reflexive, symmetric and transitive |
| Accumulators.ClampedSetStillSaves | src/main/java/org/clockworx/vampire/accumulator/VampirePlayerAccumulator.java:42-57 | at the maximum, a request beyond it stores nothing new; setValue still saves and addValue does not |
| Accumulators.PlayerAccumulator.constructor | src/main/java/org/clockworx/vampire/accumulator/VampirePlayerAccumulator.java:14-17 | the superclass setValue runs the override, which saves before the player is assigned when the start value is more than 0.01 from 0 |
| Accumulators.PlayerAccumulator.SetValue | src/main/java/org/clockworx/vampire/accumulator/VampirePlayerAccumulator.java:42-48 | stores the clamped value, and saves iff the old value and the unclamped request differ by more than 0.01 |
| Accumulators.PlayerAccumulator.AddValue | src/main/java/org/clockworx/vampire/accumulator/VampirePlayerAccumulator.java:51-57 | stores old plus d, clamped; the setValue override may save once, and a second save follows iff the stored value moved by more than 0.01 |
| Offers.ExpiryBoundary | src/main/java/org/clockworx/vampire/entity/BloodOffer.java:115-117 | an offer is not expired at exactly timestamp + timeout, is expired one millisecond later, and stays expired |
| Offers.Expired | src/main/java/org/clockworx/vampire/entity/BloodOffer.java:115-117 | more than the timeout has passed since the offer; its boundary and monotonicity are in ExpiryBoundary |
| Offers.BloodOffer.constructor | src/main/java/org/clockworx/vampire/entity/BloodOffer.java:23-30 | a new offer holds its sender, target, amount and time, and is pending |
| Offers.BloodOffer.SetAccepted | src/main/java/org/clockworx/vampire/entity/BloodOffer.java:80-82 | sets accepted, keeps rejected, and the offer is no longer pending |
| Offers.BloodOffer.SetRejected | src/main/java/org/clockworx/vampire/entity/BloodOffer.java:96-98 | sets rejected, keeps accepted, and the offer is no longer pending |
| Offers.BloodOffer.IsPending | src/main/java/org/clockworx/vampire/entity/BloodOffer.java:105-107 | neither accepted nor rejected; the constructor ensures it, SetAccepted and SetRejected ensure its negation |
| Offers.BloodOffer.IsExpired | src/main/java/org/clockworx/vampire/entity/BloodOffer.java:115-117 | Expired on the offer's timestamp; properties in ExpiryBoundary |
| Offers.AcceptThenReject | src/main/java/org/clockworx/vampire/entity/BloodOffer.java:80-107 | both flags can be set at once, and the fixed fields never change |
| Persistence.ToRow | src/main/java/org/clockworx/vampire/database/HibernateDatabaseManager.java:670-683 | the row's blood is the clamped blood field, not bloodLevel |
| Persistence.FromRow | src/main/java/org/clockworx/vampire/database/HibernateDatabaseManager.java:655-668 | the rebuilt record has blood in [0, 10] and infection in [0, 1], and keeps the row's uuid, name and vampire flag |
| Persistence.PlayerRoundTrip | src/main/java/org/clockworx/vampire/database/HibernateDatabaseManager.java:655-683 | record to row to record keeps the persisted fields (blood and infection clamped) and resets every other field to the constructor default |
| Persistence.RowRoundTrip | src/main/java/org/clockworx/vampire/database/HibernateDatabaseManager.java:655-683 | row to record to row is the identity for a row in range, and otherwise clamps blood and infection |
| Persistence.ConvertToVampirePlayer | src/main/java/org/clockworx/vampire/database/HibernateDatabaseManager.java:655-668 | builds a new player whose state is the converted row |
| Entity.VampirePlayer.SetInfectionReason | src/main/java/org/clockworx/vampire/entity/VampirePlayer.java:227-229 | only the infection reason changes, to the given value |
| Entity.VampirePlayer.SetInfectionTime | src/main/java/org/clockworx/vampire/entity/VampirePlayer.java:263-265 | only the infection time changes, to the given value |
| Entity.VampirePlayer.SetLastShriekTime | src/main/java/org/clockworx/vampire/entity/VampirePlayer.java:309-311 | only the last shriek time changes, to the given value |
| Entity.VampirePlayer.SetLastBloodTradeTime | src/main/java/org/clockworx/vampire/entity/VampirePlayer.java:327-329 | only the last trade time changes, to the given value |
| Entity.VampirePlayer.SetLastBloodTradePartner | src/main/java/org/clockworx/vampire/entity/VampirePlayer.java:345-347 | only the last trade partner changes, to the given value |
| Entity.VampirePlayer.SetLastBloodTradeAmount | src/main/java/org/clockworx/vampire/entity/VampirePlayer.java:363-365 | only the last trade amount changes, to the given value |
| Entity.VampirePlayer.SetLastBloodTradeType | src/main/java/org/clockworx/vampire/entity/VampirePlayer.java:381-383 | only the last trade type changes, to the given value |
| Persistence.ConvertToBloodOffer | src/main/java/org/clockworx/vampire/database/HibernateDatabaseManager.java:685-694 | copies sender, target, amount and both flags, but stamps the current time |
| Persistence.MatchesNest | src/main/java/org/clockworx/vampire/database/HibernateDatabaseManager.java:412-464 | every offer acceptance matches, rejection matches too; an accepted, unrejected offer only rejection matches |
| Persistence.StaleIsExpired | src/main/java/org/clockworx/vampire/database/HibernateDatabaseManager.java:482-504 | the cleanup rule agrees with isExpired on the stored timestamp and ignores the status flags |
| Persistence.Fresh | src/main/java/org/clockworx/vampire/database/HibernateDatabaseManager.java:487-495 | exactly the offers that are not stale survive, unchanged |
| Persistence.Store.constructor | src/main/java/org/clockworx/vampire/database/HibernateDatabaseManager.java:22-24 | both tables start empty |
| Persistence.Store.SavePlayer | src/main/java/org/clockworx/vampire/database/HibernateDatabaseManager.java:54-68 | the player's row is inserted or replaced, and nothing else changes |
| Persistence.Store.GetPlayer | src/main/java/org/clockworx/vampire/database/HibernateDatabaseManager.java:44-51 | null without a row, otherwise a new player converted from it |
| Persistence.Store.UseBlood | src/main/java/org/clockworx/vampire/database/HibernateDatabaseManager.java:608-628 | succeeds iff the row exists and holds the amount, then subtracts it; otherwise nothing changes |
| Persistence.Store.AddInfection | src/main/java/org/clockworx/vampire/database/HibernateDatabaseManager.java:507-535 | adds without clamping and records reason and time; true iff the row exists |
| Persistence.Store.SetVampire | src/main/java/org/clockworx/vampire/database/HibernateDatabaseManager.java:538-566 | sets the flag, stamps the infection time only when turning into a vampire; true iff the row exists |
| Persistence.Store.CreateBloodOffer | src/main/java/org/clockworx/vampire/database/HibernateDatabaseManager.java:380-395 | a pending offer is stored under a fresh id and returned |
| Persistence.Store.AcceptBloodOffer | src/main/java/org/clockworx/vampire/database/HibernateDatabaseManager.java:412-436 | a single pending offer is accepted; none gives false; several throw and change nothing |
| Persistence.Store.RejectBloodOffer | src/main/java/org/clockworx/vampire/database/HibernateDatabaseManager.java:439-464 | a single unrejected offer, accepted or not, is rejected; none gives false; several throw and change nothing |
| Persistence.Store.CleanupExpiredOffers | src/main/java/org/clockworx/vampire/database/HibernateDatabaseManager.java:482-504 | every offer created before now - timeout is deleted whatever its status, and the answer is true |
| Infection.MakerReasons | src/main/java/org/clockworx/vampire/entity/InfectionReason.java:9-35 | maker holds exactly for the two combat reasons and the trade, and noticeable is its negation |
| Infection.ShortnamesDistinct | src/main/java/org/clockworx/vampire/entity/InfectionReason.java:9-35 | the seven short names are pairwise distinct |
| Infection.Noticeable | src/main/java/org/clockworx/vampire/entity/InfectionReason.java:66-68 | whether the infection shows; the negation of maker (MakerReasons) |
| Infection.Maker | src/main/java/org/clockworx/vampire/entity/InfectionReason.java:75-77 | whether a maker caused it: exactly the two combat reasons and the trade (MakerReasons) |
| Infection.Shortname | src/main/java/org/clockworx/vampire/entity/InfectionReason.java:84-86 | the short name; pairwise distinct (ShortnamesDistinct) |
| Infection.FormatPlain | src/main/java/org/clockworx/vampire/entity/InfectionReason.java:95-108 | text without '%' is left alone by formatting |
| Infection.FormatSplice | src/main/java/org/clockworx/vampire/entity/InfectionReason.java:95-108 | a specifier after plain text is replaced by its argument |
| Infection.FormatOne | src/main/java/org/clockworx/vampire/entity/InfectionReason.java:95-108 | a template with one specifier between plain texts is filled in place |
| Infection.FormatTwo | src/main/java/org/clockworx/vampire/entity/InfectionReason.java:95-108 | a template with two specifiers between plain texts is filled in place, left to right |
| Infection.MakerName | src/main/java/org/clockworx/vampire/entity/InfectionReason.java:95-108 | the second argument is the maker's name, or "" for a null maker |
| Infection.CombatSelfDescription | src/main/java/org/clockworx/vampire/entity/InfectionReason.java:95-97 | the victim's combat message starts with the maker's name (empty for a null maker) |
| Infection.TradeOtherDescription | src/main/java/org/clockworx/vampire/entity/InfectionReason.java:106-108 | the trade message for others names the infected player first and the maker second |
| Infection.Format | src/main/java/org/clockworx/vampire/entity/InfectionReason.java:95-108 | String.format over %s and positional specifiers; properties in FormatPlain, FormatSplice, FormatOne and FormatTwo |
| Infection.SelfDescription | src/main/java/org/clockworx/vampire/entity/InfectionReason.java:95-97 | the victim's message formatted with player and maker names; CombatSelfDescription |
| Infection.OtherDescription | src/main/java/org/clockworx/vampire/entity/InfectionReason.java:106-108 | the message for others formatted with player and maker names; TradeOtherDescription |
| TextUtil.Recolor | src/main/java/org/clockworx/vampire/util/TextUtil.java:28-36 | the rewrite preserves length |
| TextUtil.Parse | src/main/java/org/clockworx/vampire/util/TextUtil.java:25-37 | null gives "", and any other text keeps its length |
| TextUtil.RecolorPointwise | src/main/java/org/clockworx/vampire/util/TextUtil.java:17-36 | only ampersands that start a code change, each into the colour char, and all other characters stay |
| TextUtil.RecolorNoCodes | src/main/java/org/clockworx/vampire/util/TextUtil.java:17-36 | text with no lowercase code is unchanged |
| TextUtil.UppercaseIsNoCode | src/main/java/org/clockworx/vampire/util/TextUtil.java:17 | an uppercase letter after '&' is not a code |
| TextUtil.RecolorLeavesNoCode | src/main/java/org/clockworx/vampire/util/TextUtil.java:28-36 | rewritten text holds no code |
| TextUtil.ParseIdempotent | src/main/java/org/clockworx/vampire/util/TextUtil.java:25-37 | parsing twice equals parsing once |
| TextUtil.TitleCase | src/main/java/org/clockworx/vampire/util/TextUtil.java:59-76 | the capitalising loop preserves length |
| TextUtil.TitleCasePointwise | src/main/java/org/clockworx/vampire/util/TextUtil.java:59-76 | exactly the word starts are upper-cased and every other character is kept |
| TextUtil.TitleCaseFollowing | src/main/java/org/clockworx/vampire/util/TextUtil.java:59-76 | the same for a tail, whose first position follows the flag |
| TextUtil.MaterialName | src/main/java/org/clockworx/vampire/util/TextUtil.java:56-77 | "Unknown" for null, otherwise as long as the enum name |
| TextUtil.MaterialNameShape | src/main/java/org/clockworx/vampire/util/TextUtil.java:56-77 | each character is the enum name's, lower-cased with '_' as a space, and upper-cased at word starts |
| TypeBoolean.Parse | src/main/java/org/clockworx/vampire/type/TypeBoolean.java:28-38 | true iff the lower-cased input is a true word, false iff a false word, and otherwise the invalid-boolean error |
| TypeBoolean.WordListsDisjoint | src/main/java/org/clockworx/vampire/type/TypeBoolean.java:15-16 | no word is in both lists |
| TypeBoolean.TrueWordsParse | src/main/java/org/clockworx/vampire/type/TypeBoolean.java:15-16 | every true word parses to true |
| TypeBoolean.FalseWordsParse | src/main/java/org/clockworx/vampire/type/TypeBoolean.java:15-16 | every false word parses to false |
| TypeBoolean.LowerIdempotent | src/main/java/org/clockworx/vampire/type/TypeBoolean.java:29 | lower-casing twice is lower-casing once |
| TypeBoolean.ParseIgnoresCase | src/main/java/org/clockworx/vampire/type/TypeBoolean.java:28-38 | the parser gives the same answer for the lower-cased input |
| TypeBoolean.WordsParse | src/main/java/org/clockworx/vampire/type/TypeBoolean.java:15-16 | every listed word parses to its own list's value |
| TypeBoolean.TabList | src/main/java/org/clockworx/vampire/type/TypeBoolean.java:41-52 | both words for "", ["true"] only for "t"/"T", ["false"] only for "f"/"F", and otherwise nothing |
| TypeBoolean.TabListParses | src/main/java/org/clockworx/vampire/type/TypeBoolean.java:41-52 | every suggestion parses, and "tr" gets none |
| TypeLimitedDouble.Parse | src/main/java/org/clockworx/vampire/type/TypeLimitedDouble.java:42-70 | null or blank input is an empty-input error; a success is the parsed finite value and lies in [min, max]; NaN, infinities and unparsable text are invalid; a value outside the bounds is a range error |
| TypeLimitedDouble.BoundsInclusive | src/main/java/org/clockworx/vampire/type/TypeLimitedDouble.java:57-64 | both bounds are accepted, and values just outside them are range errors |
| TypeLimitedDouble.TabList | src/main/java/org/clockworx/vampire/type/TypeLimitedDouble.java:80-101 | the formatted min, midpoint and max for ""; otherwise [format(min)] for a number below min or -Infinity, [format(max)] for one above max or +Infinity, and nothing for a number in range, NaN or text that is no number |
| TypeLimitedDouble.TabListAgreesWithParse | src/main/java/org/clockworx/vampire/type/TypeLimitedDouble.java:80-101 | for a finite number a suggestion appears iff parse reports a range error; below min both give min (suggestion and error), above max both give max; infinities get a bound but fail parse as invalid |
| Language.Loaded | src/main/java/org/clockworx/vampire/config/LanguageConfig.java:59-71 | every loaded key comes from a string-valued entry of the file |
| Language.LoadedLastWins | src/main/java/org/clockworx/vampire/config/LanguageConfig.java:59-71 | a key's message is its last string value in the file |
| Language.WithDefaultsKeeps | src/main/java/org/clockworx/vampire/config/LanguageConfig.java:124-128 | defaults never overwrite a present message, every default key ends up present, and no other key appears |
| Language.Placeholder | src/main/java/org/clockworx/vampire/config/LanguageConfig.java:146-150 | "%n%" is a percent sign, the digits of n and a percent sign |
| Language.SubstitutedNoPlaceholders | src/main/java/org/clockworx/vampire/config/LanguageConfig.java:146-150 | a message without the placeholders comes back unchanged |
| Language.SubstitutionIsSequential | src/main/java/org/clockworx/vampire/config/LanguageConfig.java:146-150 | a placeholder brought in by an earlier argument is replaced by a later one |
| Language.Substituted | src/main/java/org/clockworx/vampire/config/LanguageConfig.java:146-150 | replaces %1%, %2%, ... in argument order; properties in SubstitutedNoPlaceholders and SubstitutionIsSequential |
| Language.LanguageConfig.constructor | src/main/java/org/clockworx/vampire/config/LanguageConfig.java:21-24 | starts with no messages |
| Language.LanguageConfig.SetDefaultMessage | src/main/java/org/clockworx/vampire/config/LanguageConfig.java:124-128 | puts only when the key is absent, never overwriting |
| Language.LanguageConfig.SetDefaultMessages | src/main/java/org/clockworx/vampire/config/LanguageConfig.java:73-117 | applying the defaults in order leaves the old map topped up with exactly those defaults whose keys were absent; the language is unchanged |
| Language.LanguageConfig.LoadDefaultMessages | src/main/java/org/clockworx/vampire/config/LanguageConfig.java:73-117 | the map becomes the old map topped up with the built-in messages |
| Language.LanguageConfig.LoadMessages | src/main/java/org/clockworx/vampire/config/LanguageConfig.java:59-71 | the map is cleared, loaded from the file, then topped up with the defaults |
| Language.LanguageConfig.LoadLanguage | src/main/java/org/clockworx/vampire/config/LanguageConfig.java:26-57 | the requested language when its file exists, otherwise "en", and the chosen file's messages |
| Language.LanguageConfig.SetLanguage | src/main/java/org/clockworx/vampire/config/LanguageConfig.java:159-162 | records the language and loads it |
| Language.LanguageConfig.Reload | src/main/java/org/clockworx/vampire/config/LanguageConfig.java:119-122 | loads the current language again and reports success |
| Language.LanguageConfig.SetMessage | src/main/java/org/clockworx/vampire/config/LanguageConfig.java:168-171 | puts the message, overwriting |
| Language.LanguageConfig.GetMessages | src/main/java/org/clockworx/vampire/config/LanguageConfig.java:164-166 | returns the current map as a value, leaving the stored map unchanged |
| Language.LanguageConfig.Template | src/main/java/org/clockworx/vampire/config/LanguageConfig.java:143 | the stored message, or "Missing message: " + key for an unknown key |
| Language.LanguageConfig.GetMessage | src/main/java/org/clockworx/vampire/config/LanguageConfig.java:142-153 | the translated template with "%i%" replaced by args[i-1] for i = 1..n in turn |
| Language.LanguageConfig.GetMessageNoArgs | src/main/java/org/clockworx/vampire/config/LanguageConfig.java:138-140 | equals getMessage with no arguments: the translated template |
| Language.LoadedThenDefaults | src/main/java/org/clockworx/vampire/config/LanguageConfig.java:59-71 | after loading, a message from the file keeps its text and every built-in key has a message |
| Config.TruncateToInt | src/main/java/org/clockworx/vampire/config/VampireConfig.java:273-280 | Java's (int) cast: the whole part toward zero, below a positive value and above a negative one by less than one |
| Config.GetDouble | src/main/java/org/clockworx/vampire/config/VampireConfig.java:255-262 | the number at the path (a whole number widened), otherwise the default |
| Config.GetInt | src/main/java/org/clockworx/vampire/config/VampireConfig.java:273-280 | a whole number at the path, otherwise the default when the path holds no number |
| Config.GetBoolean | src/main/java/org/clockworx/vampire/config/VampireConfig.java:185-202 | a boolean at the path, otherwise the default |
| Config.GetString | src/main/java/org/clockworx/vampire/config/VampireConfig.java:185-202 | a string at the path, otherwise the default |
| Config.ValidatePositiveDouble | src/main/java/org/clockworx/vampire/config/VampireConfig.java:255-262 | the value read when it is above zero, otherwise the default |
| Config.ValidatePercentage | src/main/java/org/clockworx/vampire/config/VampireConfig.java:264-271 | the value read when it lies in [0, 1], otherwise the default |
| Config.ValidatePositiveInteger | src/main/java/org/clockworx/vampire/config/VampireConfig.java:273-280 | the value read when it is above zero, otherwise the default |
| Config.ValidatorsIdempotent | src/main/java/org/clockworx/vampire/config/VampireConfig.java:255-280 | writing a validated number back and validating again gives the same number, for any positive default of the positive validators and any default in [0, 1] of the percentage validator |
| Config.ValidatorsRejectExamples | src/main/java/org/clockworx/vampire/config/VampireConfig.java:255-280 | zero, negatives and percentages above 1 are replaced by the default |
| Config.LoadedGeneral | src/main/java/org/clockworx/vampire/config/VampireConfig.java:185-202 | the section's values with their defaults, or the defaults alone without a section |
| Config.DefaultVampire | src/main/java/org/clockworx/vampire/config/VampireConfig.java:237-253 | the fifteen built-in values, keeping the blood decrease rate and low-blood threshold as they were |
| Config.LoadedVampire | src/main/java/org/clockworx/vampire/config/VampireConfig.java:204-230 | every number validated against its default, or the default path without a section |
| Config.LoadedVampireSane | src/main/java/org/clockworx/vampire/config/VampireConfig.java:204-253 | whatever the file holds, rates and amounts are positive and the infection chance is a probability; the decrease rate and threshold are positive only when the section exists |
| Config.DefaultsAgree | src/main/java/org/clockworx/vampire/config/VampireConfig.java:204-253 | a section holding exactly the defaults loads the same numbers as a missing one |
| Config.LoadedAltar | src/main/java/org/clockworx/vampire/config/VampireConfig.java:282-309 | the section's values, keeping previous sub-section maps when a sub-section is missing |
| Config.LoadedNightVision | src/main/java/org/clockworx/vampire/config/VampireConfig.java:566-572 | with the section, enabled (default true) and level (default 1) are read; without it nothing changes |
| Config.LoadedBloodlust | src/main/java/org/clockworx/vampire/config/VampireConfig.java:574-583 | with the section, duration, damage boost, speed boost and cooldown are read with defaults 300, 1.5, 1.2 and 600; without it nothing changes, and night vision is never touched |
| Config.MissingModeSectionsStayZero | src/main/java/org/clockworx/vampire/config/VampireConfig.java:566-583 | on a first load a missing section leaves night vision off at level 0 and the bloodlust numbers at 0, while empty sections give the defaults |
| Config.PutOpacities | src/main/java/org/clockworx/vampire/config/VampireConfig.java:321-332 | putting entries never removes a material already in the map |
| Config.PutOpacitiesLastWins | src/main/java/org/clockworx/vampire/config/VampireConfig.java:321-332 | a material's opacity is its last valid entry |
| Config.VampireConfig.constructor | src/main/java/org/clockworx/vampire/config/VampireConfig.java:78-87 | from empty maps and zero fields, every section is loaded: the general, vampire, mode, altar and opacity settings are their loaded values over those initial values, and the vampire numbers are sane |
| Config.VampireConfig.LoadConfig | src/main/java/org/clockworx/vampire/config/VampireConfig.java:89-123 | the general, vampire, night-vision, bloodlust, altar and opacity settings become their loaded values in order |
| Config.VampireConfig.Reload | src/main/java/org/clockworx/vampire/config/VampireConfig.java:232-235 | reports success with every setting that loadConfig sets at its loaded value |
| Config.VampireConfig.LoadBlockOpacitySettings | src/main/java/org/clockworx/vampire/config/VampireConfig.java:311-333 | the defaults without a section; otherwise the armour opacity and each valid block entry put into the map, which is never cleared |
| Config.VampireConfig.SetDefaultBlockOpacitySettings | src/main/java/org/clockworx/vampire/config/VampireConfig.java:335-341 | 0.1 per armour piece and the four default block opacities |
| Config.VampireConfig.GetBlockOpacity | src/main/java/org/clockworx/vampire/config/VampireConfig.java:480-482 | the configured opacity, 1.0 for a material without one |
| Config.OpacityDefaults | src/main/java/org/clockworx/vampire/config/VampireConfig.java:335-341 | glass and glass pane 0.3, ice 0.5, water 0.7, and all other entries kept |
| Config.OpacityDefaultsTable | src/main/java/org/clockworx/vampire/config/VampireConfig.java:335-341 | on a first load the listed blocks get their opacity and every other material reads 1.0 |
| Listener.DamageEvent.constructor | src/main/java/org/clockworx/vampire/listener/VampireListener.java:144-163 | an event carries its damage and whether a player is involved |
| Listener.Resistance | src/main/java/org/clockworx/vampire/listener/VampireListener.java:184-192 | 5% per unit of blood, capped at 50% from ten units on |
| Listener.DamageDealt | src/main/java/org/clockworx/vampire/listener/VampireListener.java:153-160 | a vampire attacker's damage times 1 + 0.1 per unit of blood, other damage unchanged (properties in DealtBounds) |
| Listener.DamageReceived | src/main/java/org/clockworx/vampire/listener/VampireListener.java:184-192 | a vampire victim's damage times 1 minus its resistance, other damage unchanged (properties in ReceivedBounds) |
| Listener.DealtBounds | src/main/java/org/clockworx/vampire/listener/VampireListener.java:153-160 | a vampire with blood in [0, 10] deals between one and two times the damage, more with more blood; others deal it unchanged |
| Listener.ReceivedBounds | src/main/java/org/clockworx/vampire/listener/VampireListener.java:184-192 | a vampire keeps at least half of the damage, exactly half from ten blood on, and more blood never increases it |
| Listener.FullBloodDuel | src/main/java/org/clockworx/vampire/listener/VampireListener.java:144-195 | between two vampires at full blood the bonus and the resistance cancel out |
| Listener.OnEntityDamage | src/main/java/org/clockworx/vampire/listener/VampireListener.java:144-163 | a player's attack is scaled by the attacker's factor; other damage is unchanged |
| Listener.OnEntityDamageReceive | src/main/java/org/clockworx/vampire/listener/VampireListener.java:175-195 | a player's damage taken is reduced by the victim's resistance; other damage is unchanged |
| Listener.OnBloodChange | src/main/java/org/clockworx/vampire/listener/VampireListener.java:206-217 | below the threshold the player gets weakness and the warning; otherwise nothing |
| Listener.OnInfectionChange | src/main/java/org/clockworx/vampire/listener/VampireListener.java:228-238 | an infection above one half brings weakness; otherwise nothing |
| Listener.ToggledNightVision | src/main/java/org/clockworx/vampire/listener/VampireListener.java:320-328 | night vision is present afterwards iff it was absent before, and every other effect is kept |
| Listener.ToggleTwice | src/main/java/org/clockworx/vampire/listener/VampireListener.java:320-328 | toggling twice from a state without night vision restores the effects |
| Listener.WithVampireEffects | src/main/java/org/clockworx/vampire/listener/VampireListener.java:276-282 | permanent night vision at the configured level when enabled, otherwise no change |
| Listener.OnPlayerJoin | src/main/java/org/clockworx/vampire/listener/VampireListener.java:50-59 | a player recorded as vampire gets the vampire effects; anyone else is unchanged |
| Listener.OnVampireChange | src/main/java/org/clockworx/vampire/listener/VampireListener.java:250-265 | a new vampire is told and gets the effects; a cured one is told and loses night vision |
| Listener.WithBloodlustMode | src/main/java/org/clockworx/vampire/listener/VampireListener.java:293-309 | strength and speed, each for the configured seconds in ticks |
| Listener.OnVampireMode | src/main/java/org/clockworx/vampire/listener/VampireListener.java:116-133 | "bloodlust" and "nightvision" in any case apply their mode; other modes change nothing |
| Listener.Shrieked | src/main/java/org/clockworx/vampire/listener/VampireListener.java:89-104 | blindness and slowness are set and every other effect is kept |
| Listener.ShriekedIdempotent | src/main/java/org/clockworx/vampire/listener/VampireListener.java:89-104 | being shrieked at twice equals once |
| Listener.OnVampireShriek | src/main/java/org/clockworx/vampire/listener/VampireListener.java:89-104 | every player within ten blocks is blinded and slowed, the others untouched, and nobody moves |
| Listener.ShriekerIsShrieked | src/main/java/org/clockworx/vampire/listener/VampireListener.java:89-104 | the shrieker is within their own shriek |
| BloodFlask.CreateBloodFlask | src/main/java/org/clockworx/vampire/util/BloodFlaskUtil.java:43-60 | one potion with the flask name, the amount line and the vampiric line |
| BloodFlask.IsBloodFlask | src/main/java/org/clockworx/vampire/util/BloodFlaskUtil.java:68-71 | a stack with meta whose display name is the flask name (used by FlaskAmount, FlaskVampiric and CreateRoundTrip) |
| BloodFlask.SpaceAt | src/main/java/org/clockworx/vampire/util/BloodFlaskUtil.java:79-90 | the position of the first space, or the length |
| BloodFlask.FirstToken | src/main/java/org/clockworx/vampire/util/BloodFlaskUtil.java:79-90 | split(" ")[0]: the space-free prefix ending at the first space or the end of the text; none exactly for a non-empty text of spaces |
| BloodFlask.FlaskAmount | src/main/java/org/clockworx/vampire/util/BloodFlaskUtil.java:79-90 | 0 for anything that is not a flask or has no lore, and for a first lore line without a first word; otherwise that first word parsed as a double, 0 when it is no number |
| BloodFlask.FlaskVampiric | src/main/java/org/clockworx/vampire/util/BloodFlaskUtil.java:98-103 | false for non-flasks; for a flask with lore it throws exactly when there is a single line |
| BloodFlask.CreateRoundTrip | src/main/java/org/clockworx/vampire/util/BloodFlaskUtil.java:43-103 | a created flask is recognised, keeps its vampiric flag, and reads back the parsed formatted amount |
| BloodFlask.SpaceAtPrefix | src/main/java/org/clockworx/vampire/util/BloodFlaskUtil.java:79-90 | after a spaceless word and a space, the first space is right after the word |
| BloodFlask.SingleLoreLineThrows | src/main/java/org/clockworx/vampire/util/BloodFlaskUtil.java:98-103 | a flask with a single lore line makes the vampiric check throw |
| BloodFlask.BottleConsumed | src/main/java/org/clockworx/vampire/util/BloodFlaskUtil.java:110-121 | a bottle stack loses one, a single bottle leaves the hand empty, and anything else is untouched |
| BloodFlask.ConsumeGlassBottle | src/main/java/org/clockworx/vampire/util/BloodFlaskUtil.java:110-121 | only the held slot changes |
| BloodFlask.FirstEmpty | src/main/java/org/clockworx/vampire/util/BloodFlaskUtil.java:129-143 | the first empty slot, or none when all are full |
| BloodFlask.AddedPotion | src/main/java/org/clockworx/vampire/util/BloodFlaskUtil.java:129-143 | the potion fills the first empty slot, and a full inventory is unchanged |
| BloodFlask.CreateBloodFlaskFromPlayer | src/main/java/org/clockworx/vampire/util/BloodFlaskUtil.java:129-143 | for an online player the bottle is spent, a flask of the player's vampirism added and the created message returned; offline nothing happens |
| BloodFlask.FillTradesBottleForFlask | src/main/java/org/clockworx/vampire/util/BloodFlaskUtil.java:110-143 | filling spends one bottle, and with a single bottle the flask takes its slot |
| HolyWater.CreateHolyWater | src/main/java/org/clockworx/vampire/util/HolyWaterUtil.java:39-52 | one splash potion with the holy water name and lore, recognised as holy water |
| HolyWater.IsHolyWater | src/main/java/org/clockworx/vampire/util/HolyWaterUtil.java:70-75 | a stack with meta whose display name is the holy water name (property in HolyWaterByNameOnly) |
| HolyWater.HolyWaterByNameOnly | src/main/java/org/clockworx/vampire/util/HolyWaterUtil.java:70-75 | any stack with the name is holy water, whatever its type or lore |
| HolyWater.FromIngredients | src/main/java/org/clockworx/vampire/util/HolyWaterUtil.java:84-89 | holy water iff a potion and lapis are given, otherwise nothing |
| HolyWater.Spent | src/main/java/org/clockworx/vampire/util/HolyWaterUtil.java:97-109 | a stack of more than one loses one, otherwise it turns into air |
| HolyWater.ConsumeIngredients | src/main/java/org/clockworx/vampire/util/HolyWaterUtil.java:97-109 | the inventory and the outcome after spending each ingredient in turn, including the throws |
| HolyWater.ConsumedSpendsOneEach | src/main/java/org/clockworx/vampire/util/HolyWaterUtil.java:97-109 | two different slots lose one unit each and nothing else changes; one slot given twice loses two |
| HolyWater.NullLapisStillSpendsWater | src/main/java/org/clockworx/vampire/util/HolyWaterUtil.java:97-109 | a null lapis throws after the water bottle has been spent |

## Left out

- Bukkit I/O is outside the model: chat messages, sounds, particles, permissions and the scheduler. The 20-tick altar delay is the separate step `Altars.Altar.Complete`.
- Potion-effect merging is reduced to a map from effect type to the effect last added. `addPotionEffect` in Bukkit may keep a stronger effect.
- The async `thenAccept` and `join` paths of the tick and the listeners are modelled as one sequential call.
- Hibernate sessions, HQL and transactions are outside the model. The store is two maps, and a multi-row `uniqueResult()` is a rolled-back error result.
- Floating point is outside the model: `double` is an exact `real`, with no NaN, no -0.0 and no rounding. `TypeLimitedDouble` keeps NaN and the infinities as `Numbers.Double` because it tests them.
- `Altars.LightRitualsCure`: the five-ritual count holds for exact reals only. In doubles, `max(0.0, x - 0.2)` applied five times to 1.0 leaves about 5.55e-17, so a player at 1.0 (the level a Dark conversion leaves) stays infected and needs a sixth ritual.
- `Altars.DarkRitualsToConvert`: the level 0.9 after five rituals is exact; in doubles it is 0.8999999999999999, and six rituals still convert.
- Number parsing and formatting (`Double.parseDouble`, `"%.1f"`, `DecimalFormat`) and colour translation are function parameters. A locale that writes a comma makes a flask amount unparsable (0); this follows from the parameters and is not stated.
- `int` and `long` overflow is not modelled.
- Case mapping covers ASCII letters only.
- `Entity.VampirePlayer.Shriek`: the lightning effect and the sound are not modelled.
- `Entity.VampirePlayer.AcceptTrade`: the infection transfer in the accept command is outside the model, because it is command glue over the database.
- `Accumulators.Accumulator`: `Equals` reads the three fields of another accumulator, without the runtime class check of `getClass()`.
- `Resources.RemoveItem`: Bukkit's own `Inventory.removeItem`, used by the delayed ritual, is modelled by the same matching rule.
- `BloodFlask.AddedPotion`: `addItem` stacking onto existing stacks is not modelled, because a potion does not stack. A full inventory drops the flask.
- `HolyWater.Spent`: the meta reset when a stack becomes air is not modelled.
- `Language.LanguageConfig.LoadLanguage`: file reading and `saveResource` are outside the model, so the caller supplies the entries and whether the file exists. The language field starts as "en" rather than null.
- `Config.GetString`: the `toString` of a non-text value is not modelled, so such a value gives the default.
- VampireConfig's getters that return a field unchanged are not separate members. Neither are the potion and sound builders or the database section.
- `Listener.ListenerSettings`: its low-blood threshold and mode values are parameters; they are the values `Config.VampireConfig` holds in `vampire` and `modes`.
- `Listener.OnVampireMode`: the bloodlust branch's asynchronous `setLastBloodlustTime(now)` and the save that follows are not modelled. The player record has no last-bloodlust time.
- `BloodFlask.CreateBloodFlask`: the INCREASE_DAMAGE custom effect and the two hidden item flags are not modelled, because item meta here holds only a display name and lore.
- `HolyWater.CreateHolyWater`: the REGENERATION custom effect is not modelled, for the same reason.
- `Task.VampireTask.UpdateEnvironmentalDamage`: the fire ticks are a flag in the result rather than a countdown.
- The commands, events, experience, food and health accumulators, FxUtil, VampireMessages, VampirePermission and the plugin wiring are not part of this model.

=== FILE: accumulator.dfy ===
/**
 * Bounded accumulators: a value kept between a minimum and a maximum, and
 * the player-bound variant whose overrides call a save hook when the value
 * moves by more than 0.01.
 */
module Accumulators {
  import opened Numbers

  /** The smallest change (exclusive) that triggers a save. */
  const SAVE_THRESHOLD: real := 0.01

  /**
   * Math.min(Math.max(v, min), max): the value setValue stores. With
   * min <= max it lies in [min, max]; with min > max the maximum wins.
   */
  function Bounded(v: real, min: real, max: real): (r: real)
    ensures r <= max
    ensures min <= max ==> min <= r
    ensures min <= v <= max ==> r == v
    ensures min <= max && v <= min ==> r == min
    ensures v >= max ==> r == max
    ensures min > max ==> r == max
  {
    MinR(MaxR(v, min), max)
  }

  /** Storing the stored value again changes nothing: setValue(getValue()) is a no-op. */
  lemma BoundedIdempotent(v: real, min: real, max: real)
    ensures Bounded(Bounded(v, min, max), min, max) == Bounded(v, min, max)
  {
    if min <= max {
      assert min <= Bounded(v, min, max) <= max;
    } else {
      assert Bounded(v, min, max) == max;
    }
  }

  /**
   * With min <= max, the stored value sits at the minimum exactly when the
   * requested value was at or below it, and at the maximum exactly when the
   * requested value was at or above it.
   */
  lemma BoundedAtBounds(v: real, min: real, max: real)
    requires min < max
    ensures Bounded(v, min, max) <= min <==> v <= min
    ensures Bounded(v, min, max) >= max <==> v >= max
  {
    if v <= min {
      assert Bounded(v, min, max) == min;
    } else if v >= max {
      assert Bounded(v, min, max) == max;
    } else {
      assert Bounded(v, min, max) == v;
    }
  }

  /** Accumulator: the clamped value and its fixed bounds. */
  class Accumulator {
    var value: real
    const min: real
    const max: real

    /** Accumulator(value, min, max): the bounds are set before the first setValue. */
    constructor (v: real, lo: real, hi: real)
      ensures min == lo && max == hi
      ensures value == Bounded(v, lo, hi)
    {
      min := lo;
      max := hi;
      value := Bounded(v, lo, hi);
    }

    /** setValue(v): stores v clamped to the bounds. */
    method SetValue(v: real)
      modifies this
      ensures value == Bounded(v, min, max)
      ensures min < max ==> (IsAtMin() <==> v <= min) && (IsAtMax() <==> v >= max)
    {
      value := Bounded(v, min, max);
      if min < max {
        BoundedAtBounds(v, min, max);
      }
    }

    /** addValue(d): setValue(getValue() + d). */
    method AddValue(d: real)
      modifies this
      ensures value == Bounded(old(value) + d, min, max)
      ensures min < max ==> (IsAtMin() <==> old(value) + d <= min) && (IsAtMax() <==> old(value) + d >= max)
    {
      SetValue(value + d);
    }

    /** isAtMin(): value <= min. */
    predicate IsAtMin()
      reads this
    {
      value <= min
    }

    /** isAtMax(): value >= max. */
    predicate IsAtMax()
      reads this
    {
      value >= max
    }

    /** equals(o): the same object, or another accumulator with equal value, min and max. */
    predicate Equals(that: Accumulator?)
      reads this, that
    {
      that != null && (this == that || (that.value == value && that.min == min && that.max == max))
    }

    /** equals is reflexive, symmetric and transitive. */
    lemma EqualsIsEquivalence(that: Accumulator, other: Accumulator)
      ensures Equals(this)
      ensures Equals(that) <==> that.Equals(this)
      ensures Equals(that) && that.Equals(other) ==> Equals(other)
    {
    }
  }

  /** One call of the save hook: the value stored at that moment and whether vampirePlayer was assigned yet. */
  datatype SaveCall = SaveCall(value: real, playerAssigned: bool)

  /** The save trigger of setValue: the old value against the requested, unclamped one. */
  predicate SetSaves(oldValue: real, requested: real)
  {
    AbsR(oldValue - requested) > SAVE_THRESHOLD
  }

  /** The save trigger of addValue: the old value against the value actually stored. */
  predicate AddSaves(oldValue: real, newValue: real)
  {
    AbsR(oldValue - newValue) > SAVE_THRESHOLD
  }

  /**
   * The two triggers differ: setValue on a value already at the maximum
   * with a request beyond it stores nothing new yet saves, while addValue
   * in the same situation does not save.
   */
  lemma ClampedSetStillSaves(value: real, min: real, max: real, excess: real)
    requires min <= value == max
    requires excess > SAVE_THRESHOLD
    ensures Bounded(value + excess, min, max) == value
    ensures SetSaves(value, value + excess)
    ensures !AddSaves(value, Bounded(value + excess, min, max))
  {
  }

  /**
   * VampirePlayerAccumulator: an accumulator tied to a player whose setValue
   * and addValue overrides call save(); saves records those calls in order.
   */
  class PlayerAccumulator {
    var value: real
    const min: real
    const max: real
    var saves: seq<SaveCall>

    /**
     * VampirePlayerAccumulator(player, value, min, max). The superclass
     * constructor's setValue already runs the override, while value still
     * holds the field default 0 and vampirePlayer is not yet assigned.
     */
    constructor (v: real, lo: real, hi: real)
      ensures min == lo && max == hi
      ensures value == Bounded(v, lo, hi)
      ensures saves == if SetSaves(0.0, v) then [SaveCall(Bounded(v, lo, hi), false)] else []
    {
      min := lo;
      max := hi;
      value := Bounded(v, lo, hi);
      saves := if SetSaves(0.0, v) then [SaveCall(Bounded(v, lo, hi), false)] else [];
    }

    /** setValue(v) override: clamps through the superclass, then saves if |old - v| > 0.01. */
    method SetValue(v: real)
      modifies this
      ensures value == Bounded(v, min, max)
      ensures saves == old(saves) + if SetSaves(old(value), v) then [SaveCall(value, true)] else []
    {
      var oldValue := value;
      value := Bounded(v, min, max);
      if SetSaves(oldValue, v) {
        saves := saves + [SaveCall(value, true)];
      }
    }

    /**
     * addValue(d) override: the superclass addValue dispatches to the
     * setValue override (which may save once), then this override saves
     * again if the stored value moved by more than 0.01.
     */
    method AddValue(d: real)
      modifies this
      ensures value == Bounded(old(value) + d, min, max)
      ensures saves == old(saves)
                       + (if SetSaves(old(value), old(value) + d) then [SaveCall(value, true)] else [])
                       + (if AddSaves(old(value), value) then [SaveCall(value, true)] else [])
    {
      var oldValue := value;
      SetValue(value + d);
      if AddSaves(oldValue, value) {
        saves := saves + [SaveCall(value, true)];
      }
    }
  }
}

=== FILE: altar_structure.dfy ===
/**
 * The pure part of the altar validator: the cube of blocks around the core,
 * the histogram of wanted materials in it, the sum of a count map, and the
 * per-material shortfall against the requirements.
 */
module AltarStructure {
  import opened Items

  /** A block position. */
  datatype Pos = Pos(x: int, y: int, z: int)

  /** The blocks c + (x, y, z) for x from x0 up to r. */
  function Row(c: Pos, r: int, y: int, z: int, x0: int): (s: seq<Pos>)
    ensures |s| == if x0 > r then 0 else r - x0 + 1
    decreases r - x0 + 1
  {
    if x0 > r then [] else [Pos(c.x + x0, c.y + y, c.z + z)] + Row(c, r, y, z, x0 + 1)
  }

  /** The rows for z from z0 up to r, each running x from -r to r. */
  function Layer(c: Pos, r: int, y: int, z0: int): seq<Pos>
    decreases r - z0 + 1
  {
    if z0 > r then [] else Row(c, r, y, z0, -r) + Layer(c, r, y, z0 + 1)
  }

  /** The layers for y from y0 up to r. */
  function Layers(c: Pos, r: int, y0: int): seq<Pos>
    decreases r - y0 + 1
  {
    if y0 > r then [] else Layer(c, r, y0, -r) + Layers(c, r, y0 + 1)
  }

  /** getCubeBlocks: y outermost, then z, then x, each from -radius to radius. */
  function CubeBlocks(c: Pos, radius: int): seq<Pos>
  {
    Layers(c, radius, -radius)
  }

  /** No position occurs twice. */
  predicate Distinct(s: seq<Pos>)
  {
    forall i, j :: 0 <= i < j < |s| ==> s[i] != s[j]
  }

  lemma DistinctConcat(a: seq<Pos>, b: seq<Pos>)
    requires Distinct(a) && Distinct(b)
    requires forall p :: p in a ==> p !in b
    ensures Distinct(a + b)
  {
    forall i, j | 0 <= i < j < |a + b| ensures (a + b)[i] != (a + b)[j] {
      if i < |a| && j >= |a| {
        assert (a + b)[i] in a;
        assert (a + b)[j] in b;
      }
    }
  }

  /** True when p lies within r of the centre c on the x axis, and so on. */
  predicate InCube(c: Pos, r: int, p: Pos)
  {
    c.x - r <= p.x <= c.x + r && c.y - r <= p.y <= c.y + r && c.z - r <= p.z <= c.z + r
  }

  /** A row holds exactly the blocks at its y and z with x from x0 up to r. */
  lemma {:induction false} RowMember(c: Pos, r: int, y: int, z: int, x0: int, p: Pos)
    ensures p in Row(c, r, y, z, x0) <==> p.y == c.y + y && p.z == c.z + z && c.x + x0 <= p.x <= c.x + r
    decreases r - x0 + 1
  {
    if x0 <= r {
      RowMember(c, r, y, z, x0 + 1, p);
    }
  }

  /** A row holds no block twice. */
  lemma {:induction false} RowDistinct(c: Pos, r: int, y: int, z: int, x0: int)
    ensures Distinct(Row(c, r, y, z, x0))
    decreases r - x0 + 1
  {
    if x0 <= r {
      var head := [Pos(c.x + x0, c.y + y, c.z + z)];
      var rest := Row(c, r, y, z, x0 + 1);
      RowDistinct(c, r, y, z, x0 + 1);
      forall p | p in head ensures p !in rest {
        RowMember(c, r, y, z, x0 + 1, p);
      }
      DistinctConcat(head, rest);
    }
  }

  lemma {:induction false} LayerLength(c: Pos, r: int, y: int, z0: int)
    requires r >= 0 && z0 <= r + 1
    ensures |Layer(c, r, y, z0)| == (r - z0 + 1) * (2 * r + 1)
    decreases r - z0 + 1
  {
    if z0 <= r {
      LayerLength(c, r, y, z0 + 1);
      assert |Layer(c, r, y, z0)| == (2 * r + 1) + (r - z0) * (2 * r + 1);
    }
  }

  /** A layer holds exactly the blocks at its y with x in range and z from z0 up to r. */
  lemma {:induction false} LayerMember(c: Pos, r: int, y: int, z0: int, p: Pos)
    ensures p in Layer(c, r, y, z0) <==>
              p.y == c.y + y && c.x - r <= p.x <= c.x + r && c.z + z0 <= p.z <= c.z + r
    decreases r - z0 + 1
  {
    if z0 <= r {
      var row := Row(c, r, y, z0, -r);
      var rest := Layer(c, r, y, z0 + 1);
      assert Layer(c, r, y, z0) == row + rest;
      LayerMember(c, r, y, z0 + 1, p);
      RowMember(c, r, y, z0, -r, p);
      assert p in row + rest <==> p in row || p in rest;
    }
  }

  /** A layer holds no block twice. */
  lemma {:induction false} LayerDistinct(c: Pos, r: int, y: int, z0: int)
    ensures Distinct(Layer(c, r, y, z0))
    decreases r - z0 + 1
  {
    if z0 <= r {
      var row := Row(c, r, y, z0, -r);
      var rest := Layer(c, r, y, z0 + 1);
      LayerDistinct(c, r, y, z0 + 1);
      RowDistinct(c, r, y, z0, -r);
      RowBeforeRows(c, r, y, z0, row, rest);
      DistinctConcat(row, rest);
      assert Layer(c, r, y, z0) == row + rest;
    }
  }

  /** No block of the row at z0 occurs in the rows after it. */
  lemma RowBeforeRows(c: Pos, r: int, y: int, z0: int, row: seq<Pos>, rest: seq<Pos>)
    requires row == Row(c, r, y, z0, -r) && rest == Layer(c, r, y, z0 + 1)
    ensures forall p :: p in row ==> p !in rest
  {
    forall p | p in row ensures p !in rest {
      RowMember(c, r, y, z0, -r, p);
      LayerMember(c, r, y, z0 + 1, p);
    }
  }

  lemma {:induction false} LayersLength(c: Pos, r: int, y0: int)
    requires r >= 0 && y0 <= r + 1
    ensures |Layers(c, r, y0)| == (r - y0 + 1) * ((2 * r + 1) * (2 * r + 1))
    decreases r - y0 + 1
  {
    if y0 <= r {
      LayersLength(c, r, y0 + 1);
      LayerLength(c, r, y0, -r);
      var nn := (2 * r + 1) * (2 * r + 1);
      assert |Layer(c, r, y0, -r)| == nn;
      assert |Layers(c, r, y0)| == nn + (r - y0) * nn;
    }
  }

  /** The layers hold exactly the blocks with x and z in range and y from y0 up to r. */
  lemma {:induction false} LayersMember(c: Pos, r: int, y0: int, p: Pos)
    ensures p in Layers(c, r, y0) <==>
              c.x - r <= p.x <= c.x + r && c.y + y0 <= p.y <= c.y + r && c.z - r <= p.z <= c.z + r
    decreases r - y0 + 1
  {
    if y0 <= r {
      var layer := Layer(c, r, y0, -r);
      var above := Layers(c, r, y0 + 1);
      assert Layers(c, r, y0) == layer + above;
      LayersMember(c, r, y0 + 1, p);
      LayerMember(c, r, y0, -r, p);
      assert p in layer + above <==> p in layer || p in above;
    }
  }

  /** The layers hold no block twice. */
  lemma {:induction false} LayersDistinct(c: Pos, r: int, y0: int)
    ensures Distinct(Layers(c, r, y0))
    decreases r - y0 + 1
  {
    if y0 <= r {
      var layer := Layer(c, r, y0, -r);
      var above := Layers(c, r, y0 + 1);
      LayersDistinct(c, r, y0 + 1);
      LayerDistinct(c, r, y0, -r);
      LayerBelowLayers(c, r, y0, layer, above);
      DistinctConcat(layer, above);
      assert Layers(c, r, y0) == layer + above;
    }
  }

  /** No block of the layer at y0 occurs in the layers above it. */
  lemma LayerBelowLayers(c: Pos, r: int, y0: int, layer: seq<Pos>, above: seq<Pos>)
    requires layer == Layer(c, r, y0, -r) && above == Layers(c, r, y0 + 1)
    ensures forall p :: p in layer ==> p !in above
  {
    forall p | p in layer ensures p !in above {
      LayerMember(c, r, y0, -r, p);
      LayersMember(c, r, y0 + 1, p);
    }
  }

  /** getCubeBlocks returns (2r+1)^3 blocks. */
  lemma CubeBlocksLength(c: Pos, r: int)
    requires r >= 0
    ensures |CubeBlocks(c, r)| == (2 * r + 1) * (2 * r + 1) * (2 * r + 1)
  {
    LayersLength(c, r, -r);
    var n := 2 * r + 1;
    assert r - -r + 1 == n;
    assert n * (n * n) == n * n * n;
  }

  /** getCubeBlocks returns exactly the blocks within r of the centre on every axis. */
  lemma CubeBlocksMembers(c: Pos, r: int)
    ensures forall p :: p in CubeBlocks(c, r) <==> InCube(c, r, p)
  {
    var all := CubeBlocks(c, r);
    assert all == Layers(c, r, -r);
    forall p ensures p in all <==> InCube(c, r, p) {
      LayersMember(c, r, -r, p);
    }
  }

  /**
   * getCubeBlocks returns (2r+1)^3 blocks, no block twice, and exactly the
   * blocks within r of the centre on every axis.
   */
  lemma CubeBlocksShape(c: Pos, r: int)
    requires r >= 0
    ensures |CubeBlocks(c, r)| == (2 * r + 1) * (2 * r + 1) * (2 * r + 1)
    ensures Distinct(CubeBlocks(c, r))
    ensures forall p :: p in CubeBlocks(c, r) <==> InCube(c, r, p)
  {
    CubeBlocksLength(c, r);
    LayersDistinct(c, r, -r);
    CubeBlocksMembers(c, r);
  }

  /** A negative radius gives no blocks at all. */
  lemma CubeBlocksNegative(c: Pos, r: int)
    requires r < 0
    ensures CubeBlocks(c, r) == []
  {
  }

  /** The block types at the given positions. */
  function TypesAt(world: Pos -> Material, blocks: seq<Pos>): (r: seq<Material>)
    ensures |r| == |blocks|
    ensures forall i :: 0 <= i < |blocks| ==> r[i] == world(blocks[i])
  {
    if blocks == [] then [] else [world(blocks[0])] + TypesAt(world, blocks[1..])
  }

  /**
   * countMaterials: one pass over the blocks, merging a count of 1 into the
   * entry of each wanted material met.
   */
  function CountMaterials(blocks: seq<Material>, wanted: set<Material>): map<Material, int>
  {
    if blocks == [] then map[]
    else
      var prev := CountMaterials(blocks[..|blocks| - 1], wanted);
      var m := blocks[|blocks| - 1];
      if m !in wanted then prev
      else prev[m := (if m in prev then prev[m] else 0) + 1]
  }

  /**
   * The histogram counts only wanted materials: each entry is the number of
   * blocks of that material, and a material with no block has no entry.
   */
  lemma {:induction false} CountMaterialsIsHistogram(blocks: seq<Material>, wanted: set<Material>)
    ensures CountMaterials(blocks, wanted) == map m | m in wanted && m in multiset(blocks) :: multiset(blocks)[m]
  {
    if blocks != [] {
      var init := blocks[..|blocks| - 1];
      var m := blocks[|blocks| - 1];
      assert blocks == init + [m];
      CountMaterialsIsHistogram(init, wanted);
      assert multiset(blocks) == multiset(init) + multiset{m};
    }
  }

  /** Some key of a non-empty map. */
  ghost function AnyKey(m: map<Material, int>): (k: Material)
    requires m != map[]
    ensures k in m
  {
    var k :| k in m; k
  }

  /** sumCollection(map.values()): the sum of the values, over all keys. */
  ghost function SumValues(m: map<Material, int>): int
    decreases |m|
  {
    if m == map[] then 0 else m[AnyKey(m)] + SumValues(m - {AnyKey(m)})
  }

  /** The sum does not depend on which key is taken first. */
  lemma {:induction false} SumValuesRemove(m: map<Material, int>, k: Material)
    requires k in m
    ensures SumValues(m) == m[k] + SumValues(m - {k})
    decreases |m|
  {
    var k' := AnyKey(m);
    if k' != k {
      var both := m - {k'} - {k};
      assert m - {k} - {k'} == both;
      SumValuesRemove(m - {k'}, k);
      SumValuesRemove(m - {k}, k');
    }
  }

  /** A map of non-negative counts sums to more than zero exactly when some count is positive. */
  lemma {:induction false} SumValuesPositive(m: map<Material, int>)
    requires forall k :: k in m ==> m[k] >= 0
    ensures SumValues(m) >= 0
    ensures SumValues(m) > 0 <==> exists k :: k in m && m[k] > 0
    decreases |m|
  {
    if m != map[] {
      var k :| k in m;
      SumValuesRemove(m, k);
      SumValuesPositive(m - {k});
      if SumValues(m) == 0 {
        forall k' | k' in m ensures m[k'] <= 0 {
          if k' != k {
            assert k' in m - {k};
          }
        }
      }
    }
  }

  /** The sum loop of sumCollection, over the entries of a count map in any order. */
  method SumCollection(m: map<Material, int>) returns (total: int)
    ensures total == SumValues(m)
  {
    total := 0;
    var rest := m;
    while rest != map[]
      invariant total + SumValues(rest) == SumValues(m)
      decreases |rest|
    {
      var k :| k in rest;
      SumValuesRemove(rest, k);
      total := total + rest[k];
      rest := rest - {k};
    }
  }

  /** getMissingMaterialCounts: the shortfall of every required material. */
  function Missing(required: map<Material, int>, nearby: map<Material, int>): (r: map<Material, int>)
    ensures r.Keys == required.Keys
    ensures forall m :: m in r ==> r[m] >= 0
  {
    map m | m in required :: if m in nearby then MaxOf0(required[m] - nearby[m]) else MaxOf0(required[m])
  }

  function MaxOf0(n: int): int { if n >= 0 then n else 0 }

  /**
   * The shortfall sums to zero exactly when every requirement is met by the
   * nearby count (an absent count being zero).
   */
  lemma MissingNoneIff(required: map<Material, int>, nearby: map<Material, int>)
    ensures SumValues(Missing(required, nearby)) == 0 <==>
            forall m :: m in required ==> (if m in nearby then nearby[m] else 0) >= required[m]
  {
    var miss := Missing(required, nearby);
    SumValuesPositive(miss);
    if SumValues(miss) != 0 {
      var m :| m in miss && miss[m] > 0;
      assert (if m in nearby then nearby[m] else 0) < required[m];
    }
  }
}

=== FILE: altars.dfy ===
/**
 * The two altars, the movement anchors of a running ritual and the altar
 * manager. Validating an altar (evalBlockUse) checks the core block, counts
 * the required materials in the cube around it, refuses a build too far
 * from the requirements, reports any shortfall, and then lets the altar
 * kind start its ritual: the Dark altar refuses vampires, the Light altar
 * refuses the uninfected, and both take their resources. The ritual itself
 * completes in a later step (use): it takes the resources once more and
 * applies the altar's effect.
 */
module Altars {
  import opened Wrappers
  import opened Numbers
  import opened Items
  import opened Host
  import opened Entity
  import opened Resources
  import opened AltarStructure

  datatype AltarKind = DarkAltar | LightAltar

  /** Requirements and resources of the Dark altar. */
  const DARK_COUNTS: map<Material, int> :=
    map[OBSIDIAN := 1, NETHERRACK := 16, SOUL_SAND := 8, DIAMOND_BLOCK := 2, GOLD_BLOCK := 4]
  const DARK_RESOURCES: seq<ItemStack> :=
    [Stack(ROTTEN_FLESH, 16), Stack(SPIDER_EYE, 8), Stack(BONE, 16), Stack(BLAZE_POWDER, 8)]

  /** Requirements and resources of the Light altar. */
  const LIGHT_COUNTS: map<Material, int> :=
    map[GLOWSTONE := 1, QUARTZ_BLOCK := 16, SEA_LANTERN := 8, DIAMOND_BLOCK := 2, GOLD_BLOCK := 4]
  const LIGHT_RESOURCES: seq<ItemStack> :=
    [Stack(GOLDEN_APPLE, 1), Stack(GLOWSTONE_DUST, 16), Stack(SUGAR, 32), Stack(BLAZE_POWDER, 8)]

  /** Why evalBlockUse answered as it did; only Started is a true answer. */
  datatype EvalOutcome =
    | NoPlayer
    | WrongCore
    | TooFewBlocks
    | Incomplete(missing: map<Material, int>)
    | UseVetoed
    | AlreadyVampire
    | NotInfected
    | ResourcesMissing
    | Started

  /** What a block interaction supplies: the clicked block, the configured search, the world. */
  datatype Interaction = Interaction(coreType: Material, center: Pos, radius: int, minRatio: real,
                                     world: Pos -> Material)

  /** The requirements with the core material added at count 1 when it is absent. */
  function WithCore(counts: map<Material, int>, core: Material): (r: map<Material, int>)
    ensures core in r && r[core] == (if core in counts then counts[core] else 1)
  {
    if core in counts then counts else counts[core := 1]
  }

  /** Adding the core twice is the same as adding it once. */
  lemma WithCoreIdempotent(counts: map<Material, int>, core: Material)
    ensures WithCore(WithCore(counts, core), core) == WithCore(counts, core)
  {
  }

  /** Both built-in altars already require their core, so the insertion never changes them. */
  lemma BuiltInAltarsRequireCore()
    ensures WithCore(DARK_COUNTS, OBSIDIAN) == DARK_COUNTS
    ensures WithCore(LIGHT_COUNTS, DIAMOND_BLOCK) == LIGHT_COUNTS
  {
  }

  /** The material counts found in the cube around the clicked block. */
  function Nearby(at: Interaction, required: map<Material, int>): map<Material, int>
  {
    CountMaterials(TypesAt(at.world, CubeBlocks(at.center, at.radius)), required.Keys)
  }

  /** The found blocks reach the given share of the required ones. */
  predicate RatioMet(found: int, required: int, ratio: real)
  {
    found as real >= required as real * ratio
  }

  /**
   * The structure part of evalBlockUse: too few of the required blocks
   * around the core, or the shortfall per material; None when the altar is
   * complete.
   */
  ghost function StructureVerdict(at: Interaction, required: map<Material, int>): Option<EvalOutcome>
  {
    var nearby := Nearby(at, required);
    if !RatioMet(SumValues(nearby), SumValues(required), at.minRatio) then Some(TooFewBlocks)
    else if SumValues(Missing(required, nearby)) > 0 then Some(Incomplete(Missing(required, nearby)))
    else None
  }

  /** What evalBlockUse reads of an altar: its kind, core, requirements (core included) and resources. */
  datatype AltarSpec = AltarSpec(kind: AltarKind, core: Material, required: map<Material, int>,
                                 resources: seq<ItemStack>)

  /**
   * The decision of evalBlockUse, step by step: player, core block, the
   * structure, the altar-use event, then the kind-specific start.
   */
  ghost function OutcomeOf(a: AltarSpec, at: Interaction, hasPlayer: bool, v: PlayerView, inv: seq<Slot>,
                           vetoed: bool): EvalOutcome
  {
    if !hasPlayer then NoPlayer
    else if at.coreType != a.core then WrongCore
    else if StructureVerdict(at, a.required).Some? then StructureVerdict(at, a.required).value
    else if vetoed then UseVetoed
    else StartOutcome(a.kind, v, inv, a.resources)
  }

  /** The answers of a list of altars, each with its own event answer. */
  ghost function OutcomesOf(specs: seq<AltarSpec>, at: Interaction, hasPlayer: bool, v: PlayerView, inv: seq<Slot>,
                            vetoes: seq<bool>): (r: seq<EvalOutcome>)
    requires |vetoes| == |specs|
    ensures |r| == |specs|
  {
    seq(|specs|, k requires 0 <= k < |specs| => OutcomeOf(specs[k], at, hasPlayer, v, inv, vetoes[k]))
  }

  /** The kind-specific use: the Dark altar refuses vampires, the Light altar the uninfected. */
  function StartOutcome(kind: AltarKind, v: PlayerView, inv: seq<Slot>, resources: seq<ItemStack>): (r: EvalOutcome)
    ensures r == Started ==> HoldsEach(inv, resources)
    ensures r == Started && kind == DarkAltar ==> !v.isVampire
    ensures r == Started && kind == LightAltar ==> Infected(v)
    ensures r in {AlreadyVampire, NotInfected, ResourcesMissing, Started}
  {
    if kind == DarkAltar && v.isVampire then AlreadyVampire
    else if kind == LightAltar && !Infected(v) then NotInfected
    else if !HoldsEach(inv, resources) then ResourcesMissing
    else Started
  }

  /**
   * The structure is complete exactly when the found blocks reach the
   * required share and every required material is present in full.
   */
  lemma {:induction false} StructureCompleteIff(at: Interaction, required: map<Material, int>)
    ensures var nearby := Nearby(at, required);
            StructureVerdict(at, required).None?
            <==> RatioMet(SumValues(nearby), SumValues(required), at.minRatio)
                 && (forall m :: m in required ==> (if m in nearby then nearby[m] else 0) >= required[m])
  {
    MissingNoneIff(required, Nearby(at, required));
    SumValuesPositive(Missing(required, Nearby(at, required)));
  }

  /** hasPlayerMoved against an anchor: only the world and the coordinates matter. */
  predicate Moved(anchor: Option<Location>, current: Location)
  {
    anchor.Some? &&
    (anchor.value.world != current.world || anchor.value.x != current.x
     || anchor.value.y != current.y || anchor.value.z != current.z)
  }

  /**
   * Without an anchor nobody has moved; an anchor just taken at the current
   * location never reports a move; turning on the spot is not a move.
   */
  lemma MovedProperties(anchor: Option<Location>, current: Location, yaw: real, pitch: real)
    ensures anchor.None? ==> !Moved(anchor, current)
    ensures !Moved(Some(current), current)
    ensures Moved(anchor, current) == Moved(anchor, current.(yaw := yaw, pitch := pitch))
    ensures anchor.Some? ==> (Moved(anchor, current) <==>
              anchor.value.(yaw := current.yaw, pitch := current.pitch) != current)
  {
  }

  /** The static location map of the altars, one anchor per player. */
  class AnchorRegistry {
    var anchors: map<Uuid, Location>

    constructor ()
      ensures anchors == map[]
    {
      anchors := map[];
    }

    method Register(id: Uuid, at: Location)
      modifies this
      ensures anchors == old(anchors)[id := at]
    {
      anchors := anchors[id := at];
    }

    method Unregister(id: Uuid)
      modifies this
      ensures anchors == old(anchors) - {id}
    {
      anchors := anchors - {id};
    }

    predicate HasPlayerMoved(id: Uuid, current: Location)
      reads this
    {
      Moved(if id in anchors then Some(anchors[id]) else None, current)
    }
  }

  /**
   * applyEffects of the Dark altar: an infected player is pushed 0.2 towards
   * 1.0 and becomes a vampire on reaching it, an uninfected one gets 0.1;
   * a vetoed infection change leaves the player as it was.
   */
  function DarkRitual(v: PlayerView, vetoed: bool): (r: PlayerView)
    ensures r == v.(infectionLevel := r.infectionLevel, isVampire := r.isVampire)
    ensures vetoed ==> r == v
    ensures v.isVampire ==> r.isVampire
    ensures !vetoed ==> 0.0 < r.infectionLevel <= 1.0
    ensures !vetoed && 0.0 <= v.infectionLevel ==> r.infectionLevel > v.infectionLevel || r.infectionLevel == 1.0
    ensures r.isVampire && !v.isVampire ==> r.infectionLevel == 1.0 && Infected(v)
  {
    if vetoed then v
    else if Infected(v) then
      var n := MinR(1.0, v.infectionLevel + 0.2);
      v.(infectionLevel := n, isVampire := v.isVampire || n >= 1.0)
    else v.(infectionLevel := 0.1)
  }

  /**
   * applyEffects of the Light altar on the player record: infection drops by
   * 0.2 down to no lower than 0, unless vetoed; the vampire flag never changes.
   */
  function LightRitual(v: PlayerView, vetoed: bool): (r: PlayerView)
    ensures r == v.(infectionLevel := r.infectionLevel)
    ensures vetoed ==> r == v
    ensures r.isVampire == v.isVampire
    ensures !vetoed ==> 0.0 <= r.infectionLevel <= 1.0
    ensures 0.0 <= v.infectionLevel ==> r.infectionLevel <= v.infectionLevel
  {
    if vetoed then v
    else v.(infectionLevel := Clamp(MaxR(0.0, v.infectionLevel - 0.2), 0.0, 1.0))
  }

  function Ritual(kind: AltarKind, v: PlayerView, vetoed: bool): PlayerView
  {
    match kind
    case DarkAltar => DarkRitual(v, vetoed)
    case LightAltar => LightRitual(v, vetoed)
  }

  /** The Light altar heals by 4, never above the maximum health. */
  function Healed(health: real, maxHealth: real): (r: real)
    ensures r <= maxHealth
    ensures health <= maxHealth - 4.0 ==> r == health + 4.0
    ensures health <= maxHealth ==> health <= r
  {
    MinR(maxHealth, health + 4.0)
  }

  /**
   * Six unvetoed Dark rituals turn a player with no infection into a vampire,
   * five do not. The levels are exact reals (0.9 after five steps); in
   * doubles the fifth level is 0.8999999999999999 and the count is the same.
   */
  lemma DarkRitualsToConvert(v: PlayerView)
    requires !v.isVampire && v.infectionLevel == 0.0
    ensures var v5 := DarkRitual(DarkRitual(DarkRitual(DarkRitual(DarkRitual(v, false), false), false), false), false);
            !v5.isVampire && v5.infectionLevel == 0.9
            && DarkRitual(v5, false).isVampire && DarkRitual(v5, false).infectionLevel == 1.0
  {
    var v1 := DarkRitual(v, false);
    assert v1.infectionLevel == 0.1;
    var v2 := DarkRitual(v1, false);
    assert v2.infectionLevel == 0.3;
    var v3 := DarkRitual(v2, false);
    assert v3.infectionLevel == 0.5;
    var v4 := DarkRitual(v3, false);
    assert v4.infectionLevel == 0.7;
  }

  /**
   * Five unvetoed Light rituals cure any infection level in [0, 1], counted
   * in exact arithmetic. In doubles, five subtractions of 0.2 from 1.0 leave
   * about 5.55e-17, so a player at 1.0 needs a sixth ritual there.
   */
  lemma LightRitualsCure(v: PlayerView)
    requires 0.0 <= v.infectionLevel <= 1.0
    ensures LightRitual(LightRitual(LightRitual(LightRitual(LightRitual(v, false), false), false), false), false).infectionLevel == 0.0
  {
    var v1 := LightRitual(v, false);
    assert v1.infectionLevel == MaxR(0.0, v.infectionLevel - 0.2);
    var v2 := LightRitual(v1, false);
    assert v2.infectionLevel == MaxR(0.0, v.infectionLevel - 0.4);
    var v3 := LightRitual(v2, false);
    assert v3.infectionLevel == MaxR(0.0, v.infectionLevel - 0.6);
    var v4 := LightRitual(v3, false);
    assert v4.infectionLevel == MaxR(0.0, v.infectionLevel - 0.8);
  }

  /**
   * The resources are taken twice over a successful ritual: once when it
   * starts and again when it completes, so a single requirement of n items
   * costs min(2n, available).
   */
  lemma {:induction false} RitualTakesResourcesTwice(s: seq<Slot>, item: ItemStack)
    ensures var once := Removed(s, item.kind, item.durability, item.amount);
            var have := Available(s, item.kind, item.durability);
            Available(Removed(once, item.kind, item.durability, item.amount), item.kind, item.durability)
            == have - (if 2 * item.amount <= have then 2 * item.amount else have)
  {
    var once := Removed(s, item.kind, item.durability, item.amount);
    RemovedTakesAvailable(s, item.kind, item.durability, item.amount);
    RemovedTakesAvailable(once, item.kind, item.durability, item.amount);
  }

  /** The index of the first Started answer, or the length when there is none. */
  function FirstStarted(s: seq<EvalOutcome>): (r: nat)
    ensures r <= |s|
    ensures r < |s| ==> s[r] == Started
    ensures forall k :: 0 <= k < r ==> s[k] != Started
  {
    if s == [] then 0
    else if s[0] == Started then 0
    else 1 + FirstStarted(s[1..])
  }

  /** Anything that is Started at i with no Started before it is the first. */
  lemma FirstStartedIs(s: seq<EvalOutcome>, i: nat)
    requires i <= |s| && (i < |s| ==> s[i] == Started)
    requires forall k :: 0 <= k < i ==> s[k] != Started
    ensures FirstStarted(s) == i
  {
  }

  /**
   * What handleBlockInteract leaves behind, given each altar's answer: true
   * exactly when some altar starts, and then the inventory has lost the
   * resources of the first such altar; otherwise the inventory is as it was.
   */
  ghost predicate HandledAs(outcomes: seq<EvalOutcome>, specs: seq<AltarSpec>, inv0: seq<Slot>, inv1: seq<Slot>, ok: bool)
    requires |outcomes| == |specs|
  {
    var first := FirstStarted(outcomes);
    (ok <==> first < |outcomes|)
    && (ok ==> inv1 == RemovedAll(inv0, specs[first].resources))
    && (!ok ==> inv1 == inv0)
  }

  /** Stopping at the first Started answer, with its resources taken, is the handled outcome. */
  lemma HandledByFirst(outcomes: seq<EvalOutcome>, specs: seq<AltarSpec>, inv0: seq<Slot>, inv1: seq<Slot>, i: nat)
    requires |outcomes| == |specs| && i < |outcomes| && outcomes[i] == Started
    requires forall k :: 0 <= k < i ==> outcomes[k] != Started
    requires inv1 == RemovedAll(inv0, specs[i].resources)
    ensures HandledAs(outcomes, specs, inv0, inv1, true)
  {
    FirstStartedIs(outcomes, i);
  }

  /** Running out of altars with none started, and the inventory untouched, is the handled outcome. */
  lemma HandledByNone(outcomes: seq<EvalOutcome>, specs: seq<AltarSpec>, inv0: seq<Slot>)
    requires |outcomes| == |specs|
    requires forall k :: 0 <= k < |outcomes| ==> outcomes[k] != Started
    ensures HandledAs(outcomes, specs, inv0, inv0, false)
  {
    FirstStartedIs(outcomes, |outcomes|);
  }

  /** One more answer that is not Started keeps the prefix free of Started. */
  lemma NoneStartedExtends(outcomes: seq<EvalOutcome>, i: nat)
    requires i < |outcomes| && outcomes[i] != Started
    requires forall k :: 0 <= k < i ==> outcomes[k] != Started
    ensures forall k :: 0 <= k < i + 1 ==> outcomes[k] != Started
  {
  }

  ghost function SpecsOf(altars: seq<Altar>): (r: seq<AltarSpec>)
    reads altars
    ensures |r| == |altars|
    ensures forall k :: 0 <= k < |altars| ==> r[k] == altars[k].Spec()
  {
    if altars == [] then [] else [altars[0].Spec()] + SpecsOf(altars[1..])
  }

  class Altar {
    const kind: AltarKind
    const name: string
    const desc: string
    const coreMaterial: Material
    /** Required materials and their counts; evalBlockUse may add the core. */
    var materialCounts: map<Material, int>
    const resources: seq<ItemStack>

    constructor Dark()
      ensures kind == DarkAltar && name == "Dark Altar" && coreMaterial == OBSIDIAN
      ensures materialCounts == DARK_COUNTS && resources == DARK_RESOURCES
    {
      kind := DarkAltar;
      name := "Dark Altar";
      desc := "An altar that can infect players with vampirism or increase their infection.";
      coreMaterial := OBSIDIAN;
      materialCounts := DARK_COUNTS;
      resources := DARK_RESOURCES;
    }

    constructor Light()
      ensures kind == LightAltar && name == "Light Altar" && coreMaterial == DIAMOND_BLOCK
      ensures materialCounts == LIGHT_COUNTS && resources == LIGHT_RESOURCES
    {
      kind := LightAltar;
      name := "Light Altar";
      desc := "An altar that can heal vampirism infection.";
      coreMaterial := DIAMOND_BLOCK;
      materialCounts := LIGHT_COUNTS;
      resources := LIGHT_RESOURCES;
    }

    /** The requirements evalBlockUse checks against: the counts with the core included. */
    function Requirements(): map<Material, int>
      reads this
    {
      WithCore(materialCounts, coreMaterial)
    }

    function Spec(): AltarSpec
      reads this
    {
      AltarSpec(kind, coreMaterial, Requirements(), resources)
    }

    /**
     * evalBlockUse: true (Started) exactly when the decision allows the
     * ritual, in which case the resources are taken once; otherwise the
     * inventory is untouched. The core is added to the requirements once the
     * core block matches.
     */
    method EvalBlockUse(at: Interaction, player: HostPlayer?, vp: VampirePlayer, vetoed: bool)
      returns (outcome: EvalOutcome)
      modifies this, if player == null then {} else {player.inventory}
      ensures outcome == OutcomeOf(old(Spec()), at, player != null, vp.View(),
                                   old(if player == null then [] else player.inventory[..]), vetoed)
      ensures outcome == Started ==> player != null
      ensures player != null && outcome == Started ==>
                player.inventory[..] == RemovedAll(old(player.inventory[..]), resources)
      ensures player != null && outcome != Started ==> player.inventory[..] == old(player.inventory[..])
      ensures materialCounts == if player != null && at.coreType == coreMaterial
                                then WithCore(old(materialCounts), coreMaterial) else old(materialCounts)
      ensures Spec() == old(Spec())
    {
      if player == null {
        return NoPlayer;
      }
      if at.coreType != coreMaterial {
        return WrongCore;
      }
      if coreMaterial !in materialCounts {
        materialCounts := materialCounts[coreMaterial := 1];
      }
      assert materialCounts == old(Requirements());
      var verdict := CheckStructure(at, materialCounts);
      if verdict.Some? {
        return verdict.value;
      }
      if vetoed {
        return UseVetoed;
      }
      outcome := Start(vp, player);
    }

    /** The counting, summing and shortfall steps of evalBlockUse. */
    static method CheckStructure(at: Interaction, required: map<Material, int>) returns (verdict: Option<EvalOutcome>)
      ensures verdict == StructureVerdict(at, required)
    {
      var nearby := Nearby(at, required);
      var requiredSum := SumCollection(required);
      var nearbySum := SumCollection(nearby);
      if !RatioMet(nearbySum, requiredSum, at.minRatio) {
        return Some(TooFewBlocks);
      }
      var missing := Missing(required, nearby);
      var missingSum := SumCollection(missing);
      if missingSum > 0 {
        return Some(Incomplete(missing));
      }
      return None;
    }

    /** use of AltarDark / AltarLight: the kind check, then the resource removal attempt. */
    method Start(vp: VampirePlayer, player: HostPlayer) returns (outcome: EvalOutcome)
      modifies player.inventory
      ensures outcome == StartOutcome(kind, vp.View(), old(player.inventory[..]), resources)
      ensures outcome == Started ==> player.inventory[..] == RemovedAll(old(player.inventory[..]), resources)
      ensures outcome != Started ==> player.inventory[..] == old(player.inventory[..])
    {
      if kind == DarkAltar && vp.isVampire {
        return AlreadyVampire;
      }
      if kind == LightAltar && !vp.IsInfected() {
        return NotInfected;
      }
      var ok := RemoveAttempt(player.inventory, resources);
      outcome := if ok then Started else ResourcesMissing;
    }

    /**
     * The delayed AltarAbstract.use: unless its own event is vetoed, it
     * anchors the player, takes the resources again, applies the effect and
     * drops the anchor.
     */
    method Complete(vp: VampirePlayer, player: HostPlayer, anchors: AnchorRegistry, vetoed: bool, infectionVetoed: bool)
      returns (ok: bool)
      requires vp.Valid()
      modifies vp, player`health, player.inventory, anchors
      ensures vp.Valid()
      ensures ok == !vetoed
      ensures vetoed ==> anchors.anchors == old(anchors.anchors) && vp.View() == old(vp.View())
                         && player.inventory[..] == old(player.inventory[..]) && player.health == old(player.health)
      ensures !vetoed ==> anchors.anchors == old(anchors.anchors) - {player.uuid}
      ensures !vetoed ==> player.inventory[..] == RemovedAll(old(player.inventory[..]), resources)
      ensures !vetoed ==> vp.View() == Ritual(kind, old(vp.View()), infectionVetoed)
      ensures !vetoed ==> player.health == if kind == LightAltar then Healed(old(player.health), player.maxHealth)
                                           else old(player.health)
    {
      if vetoed {
        return false;
      }
      ok := false;
      anchors.Register(player.uuid, player.location);
      var moved := anchors.HasPlayerMoved(player.uuid, player.location);
      assert !moved;
      if !moved {
        ghost var before := player.inventory[..];
        for j := 0 to |resources|
          modifies player.inventory
          invariant player.inventory[..] == RemovedAll(before, resources[..j])
        {
          assert resources[..j + 1][..j] == resources[..j];
          RemoveItem(player.inventory, resources[j]);
        }
        assert resources[..|resources|] == resources;
        ApplyEffects(vp, player, infectionVetoed);
        ok := true;
      }
      anchors.Unregister(player.uuid);
      assert old(anchors.anchors)[player.uuid := player.location] - {player.uuid} == old(anchors.anchors) - {player.uuid};
    }

    /** applyEffects of the altar's kind. */
    method ApplyEffects(vp: VampirePlayer, player: HostPlayer, infectionVetoed: bool)
      requires vp.Valid()
      modifies vp, player`health
      ensures vp.Valid()
      ensures vp.View() == Ritual(kind, old(vp.View()), infectionVetoed)
      ensures player.health == if kind == LightAltar then Healed(old(player.health), player.maxHealth)
                               else old(player.health)
    {
      if kind == DarkAltar {
        if vp.IsInfected() {
          var newInfection := MinR(1.0, vp.infectionLevel + 0.2);
          if !infectionVetoed {
            vp.SetInfectionLevel(newInfection);
            if newInfection >= 1.0 {
              vp.SetVampire(true);
            }
          }
        } else if !infectionVetoed {
          vp.SetInfectionLevel(0.1);
        }
      } else {
        var newInfection := MaxR(0.0, vp.infectionLevel - 0.2);
        if !infectionVetoed {
          vp.SetInfectionLevel(newInfection);
        }
        player.health := MinR(player.maxHealth, player.health + 4.0);
      }
    }
  }

  class AltarManager {
    var altars: seq<Altar>

    constructor ()
      ensures |altars| == 2 && fresh(altars[0]) && fresh(altars[1])
      ensures altars[0].kind == DarkAltar && altars[0].materialCounts == DARK_COUNTS
      ensures altars[1].kind == LightAltar && altars[1].materialCounts == LIGHT_COUNTS
    {
      var dark := new Altar.Dark();
      var light := new Altar.Light();
      altars := [dark, light];
    }

    method RegisterAltar(altar: Altar)
      modifies this
      ensures altars == old(altars) + [altar]
    {
      altars := altars + [altar];
    }

    /** What the manager's altars look like to evalBlockUse, in order. */
    ghost function Specs(): (r: seq<AltarSpec>)
      reads this, altars
      ensures |r| == |altars|
      ensures forall k :: 0 <= k < |altars| ==> r[k] == altars[k].Spec()
    {
      SpecsOf(altars)
    }

    /**
     * One pass of the handleBlockInteract loop: evaluates the i-th altar,
     * which changes no other altar and keeps every altar's requirements.
     */
    method TryAltar(i: nat, at: Interaction, player: HostPlayer, vp: VampirePlayer, veto: bool, ghost specs: seq<AltarSpec>)
      returns (outcome: EvalOutcome)
      requires i < |altars| == |specs|
      requires forall k :: 0 <= k < |altars| ==> altars[k].Spec() == specs[k]
      modifies altars[i], player.inventory
      ensures forall k :: 0 <= k < |altars| ==> altars[k].Spec() == specs[k]
      ensures outcome == OutcomeOf(specs[i], at, true, vp.View(), old(player.inventory[..]), veto)
      ensures outcome == Started ==> player.inventory[..] == RemovedAll(old(player.inventory[..]), specs[i].resources)
      ensures outcome != Started ==> player.inventory[..] == old(player.inventory[..])
    {
      outcome := altars[i].EvalBlockUse(at, player, vp, veto);
      forall k | 0 <= k < |altars|
        ensures altars[k].Spec() == specs[k]
      {
        if altars[k] != altars[i] {
          assert altars[k].materialCounts == old(altars[k].materialCounts);
        }
      }
    }

    /**
     * handleBlockInteract: no player record means false; otherwise the
     * altars are tried in order and the first that starts a ritual ends the
     * search, having taken that altar's resources. vetoes[i] is the answer
     * to the altar-use event of the i-th altar.
     */
    method HandleBlockInteract(at: Interaction, player: HostPlayer, vp: VampirePlayer?, vetoes: seq<bool>)
      returns (ok: bool)
      requires |vetoes| == |altars|
      modifies altars, player.inventory
      ensures vp == null ==> !ok
      ensures vp != null ==>
                HandledAs(OutcomesOf(old(Specs()), at, true, vp.View(), old(player.inventory[..]), vetoes),
                          old(Specs()), old(player.inventory[..]), player.inventory[..], ok)
      ensures !ok ==> player.inventory[..] == old(player.inventory[..])
    {
      if vp == null {
        return false;
      }
      ghost var specs := Specs();
      ghost var inv0 := player.inventory[..];
      ghost var outcomes := OutcomesOf(specs, at, true, vp.View(), inv0, vetoes);
      var i := 0;
      while i < |altars|
        invariant 0 <= i <= |altars| == |specs|
        invariant forall k :: 0 <= k < |altars| ==> altars[k].Spec() == specs[k]
        invariant player.inventory[..] == inv0
        invariant forall k :: 0 <= k < i ==> outcomes[k] != Started
      {
        var outcome := TryAltar(i, at, player, vp, vetoes[i], specs);
        assert outcome == outcomes[i];
        if outcome == Started {
          HandledByFirst(outcomes, specs, inv0, player.inventory[..], i);
          return true;
        }
        NoneStartedExtends(outcomes, i);
        i := i + 1;
      }
      HandledByNone(outcomes, specs, inv0);
      return false;
    }
  }
}

=== FILE: blood_flask.dfy ===
/**
 * Blood flasks: potions whose display name marks them as flasks and whose
 * two lore lines record the amount of blood and whether it is vampiric,
 * and the glass bottle a vampire spends to fill one.
 */
module BloodFlask {
  import opened Wrappers
  import opened Numbers
  import opened Items
  import opened Host
  import opened Entity

  const COLOR_RED: string := "§c"
  const NAME: string := "§aBlood Flask"
  const AMOUNT_SUFFIX: string := COLOR_RED + " units of blood"
  const VAMPIRIC_TRUE: string := COLOR_RED + "The blood is vampiric"
  const VAMPIRIC_FALSE: string := COLOR_RED + "The blood is not vampiric"

  /** The language key of the message sent after filling a flask. */
  const CREATED_KEY: string := "blood-flask.created"

  /** The first lore line: the amount formatted with one decimal, a space, then the suffix. */
  function AmountLine(amount: real, fmt: Formatter): string
  {
    fmt(amount) + " " + AMOUNT_SUFFIX
  }

  /**
   * createBloodFlask(amount, isVampiric): one potion named as a flask,
   * with the amount line and the vampiric line as its lore.
   */
  function CreateBloodFlask(amount: real, isVampiric: bool, fmt: Formatter): (flask: ItemStack)
    ensures flask.kind == POTION && flask.amount == 1
    ensures flask.meta.Some? && flask.meta.value.displayName == Some(NAME)
    ensures flask.meta.value.lore == Some([AmountLine(amount, fmt), if isVampiric then VAMPIRIC_TRUE else VAMPIRIC_FALSE])
  {
    ItemStack(POTION, 0, 1, Some(ItemMeta(Some(NAME), Some([AmountLine(amount, fmt), if isVampiric then VAMPIRIC_TRUE else VAMPIRIC_FALSE]))))
  }

  /** isBloodFlask(item): a stack with meta whose display name is the flask name. */
  predicate IsBloodFlask(item: Slot)
  {
    item.Some? && item.value.meta.Some? && item.value.meta.value.displayName == Some(NAME)
  }

  /** Position of the first space of s, or |s| when there is none. */
  function SpaceAt(s: string): (i: nat)
    ensures i <= |s|
    ensures forall j :: 0 <= j < i ==> s[j] != ' '
    ensures i < |s| ==> s[i] == ' '
  {
    if s == [] then 0 else if s[0] == ' ' then 0 else 1 + SpaceAt(s[1..])
  }

  /**
   * split(" ")[0]: the text before the first space; None where the array
   * is empty, which happens for a non-empty text of spaces only.
   */
  function FirstToken(s: string): (r: Option<string>)
    ensures r.Some? ==> ' ' !in r.value && r.value <= s
    ensures r.Some? ==> r.value == s[..SpaceAt(s)] && (|r.value| < |s| ==> s[|r.value|] == ' ')
    ensures r == None <==> s != [] && forall j :: 0 <= j < |s| ==> s[j] == ' '
  {
    if s != [] && forall j :: 0 <= j < |s| ==> s[j] == ' ' then None
    else Some(s[..SpaceAt(s)])
  }

  /**
   * getBloodFlaskAmount(item): 0 for anything but a flask with lore;
   * otherwise the first word of the first lore line as a double, 0 where
   * that word is missing or no number (NaN and infinities pass through).
   */
  function FlaskAmount(item: Slot, parseDouble: DoubleParser): (r: Double)
    ensures !IsBloodFlask(item) ==> r == Finite(0.0)
    ensures IsBloodFlask(item) && !item.value.meta.value.HasLore() ==> r == Finite(0.0)
    ensures IsBloodFlask(item) && item.value.meta.value.HasLore()
            && FirstToken(item.value.meta.value.lore.value[0]) == None ==>
              r == Finite(0.0)
    ensures IsBloodFlask(item) && item.value.meta.value.HasLore()
            && FirstToken(item.value.meta.value.lore.value[0]).Some? ==>
              var line := item.value.meta.value.lore.value[0];
              r == parseDouble(line[..SpaceAt(line)]).GetOr(Finite(0.0))
  {
    if !IsBloodFlask(item) || !item.value.meta.value.HasLore() then Finite(0.0)
    else
      match FirstToken(item.value.meta.value.lore.value[0])
      case None => Finite(0.0)
      case Some(word) => parseDouble(word).GetOr(Finite(0.0))
  }

  /**
   * isBloodFlaskVampiric(item): false for anything but a flask with lore;
   * otherwise whether the second lore line is the vampiric text. None
   * where the lore has a single line and get(1) throws.
   */
  function FlaskVampiric(item: Slot): (r: Option<bool>)
    ensures !IsBloodFlask(item) ==> r == Some(false)
    ensures IsBloodFlask(item) && item.value.meta.value.HasLore() ==>
              (r == None <==> |item.value.meta.value.lore.value| == 1)
  {
    if !IsBloodFlask(item) || !item.value.meta.value.HasLore() then Some(false)
    else if |item.value.meta.value.lore.value| < 2 then None
    else Some(item.value.meta.value.lore.value[1] == VAMPIRIC_TRUE)
  }

  /**
   * A created flask is recognised, keeps its vampiric flag, and gives back
   * the number its formatted amount parses to, as long as the formatter
   * writes no space.
   */
  lemma CreateRoundTrip(amount: real, isVampiric: bool, fmt: Formatter, parseDouble: DoubleParser)
    requires ' ' !in fmt(amount)
    ensures IsBloodFlask(Some(CreateBloodFlask(amount, isVampiric, fmt)))
    ensures FlaskVampiric(Some(CreateBloodFlask(amount, isVampiric, fmt))) == Some(isVampiric)
    ensures FlaskAmount(Some(CreateBloodFlask(amount, isVampiric, fmt)), parseDouble)
            == parseDouble(fmt(amount)).GetOr(Finite(0.0))
  {
    var line := AmountLine(amount, fmt);
    var f := fmt(amount);
    assert line[|f|] == ' ';
    assert line[|f| + 1] == '§';
    assert SpaceAt(line) == |f| by {
      SpaceAtPrefix(f, line);
    }
    assert line[..|f|] == f;
    assert |VAMPIRIC_TRUE| != |VAMPIRIC_FALSE|;
  }

  /** The first space of a text that starts with a spaceless word and then a space is right after that word. */
  lemma {:induction false} SpaceAtPrefix(word: string, s: string)
    requires ' ' !in word && |word| < |s| && s[..|word|] == word && s[|word|] == ' '
    ensures SpaceAt(s) == |word|
  {
    if word != [] {
      assert s[0] == word[0];
      assert ' ' !in word[1..] by {
        forall j | 0 <= j < |word[1..]| ensures word[1..][j] != ' ' {
          assert word[1..][j] == word[j + 1];
        }
      }
      assert s[1..][..|word[1..]|] == word[1..];
      SpaceAtPrefix(word[1..], s[1..]);
    }
  }

  /** A flask whose vampiric line was edited to a single line of lore makes the vampiric check throw. */
  lemma SingleLoreLineThrows(amountLine: string)
    ensures FlaskVampiric(Some(ItemStack(POTION, 0, 1, Some(ItemMeta(Some(NAME), Some([amountLine])))))) == None
  {
  }

  /** The units a slot holds of a material: its amount when it holds that material, else none. */
  function UnitsOf(slot: Slot, m: Material): nat
  {
    if slot.Some? && slot.value.kind == m then slot.value.amount else 0
  }

  /**
   * consumeGlassBottle on the main-hand slot: a bottle stack of more than
   * one loses one, a single bottle (or an empty stack) leaves the hand
   * empty, and anything else is left alone.
   */
  function BottleConsumed(hand: Slot): (r: Slot)
    ensures UnitsOf(hand, GLASS_BOTTLE) >= 1 ==> UnitsOf(r, GLASS_BOTTLE) == UnitsOf(hand, GLASS_BOTTLE) - 1
    ensures !(hand.Some? && hand.value.kind == GLASS_BOTTLE) ==> r == hand
    ensures r.Some? && hand.Some? && hand.value.kind == GLASS_BOTTLE ==> hand.value.amount > 1 && r.value == hand.value.(amount := hand.value.amount - 1)
  {
    if hand.Some? && hand.value.kind == GLASS_BOTTLE then
      if hand.value.amount > 1 then Some(hand.value.(amount := hand.value.amount - 1)) else None
    else hand
  }

  /** consumeGlassBottle(player): the main-hand slot after the bottle is spent; every other slot unchanged. */
  method ConsumeGlassBottle(player: HostPlayer)
    requires player.heldSlot < player.inventory.Length
    modifies player.inventory
    ensures player.inventory[..] == old(player.inventory[..])[player.heldSlot := BottleConsumed(old(player.inventory[player.heldSlot]))]
  {
    var item := player.inventory[player.heldSlot];
    if item.Some? && item.value.kind == GLASS_BOTTLE {
      if item.value.amount > 1 {
        player.inventory[player.heldSlot] := Some(item.value.(amount := item.value.amount - 1));
      } else {
        player.inventory[player.heldSlot] := None;
      }
    }
  }

  /** The first empty slot, where addItem puts an item that cannot stack. */
  function FirstEmpty(s: seq<Slot>): (r: Option<nat>)
    ensures r.Some? ==> r.value < |s| && s[r.value] == None && forall j :: 0 <= j < r.value ==> s[j] != None
    ensures r == None ==> forall j :: 0 <= j < |s| ==> s[j] != None
  {
    if s == [] then None
    else if s[0] == None then Some(0)
    else match FirstEmpty(s[1..])
      case None => None
      case Some(i) => Some(i + 1)
  }

  /** addItem of a single potion: placed in the first empty slot, or handed back as leftover when there is none. */
  function AddedPotion(s: seq<Slot>, item: ItemStack): (r: seq<Slot>)
    ensures |r| == |s|
    ensures FirstEmpty(s) == None ==> r == s
    ensures FirstEmpty(s).Some? ==> r == s[FirstEmpty(s).value := Some(item)]
  {
    match FirstEmpty(s)
    case None => s
    case Some(i) => s[i := Some(item)]
  }

  /**
   * createBloodFlaskFromPlayer(amount, player): for an online player, the
   * bottle in hand is spent and a flask of the player's vampirism is added
   * to the inventory, then the created message is sent with the formatted
   * amount. The message is the result: its key and arguments.
   */
  method CreateBloodFlaskFromPlayer(amount: real, record: PlayerView, player: HostPlayer?, fmt: Formatter)
    returns (notice: Option<(string, seq<string>)>)
    requires player != null ==> player.heldSlot < player.inventory.Length
    modifies if player == null then {} else {player.inventory}
    ensures player == null ==> notice == None
    ensures player != null ==>
              notice == Some((CREATED_KEY, [fmt(amount)]))
              && player.inventory[..] == AddedPotion(
                   old(player.inventory[..])[player.heldSlot := BottleConsumed(old(player.inventory[player.heldSlot]))],
                   CreateBloodFlask(amount, record.isVampire, fmt))
  {
    if player == null {
      return None;
    }
    ConsumeGlassBottle(player);
    var flask := CreateBloodFlask(amount, record.isVampire, fmt);
    var contents := player.inventory[..];
    var slot := FirstEmpty(contents);
    if slot.Some? {
      player.inventory[slot.value] := Some(flask);
    }
    notice := Some((CREATED_KEY, [fmt(amount)]));
  }

  /**
   * Filling a flask trades one bottle for one flask: the bottles in the
   * inventory drop by one when the hand held some, and a flask appears
   * when there is room for it.
   */
  lemma FillTradesBottleForFlask(s: seq<Slot>, held: nat, flask: ItemStack)
    requires held < |s| && UnitsOf(s[held], GLASS_BOTTLE) >= 1 && flask.kind == POTION
    ensures var after := s[held := BottleConsumed(s[held])];
            UnitsOf(after[held], GLASS_BOTTLE) == UnitsOf(s[held], GLASS_BOTTLE) - 1
            && (s[held].value.amount == 1 ==> AddedPotion(after, flask) != after)
  {
    var after := s[held := BottleConsumed(s[held])];
    if s[held].value.amount == 1 {
      assert after[held] == None;
      assert FirstEmpty(after).Some?;
    }
  }
}

=== FILE: blood_offer.dfy ===
/**
 * A blood offer from one player to another: fixed sender, target, amount
 * and creation time, plus the one-way accepted and rejected flags.
 */
module Offers {
  import opened Host

  /** The status flags of an offer, as read through its getters. */
  datatype OfferStatus = OfferStatus(accepted: bool, rejected: bool)

  /** isPending(): neither accepted nor rejected. */
  predicate Pending(s: OfferStatus) { !s.accepted && !s.rejected }

  /** isExpired(timeout) at clock time now: strictly more than timeout has passed since creation. */
  predicate Expired(timestamp: int, now: int, timeoutMillis: int) { now - timestamp > timeoutMillis }

  /** At exactly timestamp + timeout an offer is not yet expired; one millisecond later it is. */
  lemma ExpiryBoundary(timestamp: int, timeoutMillis: int)
    ensures !Expired(timestamp, timestamp + timeoutMillis, timeoutMillis)
    ensures Expired(timestamp, timestamp + timeoutMillis + 1, timeoutMillis)
    ensures forall now :: Expired(timestamp, now, timeoutMillis) ==> Expired(timestamp, now + 1, timeoutMillis)
  {
  }

  class BloodOffer {
    const sender: Uuid
    const target: Uuid
    const amount: real
    const timestamp: int
    var accepted: bool
    var rejected: bool

    /** new BloodOffer(sender, target, amount), created at clock time now: pending. */
    constructor (from: Uuid, to: Uuid, amt: real, now: int)
      ensures sender == from && target == to && amount == amt && timestamp == now
      ensures Status() == OfferStatus(false, false) && IsPending()
    {
      sender := from;
      target := to;
      amount := amt;
      timestamp := now;
      accepted := false;
      rejected := false;
    }

    function Status(): OfferStatus
      reads this
    {
      OfferStatus(accepted, rejected)
    }

    /** setAccepted(): sets accepted, keeps rejected; the offer is no longer pending. */
    method SetAccepted()
      modifies this
      ensures Status() == old(Status()).(accepted := true)
      ensures !IsPending()
    {
      accepted := true;
    }

    /** setRejected(): sets rejected, keeps accepted; the offer is no longer pending. */
    method SetRejected()
      modifies this
      ensures Status() == old(Status()).(rejected := true)
      ensures !IsPending()
    {
      rejected := true;
    }

    predicate IsPending()
      reads this
    {
      Pending(Status())
    }

    predicate IsExpired(now: int, timeoutMillis: int)
    {
      Expired(timestamp, now, timeoutMillis)
    }
  }

  /**
   * Both flags can end up set: accepting and then rejecting a new offer
   * leaves it accepted and rejected at once, and the fixed fields untouched.
   */
  method AcceptThenReject(from: Uuid, to: Uuid, amt: real, now: int) returns (o: BloodOffer)
    ensures o.Status() == OfferStatus(true, true)
    ensures o.sender == from && o.target == to && o.amount == amt && o.timestamp == now
  {
    o := new BloodOffer(from, to, amt, now);
    o.SetAccepted();
    o.SetRejected();
  }
}

=== FILE: holy_water.dfy ===
/**
 * Holy water: a named splash potion brewed from a water bottle and lapis,
 * recognised by its display name, and the spending of its two ingredients.
 */
module HolyWater {
  import opened Wrappers
  import opened Items

  const NAME: string := "§aHoly Water"
  const LORE: seq<string> := ["\U{A7}7Ordinary water infused with lapis.", "\U{A7}7Very dangerous to the unholy."]

  /** createHolyWater(): one splash potion with the holy water name and lore. */
  function CreateHolyWater(): (item: ItemStack)
    ensures item.kind == SPLASH_POTION && item.amount == 1
    ensures item.meta == Some(ItemMeta(Some(NAME), Some(LORE)))
  {
    ItemStack(SPLASH_POTION, 0, 1, Some(ItemMeta(Some(NAME), Some(LORE))))
  }

  /**
   * isHolyWater(item): false for no stack, a stack without meta or meta
   * without a display name; otherwise whether the name is the holy water
   * name. A thrown potion is checked through the stack it carries.
   */
  predicate IsHolyWater(item: Slot)
  {
    item.Some? && item.value.meta.Some? && item.value.meta.value.displayName.Some?
    && item.value.meta.value.displayName.value == NAME
  }

  /** The test looks at the name alone: any stack named as holy water passes, whatever its type or lore. */
  lemma HolyWaterByNameOnly(item: ItemStack, m: Material, lore: Option<seq<string>>)
    ensures IsHolyWater(Some(CreateHolyWater()))
    ensures IsHolyWater(Some(ItemStack(m, 0, 1, Some(ItemMeta(Some(NAME), lore)))))
    ensures item.meta.Some? && item.meta.value.displayName.Some? && item.meta.value.displayName.value != NAME
            ==> !IsHolyWater(Some(item))
  {
  }

  /**
   * createHolyWaterFromIngredients(waterBottle, lapis): holy water when a
   * potion and lapis lazuli are given, otherwise null.
   */
  function FromIngredients(waterBottle: Slot, lapis: Slot): (r: Option<ItemStack>)
    ensures r.Some? <==> waterBottle.Some? && lapis.Some?
                         && waterBottle.value.kind == POTION && lapis.value.kind == LAPIS_LAZULI
    ensures r.Some? ==> r.value == CreateHolyWater() && IsHolyWater(r)
  {
    if waterBottle == None || lapis == None then None
    else if waterBottle.value.kind != POTION || lapis.value.kind != LAPIS_LAZULI then None
    else Some(CreateHolyWater())
  }

  /** The units a slot holds: its amount unless it is empty or air. */
  function Units(slot: Slot): nat
  {
    if slot.Some? && slot.value.kind != AIR then slot.value.amount else 0
  }

  /** One ingredient spent: a stack of more than one loses one, any other stack turns into air. */
  function Spent(item: ItemStack): (r: ItemStack)
    ensures item.kind != AIR && item.amount >= 1 ==> Units(Some(r)) == Units(Some(item)) - 1
    ensures item.amount > 1 ==> r == item.(amount := item.amount - 1)
    ensures item.amount <= 1 ==> r == item.(kind := AIR)
  {
    if item.amount > 1 then item.(amount := item.amount - 1) else item.(kind := AIR)
  }

  /**
   * consumeIngredients(waterBottle, lapis) on the two inventory slots that
   * hold them: each stack is spent in turn. A null water bottle throws
   * before anything changes, and a null lapis throws after the water is
   * spent; ok is false when it throws. The same slot given twice is spent
   * twice.
   */
  method ConsumeIngredients(inv: array<Slot>, water: nat, lapis: nat) returns (ok: bool)
    requires water < inv.Length && lapis < inv.Length
    modifies inv
    ensures (inv[..], ok) == Consumed(old(inv[..]), water, lapis)
  {
    var w := inv[water];
    if w == None {
      return false;
    }
    inv[water] := Some(Spent(w.value));
    var l := inv[lapis];
    if l == None {
      return false;
    }
    inv[lapis] := Some(Spent(l.value));
    ok := true;
  }

  /** The slots after consumeIngredients, and whether it finished without throwing. */
  function Consumed(s: seq<Slot>, water: nat, lapis: nat): (seq<Slot>, bool)
    requires water < |s| && lapis < |s|
  {
    if s[water] == None then (s, false)
    else
      var afterWater := s[water := Some(Spent(s[water].value))];
      if afterWater[lapis] == None then (afterWater, false)
      else (afterWater[lapis := Some(Spent(afterWater[lapis].value))], true)
  }

  /**
   * With two different slots holding real stacks, each ingredient loses
   * exactly one unit and nothing else in the inventory changes; with the
   * same slot twice, that one stack loses two when it has more than two.
   */
  lemma ConsumedSpendsOneEach(s: seq<Slot>, water: nat, lapis: nat)
    requires water < |s| && lapis < |s|
    ensures water != lapis && Units(s[water]) >= 1 && Units(s[lapis]) >= 1 ==>
              var (r, ok) := Consumed(s, water, lapis);
              ok && Units(r[water]) == Units(s[water]) - 1 && Units(r[lapis]) == Units(s[lapis]) - 1
              && forall k :: 0 <= k < |s| && k != water && k != lapis ==> r[k] == s[k]
    ensures water == lapis && s[water].Some? && s[water].value.amount > 2 ==>
              var (r, ok) := Consumed(s, water, lapis);
              ok && r[water] == Some(s[water].value.(amount := s[water].value.amount - 2))
    ensures s[water] == None ==> Consumed(s, water, lapis) == (s, false)
  {
  }

  /** A null lapis leaves the water bottle spent all the same. */
  lemma NullLapisStillSpendsWater(s: seq<Slot>, water: nat, lapis: nat)
    requires water < |s| && lapis < |s| && water != lapis
    requires s[water].Some? && s[lapis] == None
    ensures Consumed(s, water, lapis) == (s[water := Some(Spent(s[water].value))], false)
  {
  }
}

=== FILE: host.dfy ===
/**
 * The server-side player that the plugin talks to through Bukkit: identity,
 * location, inventory, held slot and health. Everything else the server
 * supplies (online status, distances, world time, sky light, water, helmet,
 * event cancellation) enters the model as plain parameters.
 */
module Host {
  import opened Wrappers
  import opened Items

  type Uuid = nat

  /** A Bukkit location: world, coordinates and orientation. */
  datatype Location = Location(world: string, x: real, y: real, z: real, yaw: real, pitch: real)

  /** The potion effect types the plugin applies. */
  datatype EffectType = NIGHT_VISION | WEAKNESS | INCREASE_DAMAGE | SPEED | BLINDNESS | SLOW

  /** new PotionEffect(type, duration, amplifier, ambient, particles). */
  datatype PotionEffect = PotionEffect(kind: EffectType, duration: int, amplifier: int, ambient: bool, particles: bool)

  /**
   * new PotionEffect(type, duration, amplifier): Bukkit's three-argument
   * constructor delegates to the four-argument one with ambient false, and
   * that one shows particles.
   */
  function BasicEffect(kind: EffectType, duration: int, amplifier: int): PotionEffect
  {
    PotionEffect(kind, duration, amplifier, false, true)
  }

  class HostPlayer {
    const uuid: Uuid
    var location: Location
    /** The inventory contents in slot order. */
    const inventory: array<Slot>
    /** Index of the main-hand slot in the inventory. */
    var heldSlot: nat
    var health: real
    var maxHealth: real
    /** The active potion effects, at most one per type. */
    var effects: map<EffectType, PotionEffect>

    ghost predicate Valid()
      reads this
    {
      heldSlot < inventory.Length && 0.0 <= health <= maxHealth
    }

    constructor (id: Uuid, at: Location, contents: seq<Slot>, held: nat, hp: real, maxHp: real)
      requires held < |contents| && 0.0 <= hp <= maxHp
      ensures Valid() && fresh(inventory)
      ensures uuid == id && location == at && inventory[..] == contents
      ensures heldSlot == held && health == hp && maxHealth == maxHp
      ensures effects == map[]
    {
      uuid := id;
      location := at;
      inventory := new Slot[|contents|](i requires 0 <= i < |contents| => contents[i]);
      heldSlot := held;
      health := hp;
      maxHealth := maxHp;
      effects := map[];
    }
  }
}

=== FILE: infection_reason.dfy ===
/**
 * The seven ways a player can become infected, with whether the victim
 * notices it, whether another player caused it, a short name, and the two
 * description templates filled in with the player's and the maker's name.
 */
module Infection {
  import opened Wrappers

  datatype InfectionReason =
    | ALTAR | COMBAT_MISTAKE | COMBAT_INTENDED | TRADE | FLASK | OPERATOR | UNKNOWN

  const ALL_REASONS: seq<InfectionReason> :=
    [ALTAR, COMBAT_MISTAKE, COMBAT_INTENDED, TRADE, FLASK, OPERATOR, UNKNOWN]

  /** isNoticeable(). */
  function Noticeable(r: InfectionReason): bool
  {
    match r
    case ALTAR => true
    case COMBAT_MISTAKE => false
    case COMBAT_INTENDED => false
    case TRADE => false
    case FLASK => true
    case OPERATOR => true
    case UNKNOWN => true
  }

  /** isMaker(): another player caused the infection. */
  function Maker(r: InfectionReason): bool
  {
    match r
    case ALTAR => false
    case COMBAT_MISTAKE => true
    case COMBAT_INTENDED => true
    case TRADE => true
    case FLASK => false
    case OPERATOR => false
    case UNKNOWN => false
  }

  /** getShortname(). */
  function Shortname(r: InfectionReason): string
  {
    match r
    case ALTAR => "altar"
    case COMBAT_MISTAKE => "combat mistake"
    case COMBAT_INTENDED => "combat intended"
    case TRADE => "offer"
    case FLASK => "blood flask"
    case OPERATOR => "evil powers"
    case UNKNOWN => "unknown"
  }

  /** The two positional format specifiers the templates use. */
  const ARG1: string := "%1$s"
  const ARG2: string := "%2$s"

  /** The template shown to the infected player. */
  function SelfTemplate(r: InfectionReason): string
  {
    match r
    case ALTAR => "<i>You infected yourself using an <h>altar<i>."
    case COMBAT_MISTAKE => "<h>" + ARG2 + " <i>infected you during combat by mistake."
    case COMBAT_INTENDED => "<h>" + ARG2 + " <i>infected you during combat on purpose."
    case TRADE => "<i>You were infected from drinking <h>" + ARG2 + "s <i>blood."
    case FLASK => "<i>You were infected by a <h>blood flask<i>."
    case OPERATOR => "<i>You were infected by <h>evil powers<i>."
    case UNKNOWN => "<i>You were infected for <h>unknown <i>reasons."
  }

  /** The template shown to other players. */
  function OtherTemplate(r: InfectionReason): string
  {
    match r
    case ALTAR => "<i>" + ARG1 + " was infected using an <h>altar<i>."
    case COMBAT_MISTAKE => "<h>" + ARG2 + " <i>infected " + ARG1 + " during combat by mistake."
    case COMBAT_INTENDED => "<h>" + ARG2 + " <i>infected " + ARG1 + " during combat on purpose."
    case TRADE => "<i>" + ARG1 + " was infected from drinking <h>" + ARG2 + "s <i>blood."
    case FLASK => "<i>" + ARG1 + " was infected by a <h>blood flask<i>."
    case OPERATOR => "<i>" + ARG1 + " was infected by <h>evil powers<i>."
    case UNKNOWN => "<i>" + ARG1 + " was infected for <h>unknown <i>reasons."
  }

  /** maker is set exactly for the two combat reasons and the trade. */
  lemma MakerReasons(r: InfectionReason)
    ensures Maker(r) <==> r in {COMBAT_MISTAKE, COMBAT_INTENDED, TRADE}
    ensures Noticeable(r) == !Maker(r)
  {
  }

  /** Different reasons have different short names. */
  lemma ShortnamesDistinct(r1: InfectionReason, r2: InfectionReason)
    ensures Shortname(r1) == Shortname(r2) ==> r1 == r2
  {
    if r1 != r2 {
      assert Shortname(r1)[0] != Shortname(r2)[0] || |Shortname(r1)| != |Shortname(r2)|;
    }
  }

  /** A positional argument marker "%n$s" with n = 1 or 2 starts at position i. */
  predicate ArgAt(t: string, i: nat, n: char)
  {
    i + 4 <= |t| && t[i] == '%' && t[i + 1] == n && t[i + 2] == '$' && t[i + 3] == 's'
  }

  /**
   * String.format(template, first, second) for templates whose only
   * format specifiers are %1$s and %2$s: each is replaced by its argument,
   * in one pass, so an argument's own text is never substituted again.
   */
  function Format(t: string, first: string, second: string): string
    decreases |t|
  {
    if t == [] then []
    else if ArgAt(t, 0, '1') then first + Format(t[4..], first, second)
    else if ArgAt(t, 0, '2') then second + Format(t[4..], first, second)
    else [t[0]] + Format(t[1..], first, second)
  }

  /** Text without '%' passes through Format unchanged. */
  lemma {:induction false} FormatPlain(t: string, first: string, second: string)
    requires '%' !in t
    ensures Format(t, first, second) == t
    decreases |t|
  {
    if t != [] {
      assert t[0] != '%';
      assert '%' !in t[1..] by {
        forall i | 0 <= i < |t[1..]| ensures t[1..][i] != '%' {
          assert t[1..][i] == t[i + 1];
        }
      }
      FormatPlain(t[1..], first, second);
    }
  }

  /** Format distributes over a plain prefix followed by a specifier. */
  lemma {:induction false} FormatSplice(x: string, spec: string, y: string, first: string, second: string)
    requires '%' !in x
    requires spec == ARG1 || spec == ARG2
    ensures Format(x + spec + y, first, second)
            == x + (if spec == ARG1 then first else second) + Format(y, first, second)
    decreases |x|
  {
    var t := x + spec + y;
    if x == [] {
      assert t == spec + y;
      assert ArgAt(t, 0, spec[1]);
      assert t[4..] == y;
    } else {
      assert x[0] != '%';
      assert t[0] == x[0];
      assert t[1..] == x[1..] + spec + y;
      assert '%' !in x[1..] by {
        forall i | 0 <= i < |x[1..]| ensures x[1..][i] != '%' {
          assert x[1..][i] == x[i + 1];
        }
      }
      FormatSplice(x[1..], spec, y, first, second);
    }
  }

  /**
   * getSelfDescription(player, maker): the self template formatted with the
   * player's name first and the maker's name second, "" when there is no maker.
   */
  function SelfDescription(r: InfectionReason, player: string, maker: Option<string>): string
  {
    Format(SelfTemplate(r), player, MakerName(maker))
  }

  /** getOtherDescription(player, maker): the same rule on the other template. */
  function OtherDescription(r: InfectionReason, player: string, maker: Option<string>): string
  {
    Format(OtherTemplate(r), player, MakerName(maker))
  }

  /** The second format argument: the maker's name, or "" for a null maker. */
  function MakerName(maker: Option<string>): (r: string)
    ensures maker == None ==> r == ""
    ensures maker.Some? ==> r == maker.value
  {
    if maker.Some? then maker.value else ""
  }

  /** The argument a specifier stands for. */
  function Arg(spec: string, first: string, second: string): string
  {
    if spec == ARG1 then first else second
  }

  /** A template of plain text around one specifier is filled in place. */
  lemma FormatOne(a: string, spec: string, b: string, first: string, second: string)
    requires '%' !in a && '%' !in b
    requires spec == ARG1 || spec == ARG2
    ensures Format(a + spec + b, first, second) == a + Arg(spec, first, second) + b
  {
    FormatSplice(a, spec, b, first, second);
    FormatPlain(b, first, second);
  }

  /** A template of plain text around two specifiers is filled in place, left to right. */
  lemma FormatTwo(a: string, spec1: string, b: string, spec2: string, c: string, first: string, second: string)
    requires '%' !in a && '%' !in b && '%' !in c
    requires (spec1 == ARG1 || spec1 == ARG2) && (spec2 == ARG1 || spec2 == ARG2)
    ensures Format(a + spec1 + b + spec2 + c, first, second)
            == a + Arg(spec1, first, second) + b + Arg(spec2, first, second) + c
  {
    var tail := b + spec2 + c;
    assert a + spec1 + b + spec2 + c == a + spec1 + tail;
    FormatSplice(a, spec1, tail, first, second);
    FormatOne(b, spec2, c, first, second);
  }

  /** A combat infection names its maker at the front of the victim's message, or nothing for a null maker. */
  lemma CombatSelfDescription(player: string, maker: Option<string>)
    ensures SelfDescription(COMBAT_MISTAKE, player, maker)
            == "<h>" + MakerName(maker) + " <i>infected you during combat by mistake."
  {
    var rest := " <i>infected you during combat by mistake.";
    assert '%' !in "<h>" && '%' !in rest;
    FormatOne("<h>", ARG2, rest, player, MakerName(maker));
  }

  /** The trade message for other players names the infected player first and the maker second. */
  lemma TradeOtherDescription(player: string, maker: Option<string>)
    ensures OtherDescription(TRADE, player, maker)
            == "<i>" + player + " was infected from drinking <h>" + MakerName(maker) + "s <i>blood."
  {
    var mid := " was infected from drinking <h>";
    var rest := "s <i>blood.";
    assert '%' !in "<i>" && '%' !in mid && '%' !in rest;
    FormatTwo("<i>", ARG1, mid, ARG2, rest, player, MakerName(maker));
  }
}

=== FILE: items.dfy ===
/**
 * The part of the Bukkit item model that the plugin reads and writes:
 * materials, item stacks with their display name and lore, and inventory
 * slots (an empty slot is a null stack).
 */
module Items {
  import opened Wrappers

  /** The materials the plugin names, and every other material by its enum name. */
  datatype Material =
    | AIR | OBSIDIAN | NETHERRACK | SOUL_SAND | DIAMOND_BLOCK | GOLD_BLOCK
    | GLOWSTONE | QUARTZ_BLOCK | SEA_LANTERN
    | ROTTEN_FLESH | SPIDER_EYE | BONE | BLAZE_POWDER
    | GOLDEN_APPLE | GLOWSTONE_DUST | SUGAR
    | POTION | SPLASH_POTION | GLASS_BOTTLE | LAPIS_LAZULI | INK_SAC | COAL
    | GLASS | GLASS_PANE | ICE | WATER
    | Other(enumName: string)

  /** Material.name(): the enum constant's name. */
  function Name(m: Material): string
  {
    match m
    case AIR => "AIR"
    case OBSIDIAN => "OBSIDIAN"
    case NETHERRACK => "NETHERRACK"
    case SOUL_SAND => "SOUL_SAND"
    case DIAMOND_BLOCK => "DIAMOND_BLOCK"
    case GOLD_BLOCK => "GOLD_BLOCK"
    case GLOWSTONE => "GLOWSTONE"
    case QUARTZ_BLOCK => "QUARTZ_BLOCK"
    case SEA_LANTERN => "SEA_LANTERN"
    case ROTTEN_FLESH => "ROTTEN_FLESH"
    case SPIDER_EYE => "SPIDER_EYE"
    case BONE => "BONE"
    case BLAZE_POWDER => "BLAZE_POWDER"
    case GOLDEN_APPLE => "GOLDEN_APPLE"
    case GLOWSTONE_DUST => "GLOWSTONE_DUST"
    case SUGAR => "SUGAR"
    case POTION => "POTION"
    case SPLASH_POTION => "SPLASH_POTION"
    case GLASS_BOTTLE => "GLASS_BOTTLE"
    case LAPIS_LAZULI => "LAPIS_LAZULI"
    case INK_SAC => "INK_SAC"
    case COAL => "COAL"
    case GLASS => "GLASS"
    case GLASS_PANE => "GLASS_PANE"
    case ICE => "ICE"
    case WATER => "WATER"
    case Other(n) => n
  }

  /** Item meta: an optional display name and optional lore lines. */
  datatype ItemMeta = ItemMeta(displayName: Option<string>, lore: Option<seq<string>>)
  {
    /** ItemMeta.hasLore(): lore present and not empty. */
    predicate HasLore() { lore.Some? && |lore.value| > 0 }
  }

  /**
   * An item stack: type, durability (damage value), amount, and meta when
   * the stack carries any (hasItemMeta()).
   */
  datatype ItemStack = ItemStack(kind: Material, durability: int, amount: nat, meta: Option<ItemMeta>)

  /** new ItemStack(material, amount): durability 0 and no meta. */
  function Stack(m: Material, amount: nat): ItemStack
  {
    ItemStack(m, 0, amount, None)
  }

  /** An inventory slot; None is a null entry of getContents(). */
  type Slot = Option<ItemStack>
}

=== FILE: language_config.dfy ===
/**
 * The message table: messages loaded from the language file, topped up
 * with built-in defaults, and looked up with colour translation and
 * "%n%" argument substitution.
 */
module Language {
  import opened Wrappers
  import opened Strings

  /** The built-in messages loadDefaultMessages offers, in the order it offers them. */
  const DEFAULT_MESSAGES: seq<(string, string)> := [
    ("general.prefix", "&8[&cVampire&8]"),
    ("general.reload", "&aPlugin reloaded successfully!"),
    ("general.no-permission", "&cYou don't have permission to do that!"),
    ("player.not-found", "&cPlayer not found!"),
    ("player.offline", "&cPlayer is offline!"),
    ("vampire.status", "&7Vampire Status: &c%status%"),
    ("vampire.blood", "&7Blood Level: &c%blood%"),
    ("vampire.infected", "&7Infected: &c%infected%"),
    ("vampire.night-vision", "&7Night Vision: &c%enabled%"),
    ("vampire.sun-damage", "&7Sun Damage: &c%enabled%"),
    ("infection.start", "&cYou have been infected!"),
    ("infection.end", "&aYou have been cured of infection!"),
    ("infection.spread", "&c%player% has been infected!"),
    ("blood.low", "&cYour blood level is low!"),
    ("blood.regen", "&aYou regenerated %amount% blood"),
    ("blood.offer", "&aYou offered %amount% blood to %player%"),
    ("blood.receive", "&aYou received %amount% blood from %player%"),
    ("altar.dark.create", "&8Dark Altar created!"),
    ("altar.dark.destroy", "&8Dark Altar destroyed!"),
    ("altar.light.create", "&fLight Altar created!"),
    ("altar.light.destroy", "&fLight Altar destroyed!"),
    ("altar.cure", "&aYou have been cured at the Light Altar!"),
    ("altar.infect", "&cYou have been infected at the Dark Altar!"),
    ("command.help", "&7=== &cVampire Commands &7==="),
    ("command.help.help", "&7/vampire help &8- &fShow help"),
    ("command.help.version", "&7/vampire version &8- &fShow version"),
    ("command.help.show", "&7/vampire show [player] &8- &fShow vampire status"),
    ("command.help.set", "&7/vampire set <type> <player> [value] &8- &fSet vampire properties"),
    ("command.help.offer", "&7/vampire offer <player> <amount> &8- &fOffer blood to a player"),
    ("command.help.reload", "&7/vampire reload &8- &fReload the plugin")
  ]

  /** The language every missing file falls back to. */
  const DEFAULT_LANGUAGE: string := "en"

  /** The text of a lookup whose key has no message. */
  function MissingMessage(key: string): string
  {
    "Missing message: " + key
  }

  /** One entry of the loaded file: its key, and its value when that value is a string. */
  type FileEntry = (string, Option<string>)

  /** The message map after putting every string-valued entry, in file order. */
  function Loaded(entries: seq<FileEntry>): (m: map<string, string>)
    ensures forall k :: k in m ==> exists i :: 0 <= i < |entries| && entries[i].0 == k && entries[i].1.Some?
  {
    if entries == [] then map[]
    else
      var m := Loaded(entries[..|entries| - 1]);
      var e := entries[|entries| - 1];
      if e.1.Some? then m[e.0 := e.1.value] else m
  }

  /** A string entry that no later entry overrides is the key's loaded message. */
  lemma {:induction false} LoadedLastWins(entries: seq<FileEntry>, i: nat)
    requires i < |entries| && entries[i].1.Some?
    requires forall j :: i < j < |entries| ==> entries[j].0 != entries[i].0
    ensures entries[i].0 in Loaded(entries) && Loaded(entries)[entries[i].0] == entries[i].1.value
  {
    var n := |entries| - 1;
    var prefix := entries[..n];
    var last := entries[n];
    assert Loaded(entries) == if last.1.Some? then Loaded(prefix)[last.0 := last.1.value] else Loaded(prefix);
    if i < n {
      forall j | i < j < |prefix| ensures prefix[j].0 != prefix[i].0 {
        assert prefix[j] == entries[j];
      }
      assert prefix[i] == entries[i];
      LoadedLastWins(prefix, i);
      assert last.0 != entries[i].0;
    }
  }

  /** setDefaultMessage applied in order to each default: a default is put only when its key is absent. */
  function WithDefaults(m: map<string, string>, defaults: seq<(string, string)>): map<string, string>
  {
    if defaults == [] then m
    else
      var r := WithDefaults(m, defaults[..|defaults| - 1]);
      var d := defaults[|defaults| - 1];
      if d.0 in r then r else r[d.0 := d.1]
  }

  /**
   * Adding defaults never overwrites a message that is already there, and
   * afterwards every default key has a message.
   */
  lemma {:induction false} WithDefaultsKeeps(m: map<string, string>, defaults: seq<(string, string)>)
    ensures forall k :: k in m ==> k in WithDefaults(m, defaults) && WithDefaults(m, defaults)[k] == m[k]
    ensures forall i :: 0 <= i < |defaults| ==> defaults[i].0 in WithDefaults(m, defaults)
    ensures forall k :: k in WithDefaults(m, defaults) ==>
              k in m || exists i :: 0 <= i < |defaults| && defaults[i].0 == k
  {
    if defaults != [] {
      var prefix := defaults[..|defaults| - 1];
      WithDefaultsKeeps(m, prefix);
      forall i | 0 <= i < |defaults| - 1
        ensures defaults[i].0 in WithDefaults(m, defaults)
      {
        assert defaults[i] == prefix[i];
      }
      forall k | k in WithDefaults(m, defaults)
        ensures k in m || exists i :: 0 <= i < |defaults| && defaults[i].0 == k
      {
        if k !in m && k != defaults[|defaults| - 1].0 {
          var i :| 0 <= i < |prefix| && prefix[i].0 == k;
          assert defaults[i] == prefix[i];
        }
      }
    }
  }

  /** "%n%", the placeholder for the n-th argument. */
  function Placeholder(n: nat): (r: string)
    ensures |r| > 0
  {
    "%" + NatToString(n) + "%"
  }

  /** The substitution loop of getMessage: for i = 1..n in turn, every "%i%" becomes args[i-1]. */
  function Substituted(message: string, args: seq<string>): string
  {
    if args == [] then message
    else ReplaceAll(Substituted(message, args[..|args| - 1]), Placeholder(|args|), args[|args| - 1])
  }

  /** A message without placeholders for the given arguments comes back unchanged. */
  lemma {:induction false} SubstitutedNoPlaceholders(message: string, args: seq<string>)
    requires forall n: nat, i: nat :: 1 <= n <= |args| ==> !OccursAt(message, Placeholder(n), i)
    ensures Substituted(message, args) == message
  {
    if args != [] {
      SubstitutedNoPlaceholders(message, args[..|args| - 1]);
      ReplaceAllAbsent(message, Placeholder(|args|), args[|args| - 1]);
    }
  }

  /**
   * The replacements run one after the other, so a placeholder that an
   * earlier argument brings in is itself replaced by a later argument.
   */
  lemma SubstitutionIsSequential(second: string)
    ensures Substituted("%1%", ["%2%", second]) == second
  {
    assert Placeholder(1) == "%1%";
    assert Placeholder(2) == "%2%";
    assert ["%2%", second][..1] == ["%2%"];
    assert [] == ["%2%"][..0];
    ReplaceAllWhole("%1%", "%2%");
    ReplaceAllWhole("%2%", second);
  }

  class LanguageConfig {
    var language: string
    var messages: map<string, string>

    constructor ()
      ensures messages == map[]
    {
      language := DEFAULT_LANGUAGE;
      messages := map[];
    }

    /** setDefaultMessage(key, value): puts only when key is absent, never overwriting. */
    method SetDefaultMessage(key: string, value: string)
      modifies this
      ensures messages == if key in old(messages) then old(messages) else old(messages)[key := value]
      ensures language == old(language)
    {
      if key !in messages {
        messages := messages[key := value];
      }
    }

    /** setDefaultMessage for each pair of defaults, in order. */
    method SetDefaultMessages(defaults: seq<(string, string)>)
      modifies this
      ensures messages == WithDefaults(old(messages), defaults)
      ensures language == old(language)
    {
      for i := 0 to |defaults|
        invariant messages == WithDefaults(old(messages), defaults[..i])
        invariant language == old(language)
      {
        assert defaults[..i + 1][..i] == defaults[..i];
        SetDefaultMessage(defaults[i].0, defaults[i].1);
      }
      assert defaults[..|defaults|] == defaults;
    }

    /** loadDefaultMessages(): setDefaultMessage for each built-in message in order. */
    method LoadDefaultMessages()
      modifies this
      ensures messages == WithDefaults(old(messages), DEFAULT_MESSAGES)
      ensures language == old(language)
    {
      SetDefaultMessages(DEFAULT_MESSAGES);
    }

    /**
     * loadMessages(): clears the map, puts every string-valued entry of the
     * file, then tops the map up with the defaults.
     */
    method LoadMessages(entries: seq<FileEntry>)
      modifies this
      ensures messages == WithDefaults(Loaded(entries), DEFAULT_MESSAGES)
      ensures language == old(language)
    {
      messages := map[];
      for i := 0 to |entries|
        invariant messages == Loaded(entries[..i])
        invariant language == old(language)
      {
        assert entries[..i + 1][..i] == entries[..i];
        if entries[i].1.Some? {
          messages := messages[entries[i].0 := entries[i].1.value];
        }
      }
      assert entries[..|entries|] == entries;
      LoadDefaultMessages();
    }

    /**
     * loadLanguage(language): the requested file when it exists, otherwise
     * the English file and the language "en"; entries are the chosen file's.
     */
    method LoadLanguage(requested: string, fileExists: bool, entries: seq<FileEntry>)
      modifies this
      ensures language == if fileExists then requested else DEFAULT_LANGUAGE
      ensures messages == WithDefaults(Loaded(entries), DEFAULT_MESSAGES)
    {
      language := requested;
      if !fileExists {
        language := DEFAULT_LANGUAGE;
      }
      LoadMessages(entries);
    }

    /** setLanguage(language): records the language, then loads it as loadLanguage does. */
    method SetLanguage(requested: string, fileExists: bool, entries: seq<FileEntry>)
      modifies this
      ensures language == if fileExists then requested else DEFAULT_LANGUAGE
      ensures messages == WithDefaults(Loaded(entries), DEFAULT_MESSAGES)
    {
      language := requested;
      LoadLanguage(requested, fileExists, entries);
    }

    /** reload(): loads the current language again and reports success. */
    method Reload(fileExists: bool, entries: seq<FileEntry>) returns (ok: bool)
      modifies this
      ensures ok
      ensures language == if fileExists then old(language) else DEFAULT_LANGUAGE
      ensures messages == WithDefaults(Loaded(entries), DEFAULT_MESSAGES)
    {
      LoadLanguage(language, fileExists, entries);
      ok := true;
    }

    /** setMessage(key, value): puts, overwriting. */
    method SetMessage(key: string, value: string)
      modifies this
      ensures messages == old(messages)[key := value]
      ensures language == old(language)
    {
      messages := messages[key := value];
    }

    /** getMessages(): a copy of the map; being a value, later changes to either side do not reach the other. */
    method GetMessages() returns (copy: map<string, string>)
      ensures copy == messages
    {
      copy := messages;
    }

    /** The message for key before translation: the stored one, or the missing-message text. */
    function Template(key: string): (r: string)
      reads this
      ensures key in messages ==> r == messages[key]
      ensures key !in messages ==> r == MissingMessage(key)
    {
      if key in messages then messages[key] else MissingMessage(key)
    }

    /**
     * getMessage(key, args): the template after colour translation (the
     * Bukkit translator, given as translate), then each "%i%" replaced by
     * args[i-1] for i = 1..n in turn.
     */
    method GetMessage(key: string, args: seq<string>, translate: string -> string) returns (message: string)
      ensures message == Substituted(translate(Template(key)), args)
    {
      message := if key in messages then messages[key] else MissingMessage(key);
      message := translate(message);
      if |args| > 0 {
        for i := 0 to |args|
          invariant message == Substituted(translate(Template(key)), args[..i])
        {
          assert args[..i + 1][..i] == args[..i];
          message := ReplaceAll(message, Placeholder(i + 1), args[i]);
        }
        assert args[..|args|] == args;
      }
    }

    /** getMessage(key): the same as getMessage(key, args) with no arguments, the translated template. */
    method GetMessageNoArgs(key: string, translate: string -> string) returns (message: string)
      ensures message == translate(Template(key))
    {
      message := GetMessage(key, [], translate);
    }
  }

  /**
   * After loading, a message present in the file keeps the file's text,
   * and every built-in key has some message.
   */
  lemma LoadedThenDefaults(entries: seq<FileEntry>)
    ensures forall k :: k in Loaded(entries) ==>
              k in WithDefaults(Loaded(entries), DEFAULT_MESSAGES)
              && WithDefaults(Loaded(entries), DEFAULT_MESSAGES)[k] == Loaded(entries)[k]
    ensures forall i :: 0 <= i < |DEFAULT_MESSAGES| ==> DEFAULT_MESSAGES[i].0 in WithDefaults(Loaded(entries), DEFAULT_MESSAGES)
  {
    WithDefaultsKeeps(Loaded(entries), DEFAULT_MESSAGES);
  }
}

=== FILE: numbers.dfy ===
/**
 * Numeric helpers shared by the model: the java.lang.Math clamps on reals
 * (standing in for Java doubles) and the IEEE double values that the abstract
 * number parser may produce.
 */
module Numbers {
  import opened Wrappers

  /** Math.max on doubles. */
  function MaxR(a: real, b: real): real { if a >= b then a else b }

  /** Math.min on doubles. */
  function MinR(a: real, b: real): real { if a <= b then a else b }

  /** Math.max on longs. */
  function MaxI(a: int, b: int): int { if a >= b then a else b }

  /** Math.abs on doubles. */
  function AbsR(a: real): real { if a < 0.0 then -a else a }

  /** The Math.max(lo, Math.min(hi, v)) idiom of the player setters. */
  function Clamp(v: real, lo: real, hi: real): (r: real)
    requires lo <= hi
    ensures lo <= r <= hi
    ensures lo <= v <= hi ==> r == v
    ensures v < lo ==> r == lo
    ensures v > hi ==> r == hi
  {
    MaxR(lo, MinR(hi, v))
  }

  /**
   * A double as Double.parseDouble can return it: a finite value, NaN or one
   * of the two infinities.
   */
  datatype Double = Finite(v: real) | NaN | PosInf | NegInf

  /** Double.parseDouble: None where it throws NumberFormatException. */
  type DoubleParser = string -> Option<Double>

  /** String.format("%.1f", v) in the server's locale. */
  type Formatter = real -> string
}

=== FILE: persistence.dfy ===
/**
 * The row rules of the Hibernate-backed store, over an in-memory table:
 * players keyed by uuid, blood offers keyed by their generated id, the
 * converters between rows and domain objects, and the row updates that
 * the store performs in one transaction each.
 */
module Persistence {
  import opened Wrappers
  import opened Numbers
  import opened Host
  import opened Entity
  import opened Offers

  /** A vampire_players row (VampirePlayerEntity). */
  datatype PlayerRow = PlayerRow(
    uuid: Uuid,
    name: string,
    isVampire: bool,
    bloodLevel: real,
    infectionLevel: real,
    infectionReason: Option<string>,
    infectionTime: int,
    lastShriekTime: int,
    lastBloodTradeTime: int,
    lastBloodTradePartner: Option<Uuid>,
    lastBloodTradeAmount: real,
    lastBloodTradeType: Option<string>)

  /** A blood_offers row (BloodOfferEntity) without its generated id. */
  datatype OfferRow = OfferRow(sender: Uuid, target: Uuid, amount: real, timestamp: int,
                               accepted: bool, rejected: bool)

  /**
   * How a transaction ended: with its boolean answer, or with the
   * exception uniqueResult() throws when a query matches several rows
   * (the transaction is rolled back).
   */
  datatype TxResult = Done(answer: bool) | NonUniqueResult

  /**
   * convertToEntity: copies the persisted fields. The row's blood_level
   * is taken from the clamped blood field, not from bloodLevel.
   */
  function ToRow(v: PlayerView): (r: PlayerRow)
    ensures r.bloodLevel == v.blood
  {
    PlayerRow(v.uuid, v.name, v.isVampire, v.blood, v.infectionLevel, v.infectionReason,
              v.infectionTime, v.lastShriekTime, v.lastBloodTradeTime, v.lastBloodTradePartner,
              v.lastBloodTradeAmount, v.lastBloodTradeType)
  }

  /**
   * convertToVampirePlayer as a value: a fresh player at clock time now
   * with the row copied in through setVampire, the clamping setBlood and
   * setInfectionLevel, and the plain setters.
   */
  function FromRow(e: PlayerRow, now: int): (v: PlayerView)
    ensures 0.0 <= v.blood <= MAX_BLOOD && 0.0 <= v.infectionLevel <= 1.0
    ensures v.uuid == e.uuid && v.name == e.name && v.isVampire == e.isVampire
  {
    Defaults(e.uuid, e.name, now).(
      isVampire := e.isVampire,
      blood := Clamp(e.bloodLevel, 0.0, MAX_BLOOD),
      infectionLevel := Clamp(e.infectionLevel, 0.0, 1.0),
      infectionReason := e.infectionReason,
      infectionTime := e.infectionTime,
      lastShriekTime := e.lastShriekTime,
      lastBloodTradeTime := e.lastBloodTradeTime,
      lastBloodTradePartner := e.lastBloodTradePartner,
      lastBloodTradeAmount := e.lastBloodTradeAmount,
      lastBloodTradeType := e.lastBloodTradeType)
  }

  /**
   * Domain to row to domain: the persisted fields survive (blood and
   * infection clamped into range), and everything the row does not hold is
   * back at the constructor defaults, including bloodLevel, bloodlust,
   * night vision, intent, the truce, the pending trade and the maker.
   */
  lemma PlayerRoundTrip(v: PlayerView, now: int)
    ensures FromRow(ToRow(v), now)
            == Defaults(v.uuid, v.name, now).(
                 isVampire := v.isVampire,
                 blood := Clamp(v.blood, 0.0, MAX_BLOOD),
                 infectionLevel := Clamp(v.infectionLevel, 0.0, 1.0),
                 infectionReason := v.infectionReason,
                 infectionTime := v.infectionTime,
                 lastShriekTime := v.lastShriekTime,
                 lastBloodTradeTime := v.lastBloodTradeTime,
                 lastBloodTradePartner := v.lastBloodTradePartner,
                 lastBloodTradeAmount := v.lastBloodTradeAmount,
                 lastBloodTradeType := v.lastBloodTradeType)
    ensures 0.0 <= v.blood <= MAX_BLOOD ==> FromRow(ToRow(v), now).blood == v.blood
    ensures 0.0 <= v.infectionLevel <= 1.0 ==> FromRow(ToRow(v), now).infectionLevel == v.infectionLevel
    ensures FromRow(ToRow(v), now).bloodLevel == 0.0 && !FromRow(ToRow(v), now).bloodlusting
    ensures FromRow(ToRow(v), now).tradeOfferedFrom == null && FromRow(ToRow(v), now).makerId == None
  {
  }

  /**
   * Row to domain to row: a row whose blood and infection are in range
   * comes back unchanged; otherwise those two come back clamped.
   */
  lemma RowRoundTrip(e: PlayerRow, now: int)
    ensures ToRow(FromRow(e, now))
            == e.(bloodLevel := Clamp(e.bloodLevel, 0.0, MAX_BLOOD),
                  infectionLevel := Clamp(e.infectionLevel, 0.0, 1.0))
    ensures 0.0 <= e.bloodLevel <= MAX_BLOOD && 0.0 <= e.infectionLevel <= 1.0 ==>
            ToRow(FromRow(e, now)) == e
  {
  }

  /** convertToVampirePlayer: builds a new player object from a row. */
  method ConvertToVampirePlayer(e: PlayerRow, now: int) returns (p: VampirePlayer)
    ensures fresh(p) && p.Valid()
    ensures p.View() == FromRow(e, now)
  {
    p := new VampirePlayer(e.uuid, e.name, now);
    p.SetVampire(e.isVampire);
    p.SetBlood(e.bloodLevel);
    p.SetInfectionLevel(e.infectionLevel);
    p.SetInfectionReason(e.infectionReason);
    p.SetInfectionTime(e.infectionTime);
    p.SetLastShriekTime(e.lastShriekTime);
    p.SetLastBloodTradeTime(e.lastBloodTradeTime);
    p.SetLastBloodTradePartner(e.lastBloodTradePartner);
    p.SetLastBloodTradeAmount(e.lastBloodTradeAmount);
    p.SetLastBloodTradeType(e.lastBloodTradeType);
  }

  /**
   * convertToBloodOffer: sender, target, amount and both flags are copied,
   * but the new offer is stamped with the current clock instead of the
   * stored timestamp.
   */
  method ConvertToBloodOffer(e: OfferRow, now: int) returns (o: BloodOffer)
    ensures fresh(o)
    ensures o.sender == e.sender && o.target == e.target && o.amount == e.amount
    ensures o.Status() == OfferStatus(e.accepted, e.rejected)
    ensures o.timestamp == now
  {
    o := new BloodOffer(e.sender, e.target, e.amount, now);
    if e.accepted {
      o.SetAccepted();
    }
    if e.rejected {
      o.SetRejected();
    }
  }

  /** The offers acceptBloodOffer and getBloodOffer look for: the target's pending ones. */
  predicate AcceptMatch(o: OfferRow, target: Uuid)
  {
    o.target == target && !o.accepted && !o.rejected
  }

  /** The offers rejectBloodOffer looks for: the target's not yet rejected ones, accepted or not. */
  predicate RejectMatch(o: OfferRow, target: Uuid)
  {
    o.target == target && !o.rejected
  }

  /** Every offer acceptance can find, rejection finds too; an accepted offer only rejection finds. */
  lemma MatchesNest(o: OfferRow, target: Uuid)
    ensures AcceptMatch(o, target) ==> RejectMatch(o, target)
    ensures o.target == target && o.accepted && !o.rejected ==>
            RejectMatch(o, target) && !AcceptMatch(o, target)
  {
  }

  /** Offers created strictly before now - timeout: the ones cleanupExpiredOffers deletes. */
  predicate Stale(o: OfferRow, now: int, timeoutMillis: int)
  {
    o.timestamp < now - timeoutMillis
  }

  /**
   * The deletion rule of cleanup agrees with BloodOffer.isExpired on the
   * stored timestamp, and ignores the status flags.
   */
  lemma StaleIsExpired(o: OfferRow, now: int, timeoutMillis: int)
    ensures Stale(o, now, timeoutMillis) <==> Expired(o.timestamp, now, timeoutMillis)
    ensures Stale(o, now, timeoutMillis) == Stale(o.(accepted := true), now, timeoutMillis)
  {
  }

  /** The rows that survive cleanupExpiredOffers. */
  function Fresh(offers: map<nat, OfferRow>, now: int, timeoutMillis: int): (r: map<nat, OfferRow>)
    ensures forall id :: id in r <==> id in offers && !Stale(offers[id], now, timeoutMillis)
    ensures forall id :: id in r ==> r[id] == offers[id]
  {
    map id | id in offers && !Stale(offers[id], now, timeoutMillis) :: offers[id]
  }

  /** The two tables the store keeps, with the next generated offer id. */
  class Store {
    var players: map<Uuid, PlayerRow>
    var offers: map<nat, OfferRow>
    var nextOfferId: nat

    /** Rows are keyed by their own uuid, and offer ids below nextOfferId were all handed out. */
    ghost predicate Valid()
      reads this
    {
      (forall id :: id in players ==> players[id].uuid == id)
      && (forall id :: id in offers ==> id < nextOfferId)
    }

    constructor ()
      ensures Valid() && players == map[] && offers == map[] && nextOfferId == 0
    {
      players := map[];
      offers := map[];
      nextOfferId := 0;
    }

    /** savePlayer: merge, which inserts or replaces the row under the player's uuid. */
    method SavePlayer(v: PlayerView)
      requires Valid()
      modifies this
      ensures Valid()
      ensures players == old(players)[v.uuid := ToRow(v)]
      ensures offers == old(offers) && nextOfferId == old(nextOfferId)
    {
      players := players[v.uuid := ToRow(v)];
    }

    /** getPlayer: the converted row, or null when there is none. */
    method GetPlayer(id: Uuid, now: int) returns (p: VampirePlayer?)
      ensures id !in players ==> p == null
      ensures id in players ==> p != null && fresh(p) && p.Valid() && p.View() == FromRow(players[id], now)
    {
      if id in players {
        p := ConvertToVampirePlayer(players[id], now);
      } else {
        p := null;
      }
    }

    /** useBlood: succeeds iff the row exists and holds at least amount, and then subtracts it. */
    method UseBlood(id: Uuid, amount: real) returns (ok: bool)
      requires Valid()
      modifies this
      ensures Valid()
      ensures ok <==> id in old(players) && old(players)[id].bloodLevel >= amount
      ensures ok ==> players == old(players)[id := old(players)[id].(bloodLevel := old(players)[id].bloodLevel - amount)]
      ensures !ok ==> players == old(players)
      ensures offers == old(offers) && nextOfferId == old(nextOfferId)
    {
      if id in players && players[id].bloodLevel >= amount {
        players := players[id := players[id].(bloodLevel := players[id].bloodLevel - amount)];
        return true;
      }
      return false;
    }

    /** addInfection: adds without clamping, records reason and clock time; true iff the row exists. */
    method AddInfection(id: Uuid, amount: real, reason: Option<string>, now: int) returns (ok: bool)
      requires Valid()
      modifies this
      ensures Valid()
      ensures ok <==> id in old(players)
      ensures ok ==> players == old(players)[id := old(players)[id].(
                        infectionLevel := old(players)[id].infectionLevel + amount,
                        infectionReason := reason, infectionTime := now)]
      ensures !ok ==> players == old(players)
      ensures offers == old(offers) && nextOfferId == old(nextOfferId)
    {
      if id in players {
        var row := players[id];
        players := players[id := row.(infectionLevel := row.infectionLevel + amount,
                                      infectionReason := reason, infectionTime := now)];
        return true;
      }
      return false;
    }

    /** setVampire: sets the flag and, only when turning into a vampire, stamps the infection time. */
    method SetVampire(id: Uuid, isVampire: bool, now: int) returns (ok: bool)
      requires Valid()
      modifies this
      ensures Valid()
      ensures ok <==> id in old(players)
      ensures ok ==> players == old(players)[id := old(players)[id].(
                        isVampire := isVampire,
                        infectionTime := if isVampire then now else old(players)[id].infectionTime)]
      ensures !ok ==> players == old(players)
      ensures offers == old(offers) && nextOfferId == old(nextOfferId)
    {
      if id in players {
        var row := players[id].(isVampire := isVampire);
        if isVampire {
          row := row.(infectionTime := now);
        }
        players := players[id := row];
        return true;
      }
      return false;
    }

    /** createBloodOffer: persists a pending offer under a new id and returns it as a domain object. */
    method CreateBloodOffer(sender: Uuid, target: Uuid, amount: real, now: int) returns (o: BloodOffer)
      requires Valid()
      modifies this
      ensures Valid()
      ensures offers == old(offers)[old(nextOfferId) := OfferRow(sender, target, amount, now, false, false)]
      ensures old(nextOfferId) !in old(offers)
      ensures nextOfferId == old(nextOfferId) + 1 && players == old(players)
      ensures fresh(o) && o.sender == sender && o.target == target && o.amount == amount
      ensures o.timestamp == now && o.IsPending()
    {
      var row := OfferRow(sender, target, amount, now, false, false);
      offers := offers[nextOfferId := row];
      nextOfferId := nextOfferId + 1;
      o := ConvertToBloodOffer(row, now);
    }

    /**
     * acceptBloodOffer: marks the target's single pending offer accepted.
     * No pending offer gives false; several make uniqueResult() throw and
     * nothing changes.
     */
    method AcceptBloodOffer(target: Uuid) returns (r: TxResult)
      requires Valid()
      modifies this
      ensures Valid()
      ensures var matching := set id | id in old(offers) && AcceptMatch(old(offers)[id], target);
              && (matching == {} ==> r == Done(false) && offers == old(offers))
              && (|matching| > 1 ==> r == NonUniqueResult && offers == old(offers))
              && (forall id :: matching == {id} ==>
                    r == Done(true) && offers == old(offers)[id := old(offers)[id].(accepted := true)])
      ensures players == old(players) && nextOfferId == old(nextOfferId)
    {
      var matching := set id | id in offers && AcceptMatch(offers[id], target);
      if matching == {} {
        return Done(false);
      }
      var id :| id in matching;
      if matching != {id} {
        assert |matching - {id}| >= 1;
        return NonUniqueResult;
      }
      offers := offers[id := offers[id].(accepted := true)];
      return Done(true);
    }

    /**
     * rejectBloodOffer: marks the target's single not-yet-rejected offer
     * rejected, whether or not it was accepted before.
     */
    method RejectBloodOffer(target: Uuid) returns (r: TxResult)
      requires Valid()
      modifies this
      ensures Valid()
      ensures var matching := set id | id in old(offers) && RejectMatch(old(offers)[id], target);
              && (matching == {} ==> r == Done(false) && offers == old(offers))
              && (|matching| > 1 ==> r == NonUniqueResult && offers == old(offers))
              && (forall id :: matching == {id} ==>
                    r == Done(true) && offers == old(offers)[id := old(offers)[id].(rejected := true)])
      ensures players == old(players) && nextOfferId == old(nextOfferId)
    {
      var matching := set id | id in offers && RejectMatch(offers[id], target);
      if matching == {} {
        return Done(false);
      }
      var id :| id in matching;
      if matching != {id} {
        assert |matching - {id}| >= 1;
        return NonUniqueResult;
      }
      offers := offers[id := offers[id].(rejected := true)];
      return Done(true);
    }

    /**
     * cleanupExpiredOffers: removes, one by one, every offer created before
     * now - timeout, whatever its status, and answers true.
     */
    method CleanupExpiredOffers(now: int, timeoutMillis: int) returns (ok: bool)
      requires Valid()
      modifies this
      ensures Valid()
      ensures ok && offers == Fresh(old(offers), now, timeoutMillis)
      ensures players == old(players) && nextOfferId == old(nextOfferId)
    {
      var doomed := set id | id in offers && Stale(offers[id], now, timeoutMillis);
      while doomed != {}
        invariant doomed <= offers.Keys
        invariant forall id :: id in offers <==> id in old(offers) && (id in doomed || !Stale(old(offers)[id], now, timeoutMillis))
        invariant forall id :: id in offers ==> offers[id] == old(offers)[id]
        invariant players == old(players) && nextOfferId == old(nextOfferId)
        decreases doomed
      {
        var id :| id in doomed;
        offers := offers - {id};
        doomed := doomed - {id};
      }
      return true;
    }
  }
}

=== FILE: resources.dfy ===
/**
 * Inventory bookkeeping of the resource helper: counting the stacks that
 * match a required item, checking a list of requirements, removing items
 * across stacks in slot order, and the item and time formatters.
 */
module Resources {
  import opened Wrappers
  import opened Items
  import opened Strings

  /** A slot holds a stack of the given type and durability. */
  predicate Matches(slot: Slot, kind: Material, durability: int)
  {
    slot.Some? && slot.value.kind == kind && slot.value.durability == durability
  }

  /** The amount a slot contributes to the count of (kind, durability). */
  function Contribution(slot: Slot, kind: Material, durability: int): nat
  {
    if Matches(slot, kind, durability) then slot.value.amount else 0
  }

  /** Total amount held in stacks of the given type and durability. */
  function Available(s: seq<Slot>, kind: Material, durability: int): nat
  {
    if s == [] then 0
    else Contribution(s[0], kind, durability) + Available(s[1..], kind, durability)
  }

  /** Counting distributes over concatenation. */
  lemma {:induction false} AvailableAppend(a: seq<Slot>, b: seq<Slot>, kind: Material, durability: int)
    ensures Available(a + b, kind, durability) == Available(a, kind, durability) + Available(b, kind, durability)
  {
    if a == [] {
      assert a + b == b;
    } else {
      assert (a + b)[1..] == a[1..] + b;
      AvailableAppend(a[1..], b, kind, durability);
    }
  }

  /** Counting slot by slot: the count of a prefix grows by the next slot's contribution. */
  lemma AvailableSnoc(s: seq<Slot>, x: Slot, kind: Material, durability: int)
    ensures Available(s + [x], kind, durability) == Available(s, kind, durability) + Contribution(x, kind, durability)
  {
    AvailableAppend(s, [x], kind, durability);
    assert [x][1..] == [];
  }

  /** The requirement a stack describes is met: playerHas(player, stack) and hasItem. */
  predicate Holds(s: seq<Slot>, item: ItemStack)
  {
    Available(s, item.kind, item.durability) >= item.amount
  }

  /** playerHas(player, collection): each stack is checked on its own. */
  predicate HoldsEach(s: seq<Slot>, items: seq<ItemStack>)
  {
    forall j :: 0 <= j < |items| ==> Holds(s, items[j])
  }

  /**
   * removeItem as a function of the contents: walking the slots in order,
   * each matching stack gives min(remaining, its amount) until nothing
   * remains.
   */
  function Removed(s: seq<Slot>, kind: Material, durability: int, remaining: int): (r: seq<Slot>)
    ensures |r| == |s|
  {
    if s == [] then []
    else if remaining <= 0 then s
    else if Matches(s[0], kind, durability) then
      var take := if remaining <= s[0].value.amount then remaining else s[0].value.amount;
      [Some(s[0].value.(amount := s[0].value.amount - take))] + Removed(s[1..], kind, durability, remaining - take)
    else [s[0]] + Removed(s[1..], kind, durability, remaining)
  }

  /** What the first matching stack gives towards remaining. */
  function Taken(slot: Slot, kind: Material, durability: int, remaining: int): nat
  {
    if remaining <= 0 || !Matches(slot, kind, durability) then 0
    else if remaining <= slot.value.amount then remaining else slot.value.amount
  }

  /** The slot after one step of removeItem: a matching stack loses what it gives. */
  function Stepped(slot: Slot, kind: Material, durability: int, remaining: int): Slot
  {
    if remaining > 0 && Matches(slot, kind, durability)
    then Some(slot.value.(amount := slot.value.amount - Taken(slot, kind, durability, remaining)))
    else slot
  }

  /** One step of the removal: the first slot, then the rest with what is still to take. */
  lemma RemovedUnfold(s: seq<Slot>, kind: Material, durability: int, remaining: int)
    requires s != [] && remaining > 0
    ensures Removed(s, kind, durability, remaining)
            == [Stepped(s[0], kind, durability, remaining)]
               + Removed(s[1..], kind, durability, remaining - Taken(s[0], kind, durability, remaining))
  {
  }

  lemma SeqAssoc(a: seq<Slot>, x: Slot, b: seq<Slot>)
    ensures a + ([x] + b) == (a + [x]) + b
  {
  }

  /** What a removal of remaining takes out of have: nothing for a non-positive request, else min(remaining, have). */
  function TakenFrom(remaining: int, have: int): int
  {
    if remaining <= 0 then 0 else if remaining <= have then remaining else have
  }

  /** removeItem takes min(required, available) in total from the matching stacks. */
  lemma {:induction false} RemovedTakesAvailable(s: seq<Slot>, kind: Material, durability: int, remaining: int)
    ensures Available(Removed(s, kind, durability, remaining), kind, durability)
            == Available(s, kind, durability) - TakenFrom(remaining, Available(s, kind, durability))
    decreases |s|
  {
    if s != [] && remaining > 0 {
      var t := Taken(s[0], kind, durability, remaining);
      var tail := Removed(s[1..], kind, durability, remaining - t);
      RemovedHead(s, kind, durability, remaining);
      RemovedTakesAvailable(s[1..], kind, durability, remaining - t);
      TakenIsMin(s[0], kind, durability, remaining);
      TakeSplits(Contribution(s[0], kind, durability), Available(s[1..], kind, durability), remaining, t,
                 Available(tail, kind, durability));
    }
  }

  /** The count after a removal: what the first slot keeps plus what the rest keeps. */
  lemma RemovedHead(s: seq<Slot>, kind: Material, durability: int, remaining: int)
    requires s != [] && remaining > 0
    ensures Available(Removed(s, kind, durability, remaining), kind, durability)
            == (Contribution(s[0], kind, durability) - Taken(s[0], kind, durability, remaining))
               + Available(Removed(s[1..], kind, durability, remaining - Taken(s[0], kind, durability, remaining)), kind, durability)
  {
    var r := Removed(s, kind, durability, remaining);
    RemovedUnfold(s, kind, durability, remaining);
    assert r[1..] == Removed(s[1..], kind, durability, remaining - Taken(s[0], kind, durability, remaining));
  }

  /** A stack gives what is required of it, up to what it holds. */
  lemma TakenIsMin(slot: Slot, kind: Material, durability: int, remaining: int)
    ensures Taken(slot, kind, durability, remaining) == TakenFrom(remaining, Contribution(slot, kind, durability))
  {
  }

  /** Taking from the first stack and then from the rest takes min(required, available) in all. */
  lemma TakeSplits(c0: nat, rest: nat, remaining: int, t: int, left: int)
    requires remaining > 0 && t == TakenFrom(remaining, c0)
    requires left == rest - TakenFrom(remaining - t, rest)
    ensures (c0 - t) + left == (c0 + rest) - TakenFrom(remaining, c0 + rest)
  {
  }

  /**
   * Slots that do not match keep their content; matching ones keep
   * everything but the amount, which does not grow.
   */
  lemma {:induction false} RemovedFrame(s: seq<Slot>, kind: Material, durability: int, remaining: int, i: nat)
    requires i < |s|
    ensures var r := Removed(s, kind, durability, remaining);
            (!Matches(s[i], kind, durability) ==> r[i] == s[i])
            && (Matches(s[i], kind, durability) ==>
                  r[i].Some? && r[i].value == s[i].value.(amount := r[i].value.amount)
                  && r[i].value.amount <= s[i].value.amount)
    decreases |s|
  {
    if i > 0 && remaining > 0 {
      var t := Taken(s[0], kind, durability, remaining);
      var r := Removed(s, kind, durability, remaining);
      assert r[1..] == Removed(s[1..], kind, durability, remaining - t);
      RemovedFrame(s[1..], kind, durability, remaining - t, i - 1);
      assert r[i] == r[1..][i - 1] && s[i] == s[1..][i - 1];
    }
  }

  /** Every removal of a list of requirements, one after the other. */
  function RemovedAll(s: seq<Slot>, items: seq<ItemStack>): (r: seq<Slot>)
    ensures |r| == |s|
  {
    if items == [] then s
    else
      var last := items[|items| - 1];
      Removed(RemovedAll(s, items[..|items| - 1]), last.kind, last.durability, last.amount)
  }

  /**
   * The all-or-nothing check tests every requirement on its own, so two
   * requirements of 8 bones pass with 10 bones held, and removing both
   * then takes only the 10 that are there.
   */
  lemma SameTypeRequirementsNotSummed()
    ensures var s := [Some(Stack(BONE, 10))];
            var items := [Stack(BONE, 8), Stack(BONE, 8)];
            HoldsEach(s, items) && Available(s, BONE, 0) < 16
            && RemovedAll(s, items) == [Some(Stack(BONE, 0))]
  {
    var s := [Some(Stack(BONE, 10))];
    var items := [Stack(BONE, 8), Stack(BONE, 8)];
    assert Available(s, BONE, 0) == 10 by { assert s[1..] == []; }
    assert items[..1] == [Stack(BONE, 8)];
    assert items[..1][..0] == [];
    assert RemovedAll(s, items[..1]) == [Some(Stack(BONE, 2))];
  }

  /** hasItem / playerHas(player, stack): the summing loop over the contents. */
  method HasItem(inv: array<Slot>, item: ItemStack) returns (r: bool)
    ensures r <==> Holds(inv[..], item)
  {
    var actual := 0;
    var i := 0;
    while i < inv.Length
      invariant 0 <= i <= inv.Length
      invariant actual == Available(inv[..i], item.kind, item.durability)
    {
      assert inv[..i + 1] == inv[..i] + [inv[i]];
      AvailableSnoc(inv[..i], inv[i], item.kind, item.durability);
      var pstack := inv[i];
      if pstack.Some? && pstack.value.kind == item.kind && pstack.value.durability == item.durability {
        actual := actual + pstack.value.amount;
      }
      i := i + 1;
    }
    assert inv[..i] == inv[..];
    return actual >= item.amount;
  }

  /** playerHas(player, collection): false at the first stack that is not held. */
  method HasEach(inv: array<Slot>, items: seq<ItemStack>) returns (r: bool)
    ensures r <==> HoldsEach(inv[..], items)
  {
    var j := 0;
    while j < |items|
      invariant 0 <= j <= |items|
      invariant forall k :: 0 <= k < j ==> Holds(inv[..], items[k])
    {
      var ok := HasItem(inv, items[j]);
      if !ok {
        return false;
      }
      j := j + 1;
    }
    return true;
  }

  /** removeItem: takes the required amount from matching stacks in slot order, in place. */
  method RemoveItem(inv: array<Slot>, item: ItemStack)
    modifies inv
    ensures inv[..] == Removed(old(inv[..]), item.kind, item.durability, item.amount)
  {
    ghost var orig := inv[..];
    var remaining: int := item.amount;
    var i := 0;
    while i < inv.Length
      invariant 0 <= i <= inv.Length
      invariant inv[i..] == orig[i..]
      invariant Removed(orig, item.kind, item.durability, item.amount)
                == inv[..i] + Removed(orig[i..], item.kind, item.durability, remaining)
    {
      if remaining <= 0 {
        break;
      }
      var pstack := inv[i];
      ghost var before := inv[..i];
      ghost var rem0 := remaining;
      ghost var rest := orig[i..];
      assert rest[0] == pstack && rest[1..] == orig[i + 1..];
      RemovedUnfold(rest, item.kind, item.durability, rem0);
      if pstack.Some? && pstack.value.kind == item.kind && pstack.value.durability == item.durability {
        var toRemove := if remaining <= pstack.value.amount then remaining else pstack.value.amount;
        inv[i] := Some(pstack.value.(amount := pstack.value.amount - toRemove));
        remaining := remaining - toRemove;
      }
      ghost var slot := Stepped(pstack, item.kind, item.durability, rem0);
      assert remaining == rem0 - Taken(pstack, item.kind, item.durability, rem0);
      assert inv[i] == slot;
      assert inv[..i + 1] == before + [slot];
      ghost var tail := Removed(orig[i + 1..], item.kind, item.durability, remaining);
      assert Removed(rest, item.kind, item.durability, rem0) == [slot] + tail;
      SeqAssoc(before, slot, tail);
      i := i + 1;
    }
    assert inv[..] == inv[..i] + inv[i..];
  }

  /**
   * playerRemoveAttempt: when every requirement is held on its own, all of
   * them are removed in list order and the result is true; otherwise
   * nothing is touched and the result is false.
   */
  method RemoveAttempt(inv: array<Slot>, items: seq<ItemStack>) returns (ok: bool)
    modifies inv
    ensures ok <==> HoldsEach(old(inv[..]), items)
    ensures ok ==> inv[..] == RemovedAll(old(inv[..]), items)
    ensures !ok ==> inv[..] == old(inv[..])
  {
    var has := HasEach(inv, items);
    if !has {
      return false;
    }
    ghost var orig := inv[..];
    var j := 0;
    while j < |items|
      invariant 0 <= j <= |items|
      invariant inv[..] == RemovedAll(orig, items[..j])
    {
      assert items[..j + 1][..j] == items[..j];
      RemoveItem(inv, items[j]);
      j := j + 1;
    }
    assert items[..j] == items;
    return true;
  }

  /** describe(type, damage): three fixed names, else the enum name in lower case with spaces. */
  function Describe(kind: Material, damage: int): (r: string)
    ensures kind == POTION && damage == 0 ==> r == "Water Bottle"
    ensures kind == INK_SAC && damage == 4 ==> r == "Lapis Lazuli Dye"
    ensures kind == COAL && damage == 1 ==> r == "Charcoal"
    ensures !(kind == POTION && damage == 0) && !(kind == INK_SAC && damage == 4) && !(kind == COAL && damage == 1) ==>
              |r| == |Name(kind)|
              && forall i :: 0 <= i < |r| ==> r[i] == (if Name(kind)[i] == '_' then ' ' else LowerChar(Name(kind)[i]))
  {
    if kind == POTION && damage == 0 then "Water Bottle"
    else if kind == INK_SAC && damage == 4 then "Lapis Lazuli Dye"
    else if kind == COAL && damage == 1 then "Charcoal"
    else ReplaceChar(Lower(Name(kind)), '_', ' ')
  }

  /** describe(collection): "amount description" entries joined by ", ". */
  function DescribeAll(items: seq<ItemStack>): string
  {
    Join(seq(|items|, i requires 0 <= i < |items| => NatToString(items[i].amount) + " " + Describe(items[i].kind, items[i].durability)), ", ")
  }

  /** The units formatTime shows: seconds, minutes, or hours and minutes. */
  datatype Duration = Secs(s: int) | Mins(m: int) | HoursMins(h: int, m: int)

  function Breakdown(seconds: int): (d: Duration)
    ensures seconds < 60 ==> d == Secs(seconds)
    ensures 60 <= seconds < 3600 ==> d.Mins? && d.m * 60 <= seconds < d.m * 60 + 60 && d.m < 60
    ensures seconds >= 3600 ==> d.HoursMins? && 0 <= d.m < 60 && d.h >= 1
                                && d.h * 3600 + d.m * 60 <= seconds < d.h * 3600 + d.m * 60 + 60
  {
    if seconds < 60 then Secs(seconds)
    else
      var minutes := seconds / 60;
      if minutes < 60 then Mins(minutes)
      else HoursMins(minutes / 60, minutes % 60)
  }

  /** formatTime: "N seconds", "M minutes" or "H hours, M minutes". */
  function FormatTime(seconds: int): string
  {
    match Breakdown(seconds)
    case Secs(s) => IntToString(s) + " seconds"
    case Mins(m) => IntToString(m) + " minutes"
    case HoursMins(h, m) => IntToString(h) + " hours, " + IntToString(m) + " minutes"
  }

  /** 3725 seconds read "1 hours, 2 minutes": the leftover seconds are dropped. */
  lemma FormatTimeExample()
    ensures FormatTime(3725) == "1 hours, 2 minutes"
    ensures FormatTime(59) == "59 seconds"
  {
    assert Breakdown(3725) == HoursMins(1, 2);
    assert IntToString(1) == "1" && IntToString(2) == "2";
    assert Breakdown(59) == Secs(59);
    assert NatToString(59) == NatToString(5) + [DigitChar(9)];
    assert IntToString(59) == "59";
  }
}

=== FILE: strings.dfy ===
/**
 * The java.lang.String operations the plugin relies on, restricted to the
 * ASCII behaviour its inputs (enum names, command arguments, message
 * templates) exercise.
 */
module Strings {
  /** Character.toLowerCase on ASCII letters; other characters are unchanged. */
  function LowerChar(c: char): char
  {
    if 'A' <= c <= 'Z' then (c as int - 'A' as int + 'a' as int) as char else c
  }

  /** Character.toUpperCase on ASCII letters; other characters are unchanged. */
  function UpperChar(c: char): char
  {
    if 'a' <= c <= 'z' then (c as int - 'a' as int + 'A' as int) as char else c
  }

  /** String.toLowerCase. */
  function Lower(s: string): (r: string)
    ensures |r| == |s|
    ensures forall i :: 0 <= i < |s| ==> r[i] == LowerChar(s[i])
  {
    if s == [] then [] else [LowerChar(s[0])] + Lower(s[1..])
  }

  /** String.toUpperCase. */
  function Upper(s: string): (r: string)
    ensures |r| == |s|
    ensures forall i :: 0 <= i < |s| ==> r[i] == UpperChar(s[i])
  {
    if s == [] then [] else [UpperChar(s[0])] + Upper(s[1..])
  }

  /** String.replace(char, char): every occurrence of a becomes b. */
  function ReplaceChar(s: string, a: char, b: char): (r: string)
    ensures |r| == |s|
    ensures forall i :: 0 <= i < |s| ==> r[i] == (if s[i] == a then b else s[i])
  {
    if s == [] then [] else [if s[0] == a then b else s[0]] + ReplaceChar(s[1..], a, b)
  }

  predicate IsDigit(c: char) { '0' <= c <= '9' }

  function DigitChar(d: nat): char
    requires d < 10
  {
    ('0' as int + d) as char
  }

  /** Long.toString of a non-negative number: decimal digits, no leading zero. */
  function NatToString(n: nat): (r: string)
    ensures |r| > 0
    ensures forall i :: 0 <= i < |r| ==> IsDigit(r[i])
    ensures n > 0 ==> r[0] != '0'
    decreases n
  {
    if n < 10 then [DigitChar(n)] else NatToString(n / 10) + [DigitChar(n % 10)]
  }

  /** Long.toString, with a leading minus sign for negative numbers. */
  function IntToString(n: int): string
  {
    if n < 0 then "-" + NatToString(-n) else NatToString(n)
  }

  /** The number a string of decimal digits denotes. */
  function DigitsValue(s: string): nat
    requires forall i :: 0 <= i < |s| ==> IsDigit(s[i])
  {
    if s == [] then 0
    else 10 * DigitsValue(s[..|s| - 1]) + DigitValue(s[|s| - 1])
  }

  function DigitValue(c: char): nat
    requires IsDigit(c)
  {
    c as int - '0' as int
  }

  /** Reading the decimal digits back gives the number: the rendering loses nothing. */
  lemma {:induction false} NatToStringRoundTrip(n: nat)
    ensures DigitsValue(NatToString(n)) == n
    decreases n
  {
    if n >= 10 {
      NatToStringRoundTrip(n / 10);
      var r := NatToString(n);
      assert r[..|r| - 1] == NatToString(n / 10);
    }
  }

  /** Distinct numbers render differently. */
  lemma NatToStringInjective(m: nat, n: nat)
    requires NatToString(m) == NatToString(n)
    ensures m == n
  {
    NatToStringRoundTrip(m);
    NatToStringRoundTrip(n);
  }

  /** String.join(sep, parts). */
  function Join(parts: seq<string>, sep: string): string
  {
    if parts == [] then ""
    else if |parts| == 1 then parts[0]
    else parts[0] + sep + Join(parts[1..], sep)
  }

  /** pat occurs in s at position i. */
  predicate OccursAt(s: string, pat: string, i: nat)
  {
    i + |pat| <= |s| && s[i..i + |pat|] == pat
  }

  /**
   * String.replace(CharSequence, CharSequence) for a non-empty target:
   * every non-overlapping occurrence, scanning left to right, is replaced.
   */
  function ReplaceAll(s: string, pat: string, rep: string): string
    requires |pat| > 0
    decreases |s|
  {
    if |s| < |pat| then s
    else if s[..|pat|] == pat then rep + ReplaceAll(s[|pat|..], pat, rep)
    else [s[0]] + ReplaceAll(s[1..], pat, rep)
  }

  /** A string in which the target does not occur is returned unchanged. */
  lemma {:induction false} ReplaceAllAbsent(s: string, pat: string, rep: string)
    requires |pat| > 0
    requires forall i: nat :: !OccursAt(s, pat, i)
    ensures ReplaceAll(s, pat, rep) == s
    decreases |s|
  {
    if |s| >= |pat| {
      assert !OccursAt(s, pat, 0);
      assert s[0..|pat|] == s[..|pat|];
      forall i: nat
        ensures !OccursAt(s[1..], pat, i)
      {
        assert !OccursAt(s, pat, i + 1);
        if i + |pat| <= |s[1..]| {
          assert s[1..][i..i + |pat|] == s[i + 1..i + 1 + |pat|];
        }
      }
      ReplaceAllAbsent(s[1..], pat, rep);
      assert s == [s[0]] + s[1..];
    }
  }

  /** The target itself becomes the replacement. */
  lemma ReplaceAllWhole(pat: string, rep: string)
    requires |pat| > 0
    ensures ReplaceAll(pat, pat, rep) == rep
  {
    assert pat[|pat|..] == [];
  }

  /** prefix is a prefix of s (String.startsWith). */
  predicate StartsWith(s: string, prefix: string)
  {
    |prefix| <= |s| && s[..|prefix|] == prefix
  }

  /** String.trim: drops leading and trailing characters up to U+0020. */
  function Trim(s: string): (r: string)
    ensures |r| <= |s|
    ensures r != [] ==> r[0] > ' ' && r[|r| - 1] > ' '
  {
    TrimEnd(TrimStart(s))
  }

  function TrimStart(s: string): (r: string)
    ensures |r| <= |s|
    ensures r != [] ==> r[0] > ' '
    ensures r == s[|s| - |r|..]
  {
    if s != [] && s[0] <= ' ' then TrimStart(s[1..]) else s
  }

  function TrimEnd(s: string): (r: string)
    ensures |r| <= |s|
    ensures r != [] ==> r[|r| - 1] > ' '
    ensures r == s[..|r|]
  {
    if s != [] && s[|s| - 1] <= ' ' then TrimEnd(s[..|s| - 1]) else s
  }
}

=== FILE: text_util.dfy ===
/**
 * Chat text helpers: the '&' colour-code rewrite and the title-cased
 * display name of a material.
 */
module TextUtil {
  import opened Wrappers
  import opened Strings
  import opened Items

  /** ChatColor.COLOR_CHAR. */
  const COLOR_CHAR: char := '§'

  /** The characters the pattern &([0-9a-fk-or]) accepts after the ampersand. */
  predicate IsCode(c: char)
  {
    '0' <= c <= '9' || 'a' <= c <= 'f' || 'k' <= c <= 'o' || c == 'r'
  }

  /** A colour code "&c" starts at position i of s. */
  predicate CodeAt(s: string, i: int)
  {
    0 <= i && i + 1 < |s| && s[i] == '&' && IsCode(s[i + 1])
  }

  /**
   * The matcher loop of parse: scanning left to right, each "&c" found is
   * rewritten to COLOR_CHAR followed by c and the scan resumes after it;
   * every other character is copied.
   */
  function Recolor(s: string): (r: string)
    ensures |r| == |s|
    decreases |s|
  {
    if CodeAt(s, 0) then [COLOR_CHAR, s[1]] + Recolor(s[2..])
    else if s == [] then []
    else [s[0]] + Recolor(s[1..])
  }

  /** parse(text): the empty string for null, else the rewritten text. */
  function Parse(text: Option<string>): (r: string)
    ensures text == None ==> r == ""
    ensures text.Some? ==> |r| == |text.value|
  {
    match text
    case None => ""
    case Some(t) => Recolor(t)
  }

  /**
   * Recolor changes nothing but ampersands, and only ampersands that
   * start a code: each becomes COLOR_CHAR while its code letter stays put.
   */
  lemma {:induction false} RecolorPointwise(s: string)
    ensures forall i :: 0 <= i < |s| ==>
              Recolor(s)[i] == s[i] || (Recolor(s)[i] == COLOR_CHAR && CodeAt(s, i))
    ensures forall i :: 0 <= i < |s| && s[i] != '&' ==> Recolor(s)[i] == s[i]
    decreases |s|
  {
    if CodeAt(s, 0) {
      RecolorPointwise(s[2..]);
      forall i | 2 <= i < |s|
        ensures Recolor(s)[i] == s[i] || (Recolor(s)[i] == COLOR_CHAR && CodeAt(s, i))
      {
        assert Recolor(s)[i] == Recolor(s[2..])[i - 2];
        assert CodeAt(s[2..], i - 2) ==> CodeAt(s, i);
      }
    } else if s != [] {
      RecolorPointwise(s[1..]);
      forall i | 1 <= i < |s|
        ensures Recolor(s)[i] == s[i] || (Recolor(s)[i] == COLOR_CHAR && CodeAt(s, i))
      {
        assert Recolor(s)[i] == Recolor(s[1..])[i - 1];
        assert CodeAt(s[1..], i - 1) ==> CodeAt(s, i);
      }
    }
  }

  /** Text without any "&c" code is returned unchanged (an uppercase "&A" is not a code). */
  lemma {:induction false} RecolorNoCodes(s: string)
    requires forall i :: !CodeAt(s, i)
    ensures Recolor(s) == s
    decreases |s|
  {
    if s != [] {
      assert !CodeAt(s, 0);
      forall i ensures !CodeAt(s[1..], i) {
        assert CodeAt(s[1..], i) ==> CodeAt(s, i + 1);
      }
      RecolorNoCodes(s[1..]);
    }
  }

  /** An uppercase letter after '&' is no code. */
  lemma UppercaseIsNoCode(c: char)
    requires 'A' <= c <= 'Z'
    ensures !IsCode(c)
  {
  }

  /** Rewritten text holds no code any more. */
  lemma {:induction false} RecolorLeavesNoCode(s: string)
    ensures forall i :: !CodeAt(Recolor(s), i)
    decreases |s|
  {
    if CodeAt(s, 0) {
      RecolorLeavesNoCode(s[2..]);
      var r := Recolor(s);
      var t := Recolor(s[2..]);
      assert r == [COLOR_CHAR, s[1]] + t;
      forall i ensures !CodeAt(r, i) {
        if 2 <= i {
          assert CodeAt(r, i) ==> CodeAt(t, i - 2);
        }
      }
    } else if s != [] {
      RecolorLeavesNoCode(s[1..]);
      var r := Recolor(s);
      var t := Recolor(s[1..]);
      forall i ensures !CodeAt(r, i) {
        if 1 <= i {
          assert CodeAt(r, i) ==> CodeAt(t, i - 1);
        } else if i == 0 && |s| >= 2 && s[0] == '&' {
          // s[1] is no code, so the character after the kept '&' is s[1] or COLOR_CHAR.
          assert !IsCode(s[1]);
          if CodeAt(s[1..], 0) {
            assert t[0] == COLOR_CHAR;
          } else {
            assert t[0] == s[1];
          }
        }
      }
    }
  }

  /** Parsing twice gives what parsing once gives. */
  lemma ParseIdempotent(text: Option<string>)
    ensures Parse(Some(Parse(text))) == Parse(text)
  {
    if text.Some? {
      RecolorLeavesNoCode(text.value);
      RecolorNoCodes(Recolor(text.value));
    }
  }

  /**
   * The capitalising loop of getMaterialName: a character is upper-cased
   * when it is the first one or follows a space; spaces are copied.
   */
  function TitleCase(s: string, capitalize: bool): (r: string)
    ensures |r| == |s|
  {
    if s == [] then []
    else if s[0] == ' ' then [' '] + TitleCase(s[1..], true)
    else [if capitalize then UpperChar(s[0]) else s[0]] + TitleCase(s[1..], false)
  }

  /** Position i starts a word: it is the first position or follows a space. */
  predicate WordStart(s: string, i: int)
    requires 0 <= i < |s|
  {
    i == 0 || s[i - 1] == ' '
  }

  /** TitleCase upper-cases exactly the word starts and keeps every other character. */
  lemma {:induction false} TitleCasePointwise(s: string)
    ensures forall i :: 0 <= i < |s| ==>
              TitleCase(s, true)[i] == if WordStart(s, i) then UpperChar(s[i]) else s[i]
    decreases |s|
  {
    if s != [] {
      TitleCaseFollowing(s[1..], s[0] == ' ');
      forall i | 1 <= i < |s|
        ensures TitleCase(s, true)[i] == if WordStart(s, i) then UpperChar(s[i]) else s[i]
      {
        assert TitleCase(s, true)[i] == TitleCase(s[1..], s[0] == ' ')[i - 1];
      }
    }
  }

  /** The same statement for a tail, where the first position is capitalised iff the flag says so. */
  lemma {:induction false} TitleCaseFollowing(s: string, capitalize: bool)
    ensures forall i :: 0 <= i < |s| ==>
              TitleCase(s, capitalize)[i]
              == if (i == 0 && capitalize) || (i > 0 && s[i - 1] == ' ') then UpperChar(s[i]) else s[i]
    decreases |s|
  {
    if s != [] {
      if s[0] == ' ' {
        TitleCaseFollowing(s[1..], true);
        assert UpperChar(' ') == ' ';
      } else {
        TitleCaseFollowing(s[1..], false);
      }
      forall i | 0 <= i < |s|
        ensures TitleCase(s, capitalize)[i]
                == if (i == 0 && capitalize) || (i > 0 && s[i - 1] == ' ') then UpperChar(s[i]) else s[i]
      {
        if i > 0 {
          assert TitleCase(s, capitalize)[i] == TitleCase(s[1..], s[0] == ' ')[i - 1];
          assert s[1..][i - 1] == s[i];
          if i > 1 {
            assert s[1..][i - 2] == s[i - 1];
          }
        }
      }
    }
  }

  /** getMaterialName(material): "Unknown" for null, else the title-cased, spaced, lower-cased enum name. */
  function MaterialName(material: Option<Material>): (r: string)
    ensures material == None ==> r == "Unknown"
    ensures material.Some? ==> |r| == |Name(material.value)|
  {
    match material
    case None => "Unknown"
    case Some(m) => TitleCase(ReplaceChar(Lower(Name(m)), '_', ' '), true)
  }

  /**
   * Each character of the display name is the enum name's character,
   * lower-cased, with '_' turned into a space, and upper-cased again at
   * the start of each word.
   */
  lemma MaterialNameShape(m: Material)
    ensures var n := Name(m);
            var spaced := ReplaceChar(Lower(n), '_', ' ');
            forall i :: 0 <= i < |n| ==>
              MaterialName(Some(m))[i] == if WordStart(spaced, i) then UpperChar(spaced[i]) else spaced[i]
  {
    TitleCasePointwise(ReplaceChar(Lower(Name(m)), '_', ' '));
  }
}

=== FILE: type_boolean.dfy ===
/**
 * The boolean command-argument type: case-insensitive yes/no words and
 * their tab completions.
 */
module TypeBoolean {
  import opened Wrappers
  import opened Strings

  const TRUE_VALUES: seq<string> := ["true", "yes", "on", "1"]
  const FALSE_VALUES: seq<string> := ["false", "no", "off", "0"]

  /** The language key of the message the IllegalArgumentException carries. */
  const INVALID_BOOLEAN: string := "error.invalid-boolean"

  /**
   * parse(input): true for a word of TRUE_VALUES, false for one of
   * FALSE_VALUES, after lower-casing; anything else is rejected with the
   * invalid-boolean message.
   */
  function Parse(input: string): (r: Result<bool, string>)
    ensures r == Ok(true) <==> Lower(input) in TRUE_VALUES
    ensures r == Ok(false) <==> Lower(input) in FALSE_VALUES
    ensures r.Err? <==> Lower(input) !in TRUE_VALUES && Lower(input) !in FALSE_VALUES
    ensures r.Err? ==> r.error == INVALID_BOOLEAN
  {
    var lowered := Lower(input);
    if lowered in TRUE_VALUES then Ok(true)
    else if lowered in FALSE_VALUES then Ok(false)
    else Err(INVALID_BOOLEAN)
  }

  /** No word is both true and false, so the order of the two tests does not matter. */
  lemma WordListsDisjoint(w: string)
    ensures !(w in TRUE_VALUES && w in FALSE_VALUES)
  {
    if w in TRUE_VALUES {
      assert w == "true" || w == "yes" || w == "on" || w == "1";
      assert "true" != "false" && "true" != "no" && "true" != "off" && "true" != "0";
      assert "yes"[0] == 'y' && "on"[1] == 'n' && "1"[0] == '1';
    }
  }

  /** Lower-casing twice is lower-casing once. */
  lemma {:induction false} LowerIdempotent(s: string)
    ensures Lower(Lower(s)) == Lower(s)
  {
    forall i | 0 <= i < |s|
      ensures Lower(Lower(s))[i] == Lower(s)[i]
    {
      var c := s[i];
      assert Lower(s)[i] == LowerChar(c);
    }
  }

  /** The parser ignores case: parsing the lower-cased input gives the same answer. */
  lemma ParseIgnoresCase(input: string)
    ensures Parse(Lower(input)) == Parse(input)
  {
    LowerIdempotent(input);
  }

  /** Every word of the true list parses to true. */
  lemma TrueWordsParse()
    ensures forall w :: w in TRUE_VALUES ==> Parse(w) == Ok(true)
  {
    forall w | w in TRUE_VALUES ensures Lower(w) == w {
      assert w == "true" || w == "yes" || w == "on" || w == "1";
    }
  }

  /** Every word of the false list parses to false. */
  lemma FalseWordsParse()
    ensures forall w :: w in FALSE_VALUES ==> Parse(w) == Ok(false)
  {
    forall w | w in FALSE_VALUES ensures Parse(w) == Ok(false) {
      assert w == "false" || w == "no" || w == "off" || w == "0";
      assert Lower(w) == w;
      WordListsDisjoint(w);
    }
  }

  /** Every word in either list parses to its own list's value. */
  lemma WordsParse()
    ensures forall w :: w in TRUE_VALUES ==> Parse(w) == Ok(true)
    ensures forall w :: w in FALSE_VALUES ==> Parse(w) == Ok(false)
  {
    TrueWordsParse();
    FalseWordsParse();
  }

  /**
   * getTabList(arg): both words for an empty argument, "true" when the
   * lower-cased argument is a prefix of "t", "false" when it is a prefix
   * of "f", otherwise nothing.
   */
  function TabList(arg: string): (r: seq<string>)
    ensures arg == [] ==> r == ["true", "false"]
    ensures arg != [] ==> (r == ["true"] <==> Lower(arg) == "t")
    ensures arg != [] ==> (r == ["false"] <==> Lower(arg) == "f")
    ensures arg != [] && Lower(arg) != "t" && Lower(arg) != "f" ==> r == []
  {
    if arg == [] then ["true", "false"]
    else if StartsWith("t", Lower(arg)) then ["true"]
    else if StartsWith("f", Lower(arg)) then ["false"]
    else []
  }

  /** Every suggestion is accepted by the parser, and only "t"/"T" and "f"/"F" get one. */
  lemma TabListParses(arg: string)
    ensures forall w :: w in TabList(arg) ==> Parse(w).Ok?
    ensures TabList("tr") == [] && TabList("T") == ["true"] && TabList("F") == ["false"]
  {
    WordsParse();
    assert Lower("tr") == "tr";
    assert Lower("T") == "t";
    assert Lower("F") == "f";
  }
}

=== FILE: type_limited_double.dfy ===
/**
 * The bounded number command-argument type. Double.parseDouble and the
 * "%.1f" formatting are supplied by the caller as functions, so the
 * model states the range rules without modelling decimal conversion.
 */
module TypeLimitedDouble {
  import opened Wrappers
  import opened Numbers
  import opened Strings

  /** Why parse rejected its input: the language key and, for the range error, the formatted bounds. */
  datatype ParseError = EmptyInput | InvalidNumber | NumberRange(min: string, max: string)

  /**
   * parse(input) for a type with bounds min and max: null or blank input
   * is empty; unparsable, NaN and infinite values are invalid; a finite
   * value outside [min, max] is out of range; otherwise the value itself.
   */
  function Parse(min: real, max: real, input: Option<string>, parseDouble: DoubleParser, fmt: Formatter)
    : (r: Result<real, ParseError>)
    ensures input == None || (input.Some? && Trim(input.value) == []) ==> r == Err(EmptyInput)
    ensures r.Ok? ==> min <= r.value <= max
    ensures r.Ok? <==> input.Some? && Trim(input.value) != []
                       && parseDouble(Trim(input.value)).Some?
                       && parseDouble(Trim(input.value)).value.Finite?
                       && min <= parseDouble(Trim(input.value)).value.v <= max
    ensures r.Ok? ==> parseDouble(Trim(input.value)) == Some(Finite(r.value))
  {
    if input == None || Trim(input.value) == [] then Err(EmptyInput)
    else
      match parseDouble(Trim(input.value))
      case None => Err(InvalidNumber)
      case Some(d) =>
        if !d.Finite? then Err(InvalidNumber)
        else if d.v < min || d.v > max then Err(NumberRange(fmt(min), fmt(max)))
        else Ok(d.v)
  }

  /** Both bounds are accepted, and anything just outside them is a range error. */
  lemma BoundsInclusive(min: real, max: real, s: string, parseDouble: DoubleParser, fmt: Formatter)
    requires min <= max && Trim(s) != []
    ensures parseDouble(Trim(s)) == Some(Finite(min)) ==> Parse(min, max, Some(s), parseDouble, fmt) == Ok(min)
    ensures parseDouble(Trim(s)) == Some(Finite(max)) ==> Parse(min, max, Some(s), parseDouble, fmt) == Ok(max)
    ensures parseDouble(Trim(s)).Some? && parseDouble(Trim(s)).value.Finite?
            && (parseDouble(Trim(s)).value.v < min || parseDouble(Trim(s)).value.v > max) ==>
            Parse(min, max, Some(s), parseDouble, fmt) == Err(NumberRange(fmt(min), fmt(max)))
  {
  }

  /**
   * getTabList(arg): for an empty argument the formatted minimum, midpoint
   * and maximum; otherwise (parsed without trimming) the nearer bound for a
   * value beyond it, and nothing for a value in range, NaN or unparsable
   * text. An infinity compares beyond the bound on its side.
   */
  function TabList(min: real, max: real, arg: string, parseDouble: DoubleParser, fmt: Formatter)
    : (r: seq<string>)
    ensures arg == [] ==> r == [fmt(min), fmt((min + max) / 2.0), fmt(max)]
    ensures arg != [] ==> |r| <= 1
    ensures arg != [] && parseDouble(arg) == None ==> r == []
    ensures arg != [] && parseDouble(arg).Some? && parseDouble(arg).value.Finite?
            && parseDouble(arg).value.v < min ==>
              r == [fmt(min)]
    ensures arg != [] && parseDouble(arg).Some? && parseDouble(arg).value.Finite?
            && min <= max && parseDouble(arg).value.v > max ==>
              r == [fmt(max)]
    ensures arg != [] && parseDouble(arg).Some? && parseDouble(arg).value.Finite?
            && min <= parseDouble(arg).value.v <= max ==>
              r == []
    ensures arg != [] && parseDouble(arg) == Some(NegInf) ==> r == [fmt(min)]
    ensures arg != [] && parseDouble(arg) == Some(PosInf) ==> r == [fmt(max)]
    ensures arg != [] && parseDouble(arg) == Some(NaN) ==> r == []
  {
    if arg == [] then [fmt(min), fmt((min + max) / 2.0), fmt(max)]
    else
      match parseDouble(arg)
      case None => []
      case Some(d) =>
        match d
        case Finite(v) => if v < min then [fmt(min)] else if v > max then [fmt(max)] else []
        case NegInf => [fmt(min)]
        case PosInf => [fmt(max)]
        case NaN => []
  }

  /**
   * For a finite number typed without surrounding blanks, a suggestion is
   * offered exactly when parse would reject the number as out of range,
   * and the suggestion is the bound it crossed. Infinities are rejected
   * as invalid by parse yet still receive a bound as suggestion.
   */
  lemma TabListAgreesWithParse(min: real, max: real, arg: string, parseDouble: DoubleParser, fmt: Formatter)
    requires min <= max && arg != [] && Trim(arg) == arg
    ensures parseDouble(arg).Some? && parseDouble(arg).value.Finite? ==>
              (TabList(min, max, arg, parseDouble, fmt) != []
               <==> Parse(min, max, Some(arg), parseDouble, fmt) == Err(NumberRange(fmt(min), fmt(max))))
    ensures parseDouble(arg).Some? && parseDouble(arg).value.Finite? && parseDouble(arg).value.v < min ==>
              TabList(min, max, arg, parseDouble, fmt) == [fmt(min)]
              && Parse(min, max, Some(arg), parseDouble, fmt) == Err(NumberRange(fmt(min), fmt(max)))
    ensures parseDouble(arg).Some? && parseDouble(arg).value.Finite? && parseDouble(arg).value.v > max ==>
              TabList(min, max, arg, parseDouble, fmt) == [fmt(max)]
              && Parse(min, max, Some(arg), parseDouble, fmt) == Err(NumberRange(fmt(min), fmt(max)))
    ensures parseDouble(arg) == Some(PosInf) ==>
              TabList(min, max, arg, parseDouble, fmt) == [fmt(max)]
              && Parse(min, max, Some(arg), parseDouble, fmt) == Err(InvalidNumber)
  {
    var tab := TabList(min, max, arg, parseDouble, fmt);
    var parsed := Parse(min, max, Some(arg), parseDouble, fmt);
    match parseDouble(arg)
    case None =>
    case Some(d) =>
      match d
      case Finite(v) =>
        if v < min {
          assert tab == [fmt(min)];
          assert parsed == Err(NumberRange(fmt(min), fmt(max)));
        } else if v > max {
          assert tab == [fmt(max)];
          assert parsed == Err(NumberRange(fmt(min), fmt(max)));
        } else {
          assert tab == [];
          assert parsed == Ok(v);
        }
      case PosInf =>
        assert tab == [fmt(max)] && parsed == Err(InvalidNumber);
      case NegInf =>
      case NaN =>
  }
}

=== FILE: vampire_config.dfy ===
/**
 * The plugin settings read from config.yml: the general, vampire, altar
 * and block-opacity sections, each falling back to built-in defaults when
 * its section is missing, with the vampire numbers checked by validators;
 * and the night-vision and bloodlust sections, which assign nothing when
 * they are missing.
 */
module Config {
  import opened Wrappers
  import opened Strings
  import opened Items

  /** A scalar value of a configuration section. */
  datatype ConfigValue = Real(r: real) | Whole(i: int) | Flag(b: bool) | Text(s: string)

  /** A configuration section: path to value. */
  type Section = map<string, ConfigValue>

  /** Java's (int) of a double: truncation toward zero. */
  function TruncateToInt(x: real): (r: int)
    ensures x >= 0.0 ==> r as real <= x < r as real + 1.0
    ensures x < 0.0 ==> r as real - 1.0 < x <= r as real
  {
    if x >= 0.0 then x.Floor else -((-x).Floor)
  }

  /** getDouble(path, def): a number at path as a double, otherwise def. */
  function GetDouble(s: Section, path: string, def: real): (r: real)
    ensures path !in s || !(s[path].Real? || s[path].Whole?) ==> r == def
    ensures path in s && s[path].Real? ==> r == s[path].r
    ensures path in s && s[path].Whole? ==> r == s[path].i as real
  {
    if path in s && s[path].Real? then s[path].r
    else if path in s && s[path].Whole? then s[path].i as real
    else def
  }

  /** getInt(path, def): a number at path as an int (a double truncated), otherwise def. */
  function GetInt(s: Section, path: string, def: int): (r: int)
    ensures path !in s || !(s[path].Real? || s[path].Whole?) ==> r == def
    ensures path in s && s[path].Whole? ==> r == s[path].i
  {
    if path in s && s[path].Whole? then s[path].i
    else if path in s && s[path].Real? then TruncateToInt(s[path].r)
    else def
  }

  /** getBoolean(path, def): a boolean at path, otherwise def. */
  function GetBoolean(s: Section, path: string, def: bool): (r: bool)
    ensures path in s && s[path].Flag? ==> r == s[path].b
    ensures !(path in s && s[path].Flag?) ==> r == def
  {
    if path in s && s[path].Flag? then s[path].b else def
  }

  /** getString(path, def): a string at path, otherwise def. */
  function GetString(s: Section, path: string, def: string): (r: string)
    ensures path in s && s[path].Text? ==> r == s[path].s
    ensures !(path in s && s[path].Text?) ==> r == def
  {
    if path in s && s[path].Text? then s[path].s else def
  }

  /** validatePositiveDouble: the value read at path when it is above zero, otherwise the default. */
  function ValidatePositiveDouble(s: Section, path: string, def: real): (r: real)
    ensures GetDouble(s, path, def) > 0.0 ==> r == GetDouble(s, path, def)
    ensures GetDouble(s, path, def) <= 0.0 ==> r == def
    ensures def > 0.0 ==> r > 0.0
  {
    var value := GetDouble(s, path, def);
    if value <= 0.0 then def else value
  }

  /** validatePercentage: the value read at path when it lies in [0, 1], otherwise the default. */
  function ValidatePercentage(s: Section, path: string, def: real): (r: real)
    ensures 0.0 <= GetDouble(s, path, def) <= 1.0 ==> r == GetDouble(s, path, def)
    ensures !(0.0 <= GetDouble(s, path, def) <= 1.0) ==> r == def
    ensures 0.0 <= def <= 1.0 ==> 0.0 <= r <= 1.0
  {
    var value := GetDouble(s, path, def);
    if value < 0.0 || value > 1.0 then def else value
  }

  /** validatePositiveInteger: the value read at path when it is above zero, otherwise the default. */
  function ValidatePositiveInteger(s: Section, path: string, def: int): (r: int)
    ensures GetInt(s, path, def) > 0 ==> r == GetInt(s, path, def)
    ensures GetInt(s, path, def) <= 0 ==> r == def
    ensures def > 0 ==> r > 0
  {
    var value := GetInt(s, path, def);
    if value <= 0 then def else value
  }

  /** Writing a validated number back into the file and validating again gives the same number. */
  lemma ValidatorsIdempotent(s: Section, path: string, pdef: real, cdef: real, idef: int)
    requires pdef > 0.0 && 0.0 <= cdef <= 1.0 && idef > 0
    ensures var r := ValidatePositiveDouble(s, path, pdef);
            ValidatePositiveDouble(s[path := Real(r)], path, pdef) == r
    ensures var r := ValidatePercentage(s, path, cdef);
            ValidatePercentage(s[path := Real(r)], path, cdef) == r
    ensures var r := ValidatePositiveInteger(s, path, idef);
            ValidatePositiveInteger(s[path := Whole(r)], path, idef) == r
  {
  }

  /** A rejected value is replaced by the default, whatever its sign. */
  lemma ValidatorsRejectExamples(path: string)
    ensures ValidatePositiveDouble(map[path := Real(0.0)], path, 20.0) == 20.0
    ensures ValidatePositiveDouble(map[path := Text("x")], path, 20.0) == 20.0
    ensures ValidatePercentage(map[path := Real(1.5)], path, 0.25) == 0.25
    ensures ValidatePercentage(map[path := Whole(1)], path, 0.25) == 1.0
    ensures ValidatePositiveInteger(map[path := Real(0.5)], path, 60) == 60
    ensures ValidatePositiveInteger(map[path := Real(2.7)], path, 60) == 2
  {
    assert TruncateToInt(0.5) == 0;
    assert TruncateToInt(2.7) == 2;
  }

  /** The general settings. */
  datatype GeneralSettings = GeneralSettings(
    debug: bool, language: string, saveOnQuit: bool, autoSave: bool, autoSaveInterval: int)

  /** The vampire settings. */
  datatype VampireSettings = VampireSettings(
    maxBlood: real, bloodRegenRate: real, nightVision: bool, sunDamage: bool,
    sunDamageAmount: real, canInfect: bool, infectionChance: real, infectionDuration: int,
    canOfferBlood: bool, maxBloodOffer: real, bloodlustThreshold: real,
    bloodlustBloodDecrease: real, taskDelay: int, infectionRate: real, sunlightDamage: real,
    bloodDecreaseRate: real, lowBloodThreshold: real)

  /** The altar settings. */
  datatype AltarSettings = AltarSettings(
    enabled: bool, searchRadius: int, minRatio: real, dark: Section, light: Section)

  /** The fields before any load: Java's zero values and empty maps. */
  const INITIAL_GENERAL := GeneralSettings(false, "", false, false, 0)
  const INITIAL_VAMPIRE := VampireSettings(
    0.0, 0.0, false, false, 0.0, false, 0.0, 0, false, 0.0, 0.0, 0.0, 0, 0.0, 0.0, 0.0, 0.0)
  const INITIAL_ALTAR := AltarSettings(false, 0, 0.0, map[], map[])

  /** The night-vision and bloodlust mode settings, read from their own sub-sections. */
  datatype ModeSettings = ModeSettings(
    nightVisionEnabled: bool, nightVisionLevel: int,
    bloodlustDuration: int, bloodlustDamageBoost: real, bloodlustSpeedBoost: real, bloodlustCooldown: int)

  const INITIAL_MODES := ModeSettings(false, 0, 0, 0.0, 0.0, 0)

  /** loadNightVisionSettings: the two values with their defaults when the section exists; otherwise nothing is assigned. */
  function LoadedNightVision(section: Option<Section>, prev: ModeSettings): (m: ModeSettings)
    ensures section == None ==> m == prev
    ensures section.Some? ==>
              m.nightVisionEnabled == GetBoolean(section.value, "enabled", true)
              && m.nightVisionLevel == GetInt(section.value, "level", 1)
    ensures m.(nightVisionEnabled := prev.nightVisionEnabled, nightVisionLevel := prev.nightVisionLevel) == prev
  {
    match section
    case None => prev
    case Some(s) => prev.(nightVisionEnabled := GetBoolean(s, "enabled", true), nightVisionLevel := GetInt(s, "level", 1))
  }

  /** loadBloodlustSettings: the four values with their defaults when the section exists; otherwise nothing is assigned. */
  function LoadedBloodlust(section: Option<Section>, prev: ModeSettings): (m: ModeSettings)
    ensures section == None ==> m == prev
    ensures section.Some? ==>
              m.bloodlustDuration == GetInt(section.value, "duration", 300)
              && m.bloodlustDamageBoost == GetDouble(section.value, "damage-boost", 1.5)
              && m.bloodlustSpeedBoost == GetDouble(section.value, "speed-boost", 1.2)
              && m.bloodlustCooldown == GetInt(section.value, "cooldown", 600)
    ensures m.nightVisionEnabled == prev.nightVisionEnabled && m.nightVisionLevel == prev.nightVisionLevel
  {
    match section
    case None => prev
    case Some(s) =>
      prev.(bloodlustDuration := GetInt(s, "duration", 300), bloodlustDamageBoost := GetDouble(s, "damage-boost", 1.5),
            bloodlustSpeedBoost := GetDouble(s, "speed-boost", 1.2), bloodlustCooldown := GetInt(s, "cooldown", 600))
  }

  /**
   * Unlike the other sections these have no default path: on a first load
   * a missing section leaves night vision off at level 0 and every
   * bloodlust number at 0, while an empty section gives the defaults.
   */
  lemma MissingModeSectionsStayZero(nightVision: Option<Section>, bloodlust: Option<Section>)
    ensures nightVision == None ==>
              !LoadedBloodlust(bloodlust, LoadedNightVision(nightVision, INITIAL_MODES)).nightVisionEnabled
              && LoadedBloodlust(bloodlust, LoadedNightVision(nightVision, INITIAL_MODES)).nightVisionLevel == 0
    ensures bloodlust == None ==>
              LoadedBloodlust(bloodlust, LoadedNightVision(nightVision, INITIAL_MODES)).bloodlustDuration == 0
              && LoadedBloodlust(bloodlust, LoadedNightVision(nightVision, INITIAL_MODES)).bloodlustDamageBoost == 0.0
    ensures var empty: Section := map[];
            LoadedBloodlust(Some(empty), LoadedNightVision(Some(empty), INITIAL_MODES))
              == ModeSettings(true, 1, 300, 1.5, 1.2, 600)
  {
  }

  /** loadGeneralSettings: the section's values with their defaults, or the defaults alone. */
  function LoadedGeneral(section: Option<Section>): (g: GeneralSettings)
    ensures section == None ==> g == GeneralSettings(false, "en", true, true, 5)
    ensures section.Some? ==> g.language == GetString(section.value, "language", "en")
  {
    match section
    case None => GeneralSettings(false, "en", true, true, 5)
    case Some(s) =>
      GeneralSettings(
        GetBoolean(s, "debug", false), GetString(s, "language", "en"),
        GetBoolean(s, "save-on-quit", true), GetBoolean(s, "auto-save", true),
        GetInt(s, "auto-save-interval", 5))
  }

  /**
   * setDefaultVampireSettings: the fifteen built-in values; the blood
   * decrease rate and the low-blood threshold are not among them and keep
   * what they held.
   */
  function DefaultVampire(prev: VampireSettings): (v: VampireSettings)
    ensures v.bloodDecreaseRate == prev.bloodDecreaseRate
    ensures v.lowBloodThreshold == prev.lowBloodThreshold
  {
    prev.(maxBlood := 20.0, bloodRegenRate := 0.1, nightVision := true, sunDamage := true,
          sunDamageAmount := 1.0, canInfect := true, infectionChance := 0.25,
          infectionDuration := 60, canOfferBlood := true, maxBloodOffer := 5.0,
          bloodlustThreshold := 15.0, bloodlustBloodDecrease := 0.1, taskDelay := 20,
          infectionRate := 0.1, sunlightDamage := 1.0)
  }

  /** loadVampireSettings: every number validated against its default, or the defaults when the section is missing. */
  function LoadedVampire(section: Option<Section>, prev: VampireSettings): (v: VampireSettings)
    ensures section == None ==> v == DefaultVampire(prev)
  {
    match section
    case None => DefaultVampire(prev)
    case Some(s) =>
      VampireSettings(
        ValidatePositiveDouble(s, "max-blood", 20.0),
        ValidatePositiveDouble(s, "blood-regen-rate", 0.1),
        GetBoolean(s, "night-vision", true),
        GetBoolean(s, "sun-damage", true),
        ValidatePositiveDouble(s, "sun-damage-amount", 1.0),
        GetBoolean(s, "can-infect", true),
        ValidatePercentage(s, "infection-chance", 0.25),
        ValidatePositiveInteger(s, "infection-duration", 60),
        GetBoolean(s, "can-offer-blood", true),
        ValidatePositiveDouble(s, "max-blood-offer", 5.0),
        ValidatePositiveDouble(s, "bloodlust-threshold", 15.0),
        ValidatePositiveDouble(s, "bloodlust-blood-decrease", 0.1),
        ValidatePositiveInteger(s, "task-delay", 20),
        ValidatePositiveDouble(s, "infection-rate", 0.1),
        ValidatePositiveDouble(s, "sunlight-damage", 1.0),
        ValidatePositiveDouble(s, "blood-decrease-rate", 0.05),
        ValidatePositiveDouble(s, "low-blood-threshold", 2.0))
  }

  /** The numbers both load paths guarantee: rates and amounts positive, the infection chance a probability. */
  predicate SaneVampire(v: VampireSettings)
  {
    v.maxBlood > 0.0 && v.bloodRegenRate > 0.0 && v.sunDamageAmount > 0.0
    && 0.0 <= v.infectionChance <= 1.0 && v.infectionDuration > 0 && v.maxBloodOffer > 0.0
    && v.bloodlustThreshold > 0.0 && v.bloodlustBloodDecrease > 0.0 && v.taskDelay > 0
    && v.infectionRate > 0.0 && v.sunlightDamage > 0.0
  }

  /**
   * Whatever the file holds, the loaded vampire settings are sane; the
   * blood decrease rate and low-blood threshold are positive only when the
   * section exists, and otherwise stay as they were (zero on a first load).
   */
  lemma LoadedVampireSane(section: Option<Section>, prev: VampireSettings)
    ensures SaneVampire(LoadedVampire(section, prev))
    ensures section.Some? ==> LoadedVampire(section, prev).bloodDecreaseRate > 0.0
                              && LoadedVampire(section, prev).lowBloodThreshold > 0.0
    ensures section == None && prev == INITIAL_VAMPIRE ==>
              LoadedVampire(section, prev).lowBloodThreshold == 0.0
              && LoadedVampire(section, prev).bloodDecreaseRate == 0.0
  {
  }

  /** A section holding exactly the defaults loads the same numbers as a missing section. */
  lemma DefaultsAgree(prev: VampireSettings)
    ensures var s: Section := map[];
            var a := LoadedVampire(Some(s), prev);
            a == DefaultVampire(prev).(bloodDecreaseRate := 0.05, lowBloodThreshold := 2.0)
  {
  }

  /** loadAltarSettings: the section's values, keeping the previous sub-section maps when a sub-section is missing. */
  function LoadedAltar(section: Option<Section>, dark: Option<Section>, light: Option<Section>, prev: AltarSettings)
    : (a: AltarSettings)
    ensures section == None ==> a == AltarSettings(true, 3, 0.5, map[], map[])
    ensures section.Some? && dark == None ==> a.dark == prev.dark
    ensures section.Some? && light == None ==> a.light == prev.light
  {
    match section
    case None => AltarSettings(true, 3, 0.5, map[], map[])
    case Some(s) =>
      AltarSettings(
        GetBoolean(s, "enabled", true), GetInt(s, "search-radius", 3), GetDouble(s, "min-ratio", 0.5),
        if dark.Some? then dark.value else prev.dark,
        if light.Some? then light.value else prev.light)
  }

  /** The default opacities of setDefaultBlockOpacitySettings. */
  const DEFAULT_OPACITY: seq<(Material, real)> :=
    [(GLASS, 0.3), (GLASS_PANE, 0.3), (ICE, 0.5), (WATER, 0.7)]

  /** Material.valueOf: the material with that enum name, None where it throws. */
  type MaterialParser = string -> Option<Material>

  /** The block-opacity map after putting each entry of the blocks section in order, skipping unknown names. */
  function PutOpacities(m: map<Material, real>, entries: seq<(string, ConfigValue)>, valueOf: MaterialParser)
    : (r: map<Material, real>)
    ensures m.Keys <= r.Keys
  {
    if entries == [] then m
    else
      var r := PutOpacities(m, entries[..|entries| - 1], valueOf);
      var e := entries[|entries| - 1];
      match valueOf(Upper(e.0))
      case None => r
      case Some(mat) => r[mat := GetDouble(map[e.0 := e.1], e.0, 0.0)]
  }

  /** The last valid entry naming a material sets its opacity; earlier ones and unknown names do not matter. */
  lemma {:induction false} PutOpacitiesLastWins(m: map<Material, real>, entries: seq<(string, ConfigValue)>,
                                                valueOf: MaterialParser, i: nat)
    requires i < |entries| && valueOf(Upper(entries[i].0)).Some?
    requires forall j :: i < j < |entries| ==> valueOf(Upper(entries[j].0)) != valueOf(Upper(entries[i].0))
    ensures var mat := valueOf(Upper(entries[i].0)).value;
            mat in PutOpacities(m, entries, valueOf)
            && PutOpacities(m, entries, valueOf)[mat] == GetDouble(map[entries[i].0 := entries[i].1], entries[i].0, 0.0)
  {
    var n := |entries| - 1;
    if i < n {
      var prefix := entries[..n];
      forall j | i < j < |prefix| ensures valueOf(Upper(prefix[j].0)) != valueOf(Upper(prefix[i].0)) {
        assert prefix[j] == entries[j];
      }
      assert prefix[i] == entries[i];
      PutOpacitiesLastWins(m, prefix, valueOf, i);
    }
  }

  /**
   * The sections of config.yml the settings are read from; None for a missing section.
   * Nested sections (vampire.night-vision, vampire.bloodlust, altar.dark, altar.light,
   * block-opacity.blocks) are separate fields, independent of their parent: the type
   * also admits files that YAML cannot produce, such as a night-vision section without
   * a vampire section. Every property below holds for those as well, so they widen
   * the inputs without changing what is proved about real files.
   */
  datatype ConfigFile = ConfigFile(
    general: Option<Section>, vampire: Option<Section>,
    nightVision: Option<Section>, bloodlust: Option<Section>,
    altar: Option<Section>, altarDark: Option<Section>, altarLight: Option<Section>,
    opacity: Option<Section>, opacityBlocks: seq<(string, ConfigValue)>, hasOpacityBlocks: bool)

  class VampireConfig {
    var general: GeneralSettings
    var vampire: VampireSettings
    var modes: ModeSettings
    var altar: AltarSettings
    var blockOpacity: map<Material, real>
    var opacityPerArmorPiece: real

    /** new VampireConfig(plugin): empty maps and zero fields, then loadConfig. */
    constructor (file: ConfigFile, valueOf: MaterialParser)
      ensures general == LoadedGeneral(file.general)
      ensures vampire == LoadedVampire(file.vampire, INITIAL_VAMPIRE)
      ensures modes == LoadedBloodlust(file.bloodlust, LoadedNightVision(file.nightVision, INITIAL_MODES))
      ensures altar == LoadedAltar(file.altar, file.altarDark, file.altarLight, INITIAL_ALTAR)
      ensures file.opacity == None ==> blockOpacity == OpacityDefaults(map[]) && opacityPerArmorPiece == 0.1
      ensures file.opacity.Some? ==>
                opacityPerArmorPiece == GetDouble(file.opacity.value, "opacity-per-armor-piece", 0.1)
                && blockOpacity == (if file.hasOpacityBlocks then PutOpacities(map[], file.opacityBlocks, valueOf) else map[])
      ensures SaneVampire(vampire)
    {
      general := INITIAL_GENERAL;
      vampire := INITIAL_VAMPIRE;
      modes := INITIAL_MODES;
      altar := INITIAL_ALTAR;
      blockOpacity := map[];
      opacityPerArmorPiece := 0.0;
      new;
      LoadConfig(file, valueOf);
      LoadedVampireSane(file.vampire, INITIAL_VAMPIRE);
    }

    /**
     * loadConfig: the sections in order general, vampire, night vision,
     * bloodlust, altar, block opacity.
     */
    method LoadConfig(file: ConfigFile, valueOf: MaterialParser)
      modifies this
      ensures general == LoadedGeneral(file.general)
      ensures vampire == LoadedVampire(file.vampire, old(vampire))
      ensures modes == LoadedBloodlust(file.bloodlust, LoadedNightVision(file.nightVision, old(modes)))
      ensures altar == LoadedAltar(file.altar, file.altarDark, file.altarLight, old(altar))
      ensures file.opacity == None ==> blockOpacity == OpacityDefaults(old(blockOpacity))
                                       && opacityPerArmorPiece == 0.1
      ensures file.opacity.Some? ==>
                opacityPerArmorPiece == GetDouble(file.opacity.value, "opacity-per-armor-piece", 0.1)
                && blockOpacity == (if file.hasOpacityBlocks then PutOpacities(old(blockOpacity), file.opacityBlocks, valueOf)
                                    else old(blockOpacity))
    {
      general := LoadedGeneral(file.general);
      vampire := LoadedVampire(file.vampire, vampire);
      modes := LoadedNightVision(file.nightVision, modes);
      modes := LoadedBloodlust(file.bloodlust, modes);
      altar := LoadedAltar(file.altar, file.altarDark, file.altarLight, altar);
      LoadBlockOpacitySettings(file.opacity, file.hasOpacityBlocks, file.opacityBlocks, valueOf);
    }

    /** reload(): loadConfig, reporting success. */
    method Reload(file: ConfigFile, valueOf: MaterialParser) returns (ok: bool)
      modifies this
      ensures ok
      ensures general == LoadedGeneral(file.general)
      ensures vampire == LoadedVampire(file.vampire, old(vampire))
      ensures modes == LoadedBloodlust(file.bloodlust, LoadedNightVision(file.nightVision, old(modes)))
      ensures altar == LoadedAltar(file.altar, file.altarDark, file.altarLight, old(altar))
      ensures file.opacity == None ==> blockOpacity == OpacityDefaults(old(blockOpacity))
                                       && opacityPerArmorPiece == 0.1
      ensures file.opacity.Some? ==>
                opacityPerArmorPiece == GetDouble(file.opacity.value, "opacity-per-armor-piece", 0.1)
                && blockOpacity == (if file.hasOpacityBlocks then PutOpacities(old(blockOpacity), file.opacityBlocks, valueOf)
                                    else old(blockOpacity))
    {
      LoadConfig(file, valueOf);
      ok := true;
    }

    /**
     * loadBlockOpacitySettings: the defaults when the section is missing;
     * otherwise the per-armour opacity, and each blocks entry whose
     * upper-cased name is a material. The map is never cleared.
     */
    method LoadBlockOpacitySettings(section: Option<Section>, hasBlocks: bool,
                                    blocks: seq<(string, ConfigValue)>, valueOf: MaterialParser)
      modifies this
      ensures section == None ==> blockOpacity == OpacityDefaults(old(blockOpacity)) && opacityPerArmorPiece == 0.1
      ensures section.Some? ==>
                opacityPerArmorPiece == GetDouble(section.value, "opacity-per-armor-piece", 0.1)
                && blockOpacity == (if hasBlocks then PutOpacities(old(blockOpacity), blocks, valueOf) else old(blockOpacity))
      ensures general == old(general) && vampire == old(vampire) && modes == old(modes) && altar == old(altar)
    {
      if section == None {
        SetDefaultBlockOpacitySettings();
        return;
      }
      opacityPerArmorPiece := GetDouble(section.value, "opacity-per-armor-piece", 0.1);
      if hasBlocks {
        for i := 0 to |blocks|
          invariant blockOpacity == PutOpacities(old(blockOpacity), blocks[..i], valueOf)
          invariant general == old(general) && vampire == old(vampire) && modes == old(modes) && altar == old(altar)
          invariant opacityPerArmorPiece == GetDouble(section.value, "opacity-per-armor-piece", 0.1)
        {
          assert blocks[..i + 1][..i] == blocks[..i];
          var material := valueOf(Upper(blocks[i].0));
          if material.Some? {
            blockOpacity := blockOpacity[material.value := GetDouble(map[blocks[i].0 := blocks[i].1], blocks[i].0, 0.0)];
          }
        }
        assert blocks[..|blocks|] == blocks;
      }
    }

    /** setDefaultBlockOpacitySettings: 0.1 per armour piece and the four default block opacities put into the map. */
    method SetDefaultBlockOpacitySettings()
      modifies this
      ensures opacityPerArmorPiece == 0.1
      ensures blockOpacity == OpacityDefaults(old(blockOpacity))
      ensures general == old(general) && vampire == old(vampire) && modes == old(modes) && altar == old(altar)
    {
      opacityPerArmorPiece := 0.1;
      blockOpacity := blockOpacity[GLASS := 0.3];
      blockOpacity := blockOpacity[GLASS_PANE := 0.3];
      blockOpacity := blockOpacity[ICE := 0.5];
      blockOpacity := blockOpacity[WATER := 0.7];
    }

    /** getBlockOpacity(material): the configured opacity, 1.0 (fully opaque) for a material without one. */
    function GetBlockOpacity(material: Material): (r: real)
      reads this
      ensures material in blockOpacity ==> r == blockOpacity[material]
      ensures material !in blockOpacity ==> r == 1.0
    {
      if material in blockOpacity then blockOpacity[material] else 1.0
    }
  }

  /** The opacity map after the four default puts. */
  function OpacityDefaults(m: map<Material, real>): (r: map<Material, real>)
    ensures r.Keys == m.Keys + {GLASS, GLASS_PANE, ICE, WATER}
    ensures forall k :: k in m && k !in {GLASS, GLASS_PANE, ICE, WATER} ==> r[k] == m[k]
  {
    m[GLASS := 0.3][GLASS_PANE := 0.3][ICE := 0.5][WATER := 0.7]
  }

  /** The defaults give every listed block its opacity and leave every other material at 1.0 on a first load. */
  lemma OpacityDefaultsTable(m: Material)
    ensures forall k :: 0 <= k < |DEFAULT_OPACITY| ==>
              OpacityDefaults(map[])[DEFAULT_OPACITY[k].0] == DEFAULT_OPACITY[k].1
    ensures m !in {GLASS, GLASS_PANE, ICE, WATER} ==> m !in OpacityDefaults(map[])
  {
  }
}

=== FILE: vampire_listener.dfy ===
/**
 * The event handlers that turn the vampire state into combat numbers and
 * potion effects: the blood-scaled damage bonus and resistance, the
 * low-blood and infection weakness, the mode toggles and the shriek.
 */
module Listener {
  import opened Wrappers
  import opened Strings
  import opened Host
  import opened Entity
  import Config

  /** Integer.MAX_VALUE, the duration of the permanent night vision effect. */
  const INT_MAX: int := 2147483647

  /** The settings the handlers read from the plugin configuration. */
  datatype ListenerSettings = ListenerSettings(
    lowBloodThreshold: real, nightVisionEnabled: bool, nightVisionLevel: int,
    bloodlustDuration: int, bloodlustDamageBoost: real, bloodlustSpeedBoost: real)

  /** A damage event: whether the damager (or the damaged entity) is a player, and the damage it carries. */
  class DamageEvent {
    const byPlayer: bool
    var damage: real

    constructor (player: bool, amount: real)
      ensures byPlayer == player && damage == amount
    {
      byPlayer := player;
      damage := amount;
    }
  }

  /** Damage dealt by a vampire grows by a tenth of the base per unit of blood. */
  function DealtFactor(blood: real): real
  {
    1.0 + blood * 0.1
  }

  /** The resistance of a vampire: 5% per unit of blood, capped at 50%. */
  function Resistance(blood: real): (r: real)
    ensures r <= 0.5
    ensures blood <= 10.0 ==> r == 0.05 * blood
    ensures blood >= 10.0 ==> r == 0.5
  {
    var resistance := 0.05 * blood;
    if resistance > 0.5 then 0.5 else resistance
  }

  /** The damage after onEntityDamage for an attacker whose record is given (None for no record). */
  function DamageDealt(damage: real, attacker: Option<PlayerView>): real
  {
    if attacker.Some? && attacker.value.isVampire then damage * DealtFactor(attacker.value.blood) else damage
  }

  /** The damage after onEntityDamageReceive for a victim whose record is given. */
  function DamageReceived(damage: real, victim: Option<PlayerView>): real
  {
    if victim.Some? && victim.value.isVampire then damage * (1.0 - Resistance(victim.value.blood)) else damage
  }

  /**
   * For blood in [0, MAX_BLOOD] a vampire deals between one and two times
   * the base damage, more with more blood; anyone else deals it unchanged.
   */
  lemma DealtBounds(damage: real, attacker: Option<PlayerView>, other: PlayerView)
    requires damage >= 0.0
    requires attacker.Some? ==> 0.0 <= attacker.value.blood <= MAX_BLOOD
    ensures damage <= DamageDealt(damage, attacker) <= 2.0 * damage
    ensures attacker == None || !attacker.value.isVampire ==> DamageDealt(damage, attacker) == damage
    ensures attacker.Some? && attacker.value.isVampire && other.isVampire && other.blood >= attacker.value.blood ==>
              DamageDealt(damage, Some(other)) >= DamageDealt(damage, attacker)
  {
    if attacker.Some? && attacker.value.isVampire {
      var b := attacker.value.blood;
      assert DamageDealt(damage, attacker) == damage + damage * b * 0.1;
      ScaleMonotone(damage, 0.0, b);
      ScaleMonotone(damage, b, MAX_BLOOD);
      if other.isVampire && other.blood >= b {
        ScaleMonotone(damage, b, other.blood);
        assert DamageDealt(damage, Some(other)) == damage + damage * other.blood * 0.1;
      }
    }
  }

  /**
   * A vampire with non-negative blood keeps at least half of the damage it
   * receives, exactly half from ten units of blood on, and more blood never
   * increases what it takes.
   */
  lemma ReceivedBounds(damage: real, victim: PlayerView, more: real)
    requires damage >= 0.0 && victim.isVampire && 0.0 <= victim.blood <= more
    ensures damage / 2.0 <= DamageReceived(damage, Some(victim)) <= damage
    ensures victim.blood >= 10.0 ==> DamageReceived(damage, Some(victim)) == damage / 2.0
    ensures DamageReceived(damage, Some(victim.(blood := more))) <= DamageReceived(damage, Some(victim))
  {
    var r := Resistance(victim.blood);
    var r2 := Resistance(more);
    assert 0.0 <= r <= r2 <= 0.5;
    ReceivedIs(damage, victim, r);
    ReceivedIs(damage, victim.(blood := more), r2);
    ScaleMonotone(damage, 0.0, r);
    ScaleMonotone(damage, r, 0.5);
    ScaleMonotone(damage, r, r2);
    assert damage * 0.5 == damage / 2.0;
  }

  /** A vampire receives the damage less its resistance's share of it. */
  lemma ReceivedIs(damage: real, victim: PlayerView, r: real)
    requires victim.isVampire && r == Resistance(victim.blood)
    ensures DamageReceived(damage, Some(victim)) == damage - damage * r
  {
    assert damage * (1.0 - r) == damage - damage * r;
  }

  /** Scaling by a non-negative amount keeps the order. */
  lemma ScaleMonotone(d: real, x: real, y: real)
    requires d >= 0.0 && x <= y
    ensures d * x <= d * y
  {
    assert d * y - d * x == d * (y - x);
  }

  /** Between two vampires at full blood the attack bonus and the resistance cancel out. */
  lemma FullBloodDuel(damage: real, attacker: PlayerView, victim: PlayerView)
    requires attacker.isVampire && victim.isVampire
    requires attacker.blood == MAX_BLOOD && victim.blood == MAX_BLOOD
    ensures DamageReceived(DamageDealt(damage, Some(attacker)), Some(victim)) == damage
  {
  }

  /** onEntityDamage: the damage of a player's attack is scaled when the attacker is a vampire. */
  method OnEntityDamage(event: DamageEvent, attacker: Option<PlayerView>)
    modifies event
    ensures event.byPlayer ==> event.damage == DamageDealt(old(event.damage), attacker)
    ensures !event.byPlayer ==> event.damage == old(event.damage)
  {
    if !event.byPlayer {
      return;
    }
    if attacker.Some? && attacker.value.isVampire {
      var damage := event.damage;
      var bloodLevel := attacker.value.blood;
      var multiplier := 1.0 + bloodLevel * 0.1;
      event.damage := damage * multiplier;
    }
  }

  /** onEntityDamageReceive: the damage a player takes is reduced when the player is a vampire. */
  method OnEntityDamageReceive(event: DamageEvent, victim: Option<PlayerView>)
    modifies event
    ensures event.byPlayer ==> event.damage == DamageReceived(old(event.damage), victim)
    ensures !event.byPlayer ==> event.damage == old(event.damage)
  {
    if !event.byPlayer {
      return;
    }
    if victim.Some? && victim.value.isVampire {
      var damage := event.damage;
      var resistance := 0.05 * victim.value.blood;
      if resistance > 0.5 {
        resistance := 0.5;
      }
      event.damage := damage * (1.0 - resistance);
    }
  }

  /** The weakness a low blood level brings. */
  const LOW_BLOOD_WEAKNESS := PotionEffect(WEAKNESS, 60, 1, false, false)

  /** The weakness a high infection brings. */
  const INFECTION_WEAKNESS := PotionEffect(WEAKNESS, 60, 0, false, false)

  /** The warning sent with the low-blood weakness. */
  const LOW_BLOOD_WARNING := "§cYou are low on blood!"

  /**
   * onVampirePlayerBloodChange: below the low-blood threshold the player
   * gets weakness and the warning; the result is the message sent, if any.
   */
  method OnBloodChange(player: HostPlayer?, blood: real, settings: ListenerSettings)
    returns (message: Option<string>)
    modifies if player == null then {} else {player}
    ensures player == null ==> message == None
    ensures player != null ==>
              (blood < settings.lowBloodThreshold <==> message == Some(LOW_BLOOD_WARNING))
              && player.effects == (if blood < settings.lowBloodThreshold
                                    then old(player.effects)[WEAKNESS := LOW_BLOOD_WEAKNESS]
                                    else old(player.effects))
    ensures player != null ==> message == None || message == Some(LOW_BLOOD_WARNING)
  {
    message := None;
    if player == null {
      return;
    }
    if blood < settings.lowBloodThreshold {
      player.effects := player.effects[WEAKNESS := LOW_BLOOD_WEAKNESS];
      message := Some(LOW_BLOOD_WARNING);
    }
  }

  /** onVampirePlayerInfectionChange: an infection above one half brings weakness. */
  method OnInfectionChange(player: HostPlayer?, infection: real)
    modifies if player == null then {} else {player}
    ensures player != null ==>
              player.effects == (if infection > 0.5 then old(player.effects)[WEAKNESS := INFECTION_WEAKNESS]
                                 else old(player.effects))
  {
    if player == null {
      return;
    }
    if infection > 0.5 {
      player.effects := player.effects[WEAKNESS := INFECTION_WEAKNESS];
    }
  }

  /** The permanent night vision of the given configured level. */
  function NightVision(level: int): PotionEffect
  {
    PotionEffect(NIGHT_VISION, INT_MAX, level - 1, true, false)
  }

  /** applyNightVisionMode: removes night vision when active, otherwise adds it. */
  function ToggledNightVision(effects: map<EffectType, PotionEffect>, level: int): (r: map<EffectType, PotionEffect>)
    ensures NIGHT_VISION in r <==> NIGHT_VISION !in effects
    ensures forall t :: t != NIGHT_VISION ==> (t in r <==> t in effects) && (t in r ==> r[t] == effects[t])
  {
    if NIGHT_VISION in effects then effects - {NIGHT_VISION} else effects[NIGHT_VISION := NightVision(level)]
  }

  /** Toggling twice from a state without night vision restores the effects exactly. */
  lemma {:induction false} ToggleTwice(effects: map<EffectType, PotionEffect>, level: int)
    requires NIGHT_VISION !in effects
    ensures ToggledNightVision(ToggledNightVision(effects, level), level) == effects
  {
    var once := ToggledNightVision(effects, level);
    assert NIGHT_VISION in once;
    var twice := ToggledNightVision(once, level);
    assert twice.Keys == effects.Keys;
  }

  /** applyVampireEffects: permanent night vision when the configuration enables it. */
  function WithVampireEffects(effects: map<EffectType, PotionEffect>, settings: ListenerSettings)
    : (r: map<EffectType, PotionEffect>)
    ensures settings.nightVisionEnabled ==> NIGHT_VISION in r && r[NIGHT_VISION] == NightVision(settings.nightVisionLevel)
    ensures !settings.nightVisionEnabled ==> r == effects
  {
    if settings.nightVisionEnabled then effects[NIGHT_VISION := NightVision(settings.nightVisionLevel)] else effects
  }

  /** onPlayerJoin: a player whose record says vampire gets the vampire effects. */
  method OnPlayerJoin(player: HostPlayer, record: Option<PlayerView>, settings: ListenerSettings)
    modifies player
    ensures player.effects == if record.Some? && record.value.isVampire
                              then WithVampireEffects(old(player.effects), settings) else old(player.effects)
  {
    if record.Some? && record.value.isVampire {
      player.effects := WithVampireEffects(player.effects, settings);
    }
  }

  /** The messages onVampirePlayerVampireChange sends. */
  const NOW_VAMPIRE := "§cYou are now a vampire!"
  const NO_LONGER_VAMPIRE := "§aYou are no longer a vampire."

  /**
   * onVampirePlayerVampireChange: a new vampire is told and gets the
   * vampire effects; a cured one is told and loses night vision.
   */
  method OnVampireChange(player: HostPlayer?, isVampire: bool, settings: ListenerSettings)
    returns (message: Option<string>)
    modifies if player == null then {} else {player}
    ensures player == null ==> message == None
    ensures player != null && isVampire ==>
              message == Some(NOW_VAMPIRE) && player.effects == WithVampireEffects(old(player.effects), settings)
    ensures player != null && !isVampire ==>
              message == Some(NO_LONGER_VAMPIRE) && player.effects == old(player.effects) - {NIGHT_VISION}
  {
    message := None;
    if player == null {
      return;
    }
    if isVampire {
      message := Some(NOW_VAMPIRE);
      player.effects := WithVampireEffects(player.effects, settings);
    } else {
      message := Some(NO_LONGER_VAMPIRE);
      player.effects := player.effects - {NIGHT_VISION};
    }
  }

  /** The strength and speed of bloodlust mode: the configured seconds in ticks, the boosts as amplifiers. */
  function WithBloodlustMode(effects: map<EffectType, PotionEffect>, settings: ListenerSettings)
    : (r: map<EffectType, PotionEffect>)
    ensures INCREASE_DAMAGE in r && SPEED in r
    ensures r[INCREASE_DAMAGE].duration == settings.bloodlustDuration * 20 == r[SPEED].duration
    ensures settings.bloodlustDamageBoost >= 1.0 ==> r[INCREASE_DAMAGE].amplifier >= 0
  {
    var duration := settings.bloodlustDuration * 20;
    effects[INCREASE_DAMAGE := PotionEffect(INCREASE_DAMAGE, duration, Config.TruncateToInt(settings.bloodlustDamageBoost - 1.0), true, true)]
           [SPEED := PotionEffect(SPEED, duration, Config.TruncateToInt(settings.bloodlustSpeedBoost - 1.0), true, true)]
  }

  /** onVampireMode: "bloodlust" and "nightvision" (in any case) apply their mode; any other mode changes nothing. */
  method OnVampireMode(player: HostPlayer?, mode: string, settings: ListenerSettings)
    modifies if player == null then {} else {player}
    ensures player != null && Lower(mode) == "bloodlust" ==>
              player.effects == WithBloodlustMode(old(player.effects), settings)
    ensures player != null && Lower(mode) == "nightvision" ==>
              player.effects == ToggledNightVision(old(player.effects), settings.nightVisionLevel)
    ensures player != null && Lower(mode) != "bloodlust" && Lower(mode) != "nightvision" ==>
              player.effects == old(player.effects)
  {
    if player == null {
      return;
    }
    var lowered := Lower(mode);
    if lowered == "bloodlust" {
      player.effects := WithBloodlustMode(player.effects, settings);
    } else if lowered == "nightvision" {
      player.effects := ToggledNightVision(player.effects, settings.nightVisionLevel);
    }
  }

  /** The shriek reaches players within ten blocks. */
  predicate WithinShriek(at: Location, other: Location)
  {
    var dx := other.x - at.x;
    var dy := other.y - at.y;
    var dz := other.z - at.z;
    dx * dx + dy * dy + dz * dz <= 100.0
  }

  /**
   * The blindness and slowness a shriek inflicts, both built with the
   * three-argument constructor: not ambient, with particles.
   */
  function Shrieked(effects: map<EffectType, PotionEffect>): (r: map<EffectType, PotionEffect>)
    ensures BLINDNESS in r && r[BLINDNESS] == PotionEffect(BLINDNESS, 60, 0, false, true)
    ensures SLOW in r && r[SLOW] == PotionEffect(SLOW, 100, 1, false, true)
    ensures forall t :: t != BLINDNESS && t != SLOW ==> (t in r <==> t in effects) && (t in r ==> r[t] == effects[t])
  {
    effects[BLINDNESS := BasicEffect(BLINDNESS, 60, 0)][SLOW := BasicEffect(SLOW, 100, 1)]
  }

  /** Being shrieked at twice is the same as once. */
  lemma ShriekedIdempotent(effects: map<EffectType, PotionEffect>)
    ensures Shrieked(Shrieked(effects)) == Shrieked(effects)
  {
    assert Shrieked(Shrieked(effects)).Keys == Shrieked(effects).Keys;
  }

  /**
   * onVampireShriek: every player of the world within ten blocks of the
   * shrieker, the shrieker included, is blinded and slowed; the others are
   * untouched.
   */
  method OnVampireShriek(shrieker: HostPlayer?, world: seq<HostPlayer>)
    modifies set p | p in world
    ensures shrieker != null ==> forall p :: p in world ==>
              p.effects == if WithinShriek(shrieker.location, p.location) then Shrieked(old(p.effects)) else old(p.effects)
    ensures shrieker == null ==> forall p :: p in world ==> p.effects == old(p.effects)
    ensures forall p :: p in world ==> p.location == old(p.location)
  {
    if shrieker == null {
      return;
    }
    var at := shrieker.location;
    for i := 0 to |world|
      invariant shrieker.location == at
      invariant forall p :: p in world ==> p.location == old(p.location)
      invariant forall p :: p in world[..i] ==>
                  p.effects == if WithinShriek(at, p.location) then Shrieked(old(p.effects)) else old(p.effects)
      invariant forall p :: p in world && p !in world[..i] ==> p.effects == old(p.effects)
    {
      var nearby := world[i];
      if WithinShriek(at, nearby.location) {
        ShriekedIdempotent(old(nearby.effects));
        nearby.effects := Shrieked(nearby.effects);
      }
      assert world[..i + 1] == world[..i] + [nearby];
    }
    assert world[..|world|] == world;
  }

  /** The shrieker is always within its own shriek. */
  lemma ShriekerIsShrieked(at: Location)
    ensures WithinShriek(at, at)
  {
  }
}

=== FILE: vampire_player.dfy ===
/**
 * The per-player condition record: vampire flag, infection, the two blood
 * fields, cooldowns, truce countdown and the pending blood trade.
 */
module Entity {
  import opened Wrappers
  import opened Numbers
  import opened Host

  /** Upper bound of the clamped blood field. */
  const MAX_BLOOD: real := 10.0

  /** A value snapshot of every modelled field of a VampirePlayer. */
  datatype PlayerView = PlayerView(
    uuid: Uuid,
    name: string,
    isVampire: bool,
    infectionLevel: real,
    infectionReason: Option<string>,
    infectionTime: int,
    blood: real,
    lastShriekTime: int,
    lastBloodTradeTime: int,
    lastBloodTradePartner: Option<Uuid>,
    lastBloodTradeAmount: real,
    lastBloodTradeType: Option<string>,
    makerId: Option<Uuid>,
    intending: bool,
    bloodlusting: bool,
    usingNightVision: bool,
    temperature: real,
    radiation: real,
    truceBreakTimeLeft: int,
    tradeOfferedFrom: VampirePlayer?,
    tradeOfferedAmount: real,
    tradeOfferedAtTime: int,
    bloodLevel: real,
    lastBloodRegen: int,
    lastInfectionUpdate: int,
    lastInfectionReason: Option<string>)

  /** The state a new VampirePlayer(uuid, name) starts in, created at clock time now. */
  function Defaults(id: Uuid, nm: string, now: int): PlayerView
  {
    PlayerView(id, nm, false, 0.0, None, 0, 0.0, 0, 0, None, 0.0, None, None,
               false, false, false, 0.0, 0.0, 0, null, 0.0, 0, 0.0, now, now, None)
  }

  /** isInfected(): an infection level strictly above zero. */
  predicate Infected(v: PlayerView) { v.infectionLevel > 0.0 }

  /** isHuman(): neither a vampire nor infected. */
  predicate Human(v: PlayerView) { !v.isVampire && !Infected(v) }

  /** What shriek() did: nothing (offline), a wait message with the seconds left, or the shriek. */
  datatype ShriekOutcome = ShriekOffline | ShriekWait(seconds: int) | Shrieked

  /** Which branch of offerTrade() was taken. */
  datatype OfferOutcome = OfferOffline | OfferTooFar | OfferInsufficient | Offered

  /** Which branch of acceptTrade() was taken. */
  datatype AcceptOutcome =
    | NoOffer | OfferExpired | AcceptOffline | AcceptTooFar | AcceptInsufficient | Accepted

  /** The blood levels of sender and receiver after a completed trade of amount. */
  function TradedBlood(senderBlood: real, receiverBlood: real, amount: real): (r: (real, real))
    ensures 0.0 <= r.0 <= MAX_BLOOD && 0.0 <= r.1 <= MAX_BLOOD
  {
    (Clamp(senderBlood - amount, 0.0, MAX_BLOOD), Clamp(receiverBlood + amount, 0.0, MAX_BLOOD))
  }

  /**
   * A completed trade never creates blood: the two levels together do not
   * grow, the sender loses exactly the amount, and the total is kept
   * whenever the receiver does not hit the cap.
   */
  lemma TradeConservesBlood(senderBlood: real, receiverBlood: real, amount: real)
    requires 0.0 <= amount <= senderBlood <= MAX_BLOOD
    requires 0.0 <= receiverBlood <= MAX_BLOOD
    ensures TradedBlood(senderBlood, receiverBlood, amount).0 == senderBlood - amount
    ensures TradedBlood(senderBlood, receiverBlood, amount).0 + TradedBlood(senderBlood, receiverBlood, amount).1
            <= senderBlood + receiverBlood
    ensures receiverBlood + amount <= MAX_BLOOD ==>
            TradedBlood(senderBlood, receiverBlood, amount).0 + TradedBlood(senderBlood, receiverBlood, amount).1
            == senderBlood + receiverBlood
  {
  }

  class VampirePlayer {
    const uuid: Uuid
    const name: string
    var isVampire: bool
    var infectionLevel: real
    var infectionReason: Option<string>
    var infectionTime: int
    var blood: real
    var lastShriekTime: int
    var lastBloodTradeTime: int
    var lastBloodTradePartner: Option<Uuid>
    var lastBloodTradeAmount: real
    var lastBloodTradeType: Option<string>
    var makerId: Option<Uuid>
    var intending: bool
    var bloodlusting: bool
    var usingNightVision: bool
    var temperature: real
    var radiation: real
    var truceBreakTimeLeft: int
    var tradeOfferedFrom: VampirePlayer?
    var tradeOfferedAmount: real
    var tradeOfferedAtTime: int
    var bloodLevel: real
    var lastBloodRegen: int
    var lastInfectionUpdate: int
    var lastInfectionReason: Option<string>

    /** The bounds the clamping setters keep. */
    ghost predicate Valid()
      reads this
    {
      0.0 <= blood <= MAX_BLOOD && 0.0 <= temperature <= 1.0 && 0.0 <= radiation <= 1.0
    }

    function View(): PlayerView
      reads this
    {
      PlayerView(uuid, name, isVampire, infectionLevel, infectionReason, infectionTime, blood,
                 lastShriekTime, lastBloodTradeTime, lastBloodTradePartner, lastBloodTradeAmount,
                 lastBloodTradeType, makerId, intending, bloodlusting, usingNightVision,
                 temperature, radiation, truceBreakTimeLeft, tradeOfferedFrom, tradeOfferedAmount,
                 tradeOfferedAtTime, bloodLevel, lastBloodRegen, lastInfectionUpdate, lastInfectionReason)
    }

    /** new VampirePlayer(uuid, name) at clock time now. */
    constructor (id: Uuid, nm: string, now: int)
      ensures Valid() && View() == Defaults(id, nm, now)
    {
      uuid, name := id, nm;
      isVampire, infectionLevel, infectionReason, infectionTime := false, 0.0, None, 0;
      blood, lastShriekTime, lastBloodTradeTime := 0.0, 0, 0;
      lastBloodTradePartner, lastBloodTradeAmount, lastBloodTradeType := None, 0.0, None;
      makerId, intending, bloodlusting, usingNightVision := None, false, false, false;
      temperature, radiation, truceBreakTimeLeft := 0.0, 0.0, 0;
      tradeOfferedFrom, tradeOfferedAmount, tradeOfferedAtTime := null, 0.0, 0;
      bloodLevel, lastBloodRegen, lastInfectionUpdate, lastInfectionReason := 0.0, now, now, None;
    }

    predicate IsInfected()
      reads this
      ensures IsInfected() <==> Infected(View())
    {
      infectionLevel > 0.0
    }

    predicate IsHuman()
      reads this
      ensures IsHuman() <==> Human(View())
    {
      !isVampire && !IsInfected()
    }

    /** setVampire: only the flag changes; infection is left as it is. */
    method SetVampire(vampire: bool)
      requires Valid()
      modifies this
      ensures Valid()
      ensures View() == old(View()).(isVampire := vampire)
    {
      if isVampire != vampire {
        isVampire := vampire;
      }
    }

    /** setInfectionLevel: the only infection setter that clamps to [0, 1]. */
    method SetInfectionLevel(infection: real)
      requires Valid()
      modifies this
      ensures Valid()
      ensures 0.0 <= infectionLevel <= 1.0
      ensures View() == old(View()).(infectionLevel := Clamp(infection, 0.0, 1.0))
    {
      infectionLevel := MaxR(0.0, MinR(1.0, infection));
    }

    /** setBlood: clamps to [0, 10]. */
    method SetBlood(b: real)
      requires Valid()
      modifies this
      ensures Valid()
      ensures 0.0 <= blood <= MAX_BLOOD
      ensures View() == old(View()).(blood := Clamp(b, 0.0, MAX_BLOOD))
    {
      blood := MaxR(0.0, MinR(MAX_BLOOD, b));
    }

    /** setInfectionReason: a plain setter. */
    method SetInfectionReason(reason: Option<string>)
      requires Valid()
      modifies this
      ensures Valid()
      ensures View() == old(View()).(infectionReason := reason)
    {
      infectionReason := reason;
    }

    /** setInfectionTime: a plain setter. */
    method SetInfectionTime(time: int)
      requires Valid()
      modifies this
      ensures Valid()
      ensures View() == old(View()).(infectionTime := time)
    {
      infectionTime := time;
    }

    /** setLastShriekTime: a plain setter. */
    method SetLastShriekTime(time: int)
      requires Valid()
      modifies this
      ensures Valid()
      ensures View() == old(View()).(lastShriekTime := time)
    {
      lastShriekTime := time;
    }

    /** setLastBloodTradeTime: a plain setter. */
    method SetLastBloodTradeTime(time: int)
      requires Valid()
      modifies this
      ensures Valid()
      ensures View() == old(View()).(lastBloodTradeTime := time)
    {
      lastBloodTradeTime := time;
    }

    /** setLastBloodTradePartner: a plain setter. */
    method SetLastBloodTradePartner(partner: Option<Uuid>)
      requires Valid()
      modifies this
      ensures Valid()
      ensures View() == old(View()).(lastBloodTradePartner := partner)
    {
      lastBloodTradePartner := partner;
    }

    /** setLastBloodTradeAmount: a plain setter. */
    method SetLastBloodTradeAmount(amount: real)
      requires Valid()
      modifies this
      ensures Valid()
      ensures View() == old(View()).(lastBloodTradeAmount := amount)
    {
      lastBloodTradeAmount := amount;
    }

    /** setLastBloodTradeType: a plain setter. */
    method SetLastBloodTradeType(kind: Option<string>)
      requires Valid()
      modifies this
      ensures Valid()
      ensures View() == old(View()).(lastBloodTradeType := kind)
    {
      lastBloodTradeType := kind;
    }

    method SetTemperature(t: real)
      requires Valid()
      modifies this
      ensures Valid()
      ensures 0.0 <= temperature <= 1.0
      ensures View() == old(View()).(temperature := Clamp(t, 0.0, 1.0))
    {
      temperature := MaxR(0.0, MinR(1.0, t));
    }

    method SetRadiation(r: real)
      requires Valid()
      modifies this
      ensures Valid()
      ensures 0.0 <= radiation <= 1.0
      ensures View() == old(View()).(radiation := Clamp(r, 0.0, 1.0))
    {
      radiation := MaxR(0.0, MinR(1.0, r));
    }

    /** setInfection: stores the raw value, with no clamping. */
    method SetInfection(infection: real)
      requires Valid()
      modifies this
      ensures Valid()
      ensures View() == old(View()).(infectionLevel := infection)
    {
      infectionLevel := infection;
    }

    /** setBloodLevel: stores the raw value of the second blood field. */
    method SetBloodLevel(level: real)
      requires Valid()
      modifies this
      ensures Valid()
      ensures View() == old(View()).(bloodLevel := level)
    {
      bloodLevel := level;
    }

    /** addInfection: adds without clamping and records the reason and clock time. */
    method AddInfection(amount: real, reason: Option<string>, now: int)
      requires Valid()
      modifies this
      ensures Valid()
      ensures View() == old(View()).(infectionLevel := old(infectionLevel) + amount,
                                     lastInfectionUpdate := now, lastInfectionReason := reason)
    {
      infectionLevel := infectionLevel + amount;
      lastInfectionUpdate := now;
      lastInfectionReason := reason;
    }

    /** useBlood: spends from bloodLevel only when enough is there. */
    method UseBlood(amount: real) returns (ok: bool)
      requires Valid()
      modifies this
      ensures Valid()
      ensures ok <==> old(bloodLevel) >= amount
      ensures ok ==> View() == old(View()).(bloodLevel := old(bloodLevel) - amount)
      ensures !ok ==> View() == old(View())
    {
      if bloodLevel >= amount {
        bloodLevel := bloodLevel - amount;
        return true;
      }
      return false;
    }

    /** addBlood: adds to bloodLevel without clamping and stamps the regeneration time. */
    method AddBlood(amount: real, now: int)
      requires Valid()
      modifies this
      ensures Valid()
      ensures View() == old(View()).(bloodLevel := old(bloodLevel) + amount, lastBloodRegen := now)
    {
      bloodLevel := bloodLevel + amount;
      lastBloodRegen := now;
    }

    /**
     * shriek: rate-limited by the configured cooldown (milliseconds). While
     * the cooldown runs, the wait message carries the whole seconds left.
     */
    method Shriek(online: bool, now: int, cooldown: int) returns (outcome: ShriekOutcome)
      requires Valid()
      modifies this
      ensures Valid()
      ensures !online ==> outcome == ShriekOffline && View() == old(View())
      ensures online && now - old(lastShriekTime) < cooldown ==>
                outcome == ShriekWait((cooldown - (now - old(lastShriekTime))) / 1000)
                && outcome.seconds >= 0 && View() == old(View())
      ensures online && now - old(lastShriekTime) >= cooldown ==>
                outcome == Shrieked && View() == old(View()).(lastShriekTime := now)
    {
      if !online {
        return ShriekOffline;
      }
      if now - lastShriekTime < cooldown {
        return ShriekWait((cooldown - (now - lastShriekTime)) / 1000);
      }
      lastShriekTime := now;
      return Shrieked;
    }

    /**
     * updateTruce: counts a running truce break down by millis, never below
     * zero; restored reports that the countdown has just reached zero.
     */
    method UpdateTruce(millis: int) returns (restored: bool)
      requires Valid()
      modifies this
      ensures Valid()
      ensures old(truceBreakTimeLeft) <= 0 ==> View() == old(View()) && !restored
      ensures old(truceBreakTimeLeft) > 0 ==>
                View() == old(View()).(truceBreakTimeLeft := MaxI(0, old(truceBreakTimeLeft) - millis))
      ensures restored <==> old(truceBreakTimeLeft) > 0 && truceBreakTimeLeft == 0
      ensures old(truceBreakTimeLeft) > 0 ==> truceBreakTimeLeft >= 0
      ensures millis >= 0 ==> truceBreakTimeLeft <= old(truceBreakTimeLeft)
    {
      restored := false;
      if truceBreakTimeLeft > 0 {
        truceBreakTimeLeft := MaxI(0, truceBreakTimeLeft - millis);
        restored := truceBreakTimeLeft == 0;
      }
    }

    predicate IsTruceBroken()
      reads this
      ensures IsTruceBroken() <==> truceBreakTimeLeft > 0
    {
      truceBreakTimeLeft > 0
    }

    /** truceBreak: an online player's truce is broken for breakTime milliseconds. */
    method TruceBreak(online: bool, breakTime: int)
      requires Valid()
      modifies this
      ensures Valid()
      ensures online ==> View() == old(View()).(truceBreakTimeLeft := breakTime)
      ensures !online ==> View() == old(View())
    {
      if online {
        truceBreakTimeLeft := breakTime;
      }
    }

    /** getCombatDamageFactor: the configured factor for the bloodlust state. */
    function CombatDamageFactor(withBloodlust: real, withoutBloodlust: real): (r: real)
      reads this
      ensures bloodlusting ==> r == withBloodlust
      ensures !bloodlusting ==> r == withoutBloodlust
    {
      if bloodlusting then withBloodlust else withoutBloodlust
    }

    /** getCombatInfectRisk: the configured risk for the intent state. */
    function CombatInfectRisk(withIntent: real, withoutIntent: real): (r: real)
      reads this
      ensures intending ==> r == withIntent
      ensures !intending ==> r == withoutIntent
    {
      if intending then withIntent else withoutIntent
    }

    /**
     * isWithinDistanceOf: false when either player is offline, else whether
     * the distance between them is at most maxDistance.
     */
    function WithinDistanceOf(other: VampirePlayer, online: bool, otherOnline: bool,
                              distance: real, maxDistance: real): (r: bool)
      ensures r <==> online && otherOnline && distance <= maxDistance
    {
      if !online || !otherOnline then false else distance <= maxDistance
    }

    /**
     * offerTrade: posts an offer of amount on the target when both are online,
     * within maxDistance and this player holds at least amount blood. The
     * offer replaces any pending one; no blood moves yet.
     */
    method OfferTrade(target: VampirePlayer, amount: real, online: bool, targetOnline: bool,
                      distance: real, maxDistance: real, now: int) returns (outcome: OfferOutcome)
      requires target.Valid()
      modifies target
      ensures target.Valid()
      ensures outcome == (if !online || !targetOnline then OfferOffline
                          else if distance > maxDistance then OfferTooFar
                          else if old(blood) < amount then OfferInsufficient
                          else Offered)
      ensures outcome == Offered ==>
                target.View() == old(target.View()).(tradeOfferedFrom := this,
                                                     tradeOfferedAmount := amount,
                                                     tradeOfferedAtTime := now)
      ensures outcome != Offered ==> target.View() == old(target.View())
      ensures blood == old(blood)
    {
      if !online || !targetOnline {
        return OfferOffline;
      }
      if distance > maxDistance {
        return OfferTooFar;
      }
      if blood < amount {
        return OfferInsufficient;
      }
      target.tradeOfferedFrom := this;
      target.tradeOfferedAmount := amount;
      target.tradeOfferedAtTime := now;
      return Offered;
    }

    /**
     * acceptTrade: settles the pending offer. Expiry is checked first and
     * clears the offer; the offline, distance and sufficiency failures keep
     * it. A completed trade moves the amount through the clamping setter of
     * each side, sender first, and clears the offer (amount and time stay).
     */
    method AcceptTrade(online: bool, senderOnline: bool, distance: real, maxDistance: real,
                       tolerance: int, now: int) returns (outcome: AcceptOutcome)
      requires Valid() && (tradeOfferedFrom != null ==> tradeOfferedFrom.Valid())
      modifies this, tradeOfferedFrom
      ensures Valid() && (old(tradeOfferedFrom) != null ==> old(tradeOfferedFrom).Valid())
      ensures old(tradeOfferedFrom) == null ==> outcome == NoOffer && View() == old(View())
      ensures old(tradeOfferedFrom) != null ==>
                outcome == (if now - old(tradeOfferedAtTime) > tolerance then OfferExpired
                            else if !online || !senderOnline then AcceptOffline
                            else if distance > maxDistance then AcceptTooFar
                            else if old(tradeOfferedFrom.blood) < old(tradeOfferedAmount) then AcceptInsufficient
                            else Accepted)
      ensures outcome == OfferExpired ==> View() == old(View()).(tradeOfferedFrom := null)
      ensures outcome in {AcceptOffline, AcceptTooFar, AcceptInsufficient} ==> View() == old(View())
      ensures outcome != Accepted && old(tradeOfferedFrom) != null && old(tradeOfferedFrom) != this ==>
                old(tradeOfferedFrom).View() == old(tradeOfferedFrom.View())
      ensures outcome == Accepted && old(tradeOfferedFrom) != this ==>
                old(tradeOfferedFrom).View() ==
                  old(tradeOfferedFrom.View()).(blood := TradedBlood(old(tradeOfferedFrom.blood), old(blood), old(tradeOfferedAmount)).0)
                && View() ==
                  old(View()).(blood := TradedBlood(old(tradeOfferedFrom.blood), old(blood), old(tradeOfferedAmount)).1,
                               tradeOfferedFrom := null)
      ensures outcome == Accepted && old(tradeOfferedFrom) == this ==>
                View() == old(View()).(blood := Clamp(Clamp(old(blood) - old(tradeOfferedAmount), 0.0, MAX_BLOOD)
                                                      + old(tradeOfferedAmount), 0.0, MAX_BLOOD),
                                       tradeOfferedFrom := null)
    {
      if tradeOfferedFrom == null {
        return NoOffer;
      }
      if now - tradeOfferedAtTime > tolerance {
        tradeOfferedFrom := null;
        return OfferExpired;
      }
      if !online || !senderOnline {
        return AcceptOffline;
      }
      if distance > maxDistance {
        return AcceptTooFar;
      }
      var sender := tradeOfferedFrom;
      if sender.blood < tradeOfferedAmount {
        return AcceptInsufficient;
      }
      SettleTrade(sender);
      return Accepted;
    }

    /**
     * The transfer of a completed trade: the sender's setter first, then
     * this player's, then the offer is cleared. When the sender is this
     * player both setters act on the same blood.
     */
    method SettleTrade(sender: VampirePlayer)
      requires Valid() && sender.Valid()
      modifies this, sender
      ensures Valid() && sender.Valid()
      ensures sender != this ==>
                sender.View() == old(sender.View()).(blood := TradedBlood(old(sender.blood), old(blood), old(tradeOfferedAmount)).0)
                && View() == old(View()).(blood := TradedBlood(old(sender.blood), old(blood), old(tradeOfferedAmount)).1,
                                          tradeOfferedFrom := null)
      ensures sender == this ==>
                View() == old(View()).(blood := Clamp(Clamp(old(blood) - old(tradeOfferedAmount), 0.0, MAX_BLOOD)
                                                      + old(tradeOfferedAmount), 0.0, MAX_BLOOD),
                                       tradeOfferedFrom := null)
    {
      if sender == this {
        SetBlood(blood - tradeOfferedAmount);
        SetBlood(blood + tradeOfferedAmount);
      } else {
        sender.SetBlood(sender.blood - tradeOfferedAmount);
        SetBlood(blood + tradeOfferedAmount);
      }
      tradeOfferedFrom := null;
    }
  }
}

=== FILE: vampire_task.dfy ===
/**
 * The periodic tick: for every online player one update applies, in this
 * order, blood decay, the bloodlust threshold machine, the night-vision
 * switch, infection progression with conversion, and sunlight damage.
 */
module Task {
  import opened Wrappers
  import opened Numbers
  import opened Entity

  /** The configuration values the tick reads. */
  datatype TaskSettings = TaskSettings(
    bloodDecreaseRate: real,
    lowBloodThreshold: real,
    bloodlustThreshold: real,
    bloodlustBloodDecrease: real,
    infectionRate: real,
    sunlightDamage: real)

  /** What the server reports about an online player during one tick. */
  datatype Surroundings = Surroundings(
    valid: bool,
    creative: bool,
    bypass: bool,
    worldTime: int,
    skyLight: int,
    inWater: bool,
    helmet: bool)

  /** The night test exactly as the tick writes it. */
  predicate IsNight(time: int) { time >= 13000 || time <= 23000 }

  /** The night test holds at every world time, noon included. */
  lemma NightTestAlwaysHolds(time: int)
    ensures IsNight(time)
  {
  }

  /** Share of the configured sunlight damage: water halves it, a helmet takes 30% off. */
  function SunlightFactor(inWater: bool, helmet: bool): (r: real)
    ensures inWater ==> r == 0.5
    ensures !inWater && helmet ==> r == 0.7
    ensures !inWater && !helmet ==> r == 1.0
  {
    if inWater then 0.5 else if helmet then 0.7 else 1.0
  }

  /** updateBlood: a vampire's blood decays by bloodDecreaseRate per second. */
  function BloodStep(v: PlayerView, dt: real, s: TaskSettings): PlayerView
  {
    if !v.isVampire then v
    else v.(blood := Clamp(MaxR(0.0, v.blood - s.bloodDecreaseRate * dt), 0.0, MAX_BLOOD))
  }

  /**
   * updateBloodlust: a vampire below the threshold enters bloodlust; while
   * bloodlusting blood drains and the state ends once blood is back at or
   * above the threshold.
   */
  function BloodlustStep(v: PlayerView, dt: real, s: TaskSettings): PlayerView
  {
    if !v.isVampire then v
    else
      var entered := if !v.bloodlusting && v.blood < s.bloodlustThreshold then v.(bloodlusting := true) else v;
      if !entered.bloodlusting then entered
      else
        var drained := Clamp(MaxR(0.0, entered.blood - s.bloodlustBloodDecrease * dt), 0.0, MAX_BLOOD);
        entered.(blood := drained, bloodlusting := !(drained >= s.bloodlustThreshold))
  }

  /** updateNightVision: switched on at night, off by day. */
  function NightVisionStep(v: PlayerView, time: int): PlayerView
  {
    if !v.isVampire then v
    else
      var on := if !v.usingNightVision && IsNight(time) then true else v.usingNightVision;
      v.(usingNightVision := if on && !IsNight(time) then false else on)
  }

  /**
   * updateInfection: an infected human's infection grows by infectionRate
   * per second up to 1; at 1 the player becomes a vampire with infection 0.
   */
  function InfectionStep(v: PlayerView, dt: real, s: TaskSettings): PlayerView
  {
    if v.isVampire || !Infected(v) then v
    else
      var level := Clamp(MinR(1.0, v.infectionLevel + s.infectionRate * dt), 0.0, 1.0);
      if level >= 1.0 then v.(isVampire := true, infectionLevel := 0.0)
      else v.(infectionLevel := level)
  }

  /** One whole update of a player that is online, valid, not creative and not exempt. */
  function Tick(v: PlayerView, dt: real, s: TaskSettings, time: int): PlayerView
  {
    InfectionStep(NightVisionStep(BloodlustStep(BloodStep(v, dt, s), dt, s), time), dt, s)
  }

  /** The sunlight damage of updateEnvironmentalDamage and whether the player is set on fire. */
  function SunDamage(v: PlayerView, dt: real, s: TaskSettings, at: Surroundings): Option<(real, bool)>
  {
    if !v.isVampire then None
    else if !IsNight(at.worldTime) && at.skyLight > 10 then
      Some((s.sunlightDamage * SunlightFactor(at.inWater, at.helmet) * dt, !at.inWater && !at.helmet))
    else None
  }

  /** Because the night test always holds, the tick never deals sunlight damage. */
  lemma NoSunDamageEver(v: PlayerView, dt: real, s: TaskSettings, at: Surroundings)
    ensures SunDamage(v, dt, s, at) == None
  {
  }

  /** The effects of one update that lie outside the player record. */
  datatype TickReport = TickReport(
    lowBlood: bool,
    weakened: bool,
    converted: bool,
    sun: Option<(real, bool)>,
    saved: bool)

  class VampireTask {
    var lastRun: int

    constructor ()
      ensures lastRun == 0
    {
      lastRun := 0;
    }

    /**
     * run: the elapsed milliseconds since the previous run become the delta
     * that every online player's update receives, and lastRun moves to now.
     * The updates themselves run later, one UpdatePlayer call per player
     * whose data loaded.
     */
    method Run(now: int) returns (delta: int)
      modifies this
      ensures delta == now - old(lastRun) && lastRun == now
    {
      delta := now - lastRun;
      lastRun := now;
    }

    /**
     * updatePlayer: skipped for an offline or invalid player, in creative
     * mode or with the bypass permission; otherwise the five steps run in
     * order with the delta in seconds, and the data is saved when the clock
     * has just passed a whole minute.
     */
    method UpdatePlayer(p: VampirePlayer, delta: int, around: Option<Surroundings>, s: TaskSettings, clock: nat)
      returns (report: TickReport)
      requires p.Valid()
      modifies p
      ensures p.Valid()
      ensures p.View() == Updated(old(p.View()), delta, around, s)
      ensures Skipped(around) ==> report == TickReport(false, false, false, None, false)
      ensures !Skipped(around) ==> report.saved == (clock % 60000 < delta)
      ensures !Skipped(around) ==> report.sun == None
      ensures !Skipped(around) ==>
                (report.lowBlood <==> old(p.isVampire)
                                      && BloodStep(old(p.View()), delta as real / 1000.0, s).blood < s.lowBloodThreshold)
      ensures !Skipped(around) ==> (report.converted <==> !old(p.isVampire) && p.isVampire)
      ensures !Skipped(around) ==>
                (report.weakened <==> !old(p.isVampire) && old(p.infectionLevel) > 0.0
                                      && (p.isVampire || p.infectionLevel > 0.5))
    {
      if around.None? || !around.value.valid {
        return TickReport(false, false, false, None, false);
      }
      var at := around.value;
      if at.creative || at.bypass {
        return TickReport(false, false, false, None, false);
      }
      var dt := delta as real / 1000.0;
      ghost var v0 := p.View();
      var lowBlood := UpdateBlood(p, dt, s);
      UpdateBloodlust(p, dt, s);
      UpdateNightVision(p, at.worldTime);
      assert p.isVampire == v0.isVampire && p.infectionLevel == v0.infectionLevel;
      var weakened, converted := UpdateInfection(p, dt, s);
      var sun := UpdateEnvironmentalDamage(p, dt, s, at);
      NoSunDamageEver(p.View(), dt, s, at);
      report := TickReport(lowBlood, weakened, converted, sun, clock % 60000 < delta);
    }

    /** updateBlood; lowBlood is the weakness-and-warning branch. */
    method UpdateBlood(p: VampirePlayer, dt: real, s: TaskSettings) returns (lowBlood: bool)
      requires p.Valid()
      modifies p
      ensures p.Valid()
      ensures p.View() == BloodStep(old(p.View()), dt, s)
      ensures lowBlood <==> p.isVampire && p.blood < s.lowBloodThreshold
    {
      if !p.isVampire {
        return false;
      }
      var decrease := s.bloodDecreaseRate * dt;
      p.SetBlood(MaxR(0.0, p.blood - decrease));
      lowBlood := p.blood < s.lowBloodThreshold;
    }

    method UpdateBloodlust(p: VampirePlayer, dt: real, s: TaskSettings)
      requires p.Valid()
      modifies p
      ensures p.Valid()
      ensures p.View() == BloodlustStep(old(p.View()), dt, s)
    {
      if !p.isVampire {
        return;
      }
      if !p.bloodlusting && p.blood < s.bloodlustThreshold {
        p.bloodlusting := true;
      }
      if p.bloodlusting {
        var decrease := s.bloodlustBloodDecrease * dt;
        p.SetBlood(MaxR(0.0, p.blood - decrease));
        if p.blood >= s.bloodlustThreshold {
          p.bloodlusting := false;
        }
      }
    }

    method UpdateNightVision(p: VampirePlayer, time: int)
      requires p.Valid()
      modifies p
      ensures p.Valid()
      ensures p.View() == NightVisionStep(old(p.View()), time)
    {
      if !p.isVampire {
        return;
      }
      var isNight := time >= 13000 || time <= 23000;
      if !p.usingNightVision && isNight {
        p.usingNightVision := true;
      }
      // The switch-off for daytime; the night test above never lets it fire.
      var switchOff := p.usingNightVision && !isNight;
      p.usingNightVision := if switchOff then false else p.usingNightVision;
    }

    /** updateInfection; weakened is the weakness branch above 0.5, converted the turn into a vampire. */
    method UpdateInfection(p: VampirePlayer, dt: real, s: TaskSettings) returns (weakened: bool, converted: bool)
      requires p.Valid()
      modifies p
      ensures p.Valid()
      ensures p.View() == InfectionStep(old(p.View()), dt, s)
      ensures converted <==> !old(p.isVampire) && p.isVampire
      ensures weakened <==> !old(p.isVampire) && old(p.infectionLevel) > 0.0 && (p.isVampire || p.infectionLevel > 0.5)
    {
      if p.isVampire || !p.IsInfected() {
        return false, false;
      }
      var increase := s.infectionRate * dt;
      p.SetInfectionLevel(MinR(1.0, p.infectionLevel + increase));
      weakened := p.infectionLevel > 0.5;
      converted := false;
      if p.infectionLevel >= 1.0 {
        p.SetVampire(true);
        p.SetInfectionLevel(0.0);
        converted := true;
      }
    }

    method UpdateEnvironmentalDamage(p: VampirePlayer, dt: real, s: TaskSettings, at: Surroundings)
      returns (sun: Option<(real, bool)>)
      ensures sun == SunDamage(p.View(), dt, s, at)
    {
      if !p.isVampire {
        return None;
      }
      var isNight := at.worldTime >= 13000 || at.worldTime <= 23000;
      if !isNight && at.skyLight > 10 {
        var factor := SunlightFactor(at.inWater, at.helmet);
        sun := Some((s.sunlightDamage * factor * dt, !at.inWater && !at.helmet));
      } else {
        sun := None;
      }
    }
  }

  /** The guard of updatePlayer. */
  predicate Skipped(around: Option<Surroundings>)
  {
    around.None? || !around.value.valid || around.value.creative || around.value.bypass
  }

  /** The player record after updatePlayer with a delta in milliseconds. */
  function Updated(v: PlayerView, delta: int, around: Option<Surroundings>, s: TaskSettings): PlayerView
  {
    if Skipped(around) then v else Tick(v, delta as real / 1000.0, s, around.value.worldTime)
  }

  /** A tick keeps the clamped blood field in [0, 10]. */
  lemma TickKeepsBloodInRange(v: PlayerView, dt: real, s: TaskSettings, time: int)
    requires 0.0 <= v.blood <= MAX_BLOOD
    ensures 0.0 <= Tick(v, dt, s, time).blood <= MAX_BLOOD
  {
    var b := BloodStep(v, dt, s);
    assert 0.0 <= b.blood <= MAX_BLOOD;
    var l := BloodlustStep(b, dt, s);
    assert 0.0 <= l.blood <= MAX_BLOOD;
    var n := NightVisionStep(l, time);
    assert n.blood == l.blood;
    assert InfectionStep(n, dt, s).blood == n.blood;
  }

  /** Blood decay touches vampires only and never takes blood below zero. */
  lemma BloodDecay(v: PlayerView, dt: real, s: TaskSettings)
    requires 0.0 <= v.blood <= MAX_BLOOD && s.bloodDecreaseRate * dt >= 0.0
    ensures !v.isVampire ==> BloodStep(v, dt, s) == v
    ensures v.isVampire ==> BloodStep(v, dt, s) == v.(blood := MaxR(0.0, v.blood - s.bloodDecreaseRate * dt))
  {
  }

  /** A vampire that is not bloodlusting enters bloodlust exactly when its blood is below the threshold. */
  lemma BloodlustEntry(v: PlayerView, dt: real, s: TaskSettings)
    requires v.isVampire && !v.bloodlusting
    requires 0.0 <= v.blood <= MAX_BLOOD && s.bloodlustBloodDecrease * dt >= 0.0
    ensures BloodlustStep(v, dt, s).bloodlusting <==> v.blood < s.bloodlustThreshold
  {
  }

  /**
   * While bloodlusting, a vampire's blood never rises: it falls by the
   * drain, or to zero when the drain is larger, and bloodlust is still on
   * exactly when that blood is below the threshold.
   */
  lemma BloodlustExit(v: PlayerView, dt: real, s: TaskSettings)
    requires v.isVampire && v.bloodlusting
    requires 0.0 <= v.blood <= MAX_BLOOD && s.bloodlustBloodDecrease * dt >= 0.0
    ensures 0.0 <= BloodlustStep(v, dt, s).blood <= v.blood
    ensures v.blood >= s.bloodlustBloodDecrease * dt ==>
              BloodlustStep(v, dt, s).blood == v.blood - s.bloodlustBloodDecrease * dt
    ensures v.blood < s.bloodlustBloodDecrease * dt ==> BloodlustStep(v, dt, s).blood == 0.0
    ensures BloodlustStep(v, dt, s).bloodlusting <==> BloodlustStep(v, dt, s).blood < s.bloodlustThreshold
    ensures BloodlustStep(v, dt, s) == v.(blood := BloodlustStep(v, dt, s).blood,
                                          bloodlusting := BloodlustStep(v, dt, s).bloodlusting)
  {
  }

  /**
   * After the bloodlust step, and so after a whole tick, a vampire is
   * bloodlusting exactly when its blood is below the threshold, whatever
   * state it started in.
   */
  lemma BloodlustMatchesThreshold(v: PlayerView, dt: real, s: TaskSettings, time: int)
    requires v.isVampire
    ensures BloodlustStep(v, dt, s).bloodlusting <==> BloodlustStep(v, dt, s).blood < s.bloodlustThreshold
    ensures Tick(v, dt, s, time).bloodlusting <==> Tick(v, dt, s, time).blood < s.bloodlustThreshold
  {
    var b := BloodStep(v, dt, s);
    assert b.isVampire;
    var l := BloodlustStep(b, dt, s);
    var n := NightVisionStep(l, time);
    assert n.blood == l.blood && n.bloodlusting == l.bloodlusting && n.isVampire;
    assert InfectionStep(n, dt, s) == n;
  }

  /**
   * With a threshold above the blood cap (the shipped default is 15), a
   * vampire is bloodlusting after every tick and bloodlust never ends.
   */
  lemma BloodlustNeverEndsAboveCap(v: PlayerView, dt: real, s: TaskSettings, time: int)
    requires v.isVampire && s.bloodlustThreshold > MAX_BLOOD
    ensures BloodlustStep(BloodStep(v, dt, s), dt, s).bloodlusting
    ensures Tick(v, dt, s, time).bloodlusting
  {
  }

  /**
   * The steps run in order, so bloodlust sees the blood the decay step has
   * just lowered: a vampire at 5.0 with threshold 5.0 decays to 4.9 over two
   * seconds and enters bloodlust in the same tick.
   */
  lemma BloodlustSeesDecayedBlood(v: PlayerView, time: int)
    requires v.isVampire && !v.bloodlusting && v.blood == 5.0
    ensures Tick(v, 2.0, TaskSettings(0.05, 2.0, 5.0, 0.0, 0.1, 1.0), time).bloodlusting
    ensures !BloodlustStep(v, 2.0, TaskSettings(0.05, 2.0, 5.0, 0.0, 0.1, 1.0)).bloodlusting
  {
  }

  /** Every tick leaves a vampire using night vision, whatever the world time. */
  lemma NightVisionAlwaysOn(v: PlayerView, dt: real, s: TaskSettings, time: int)
    requires v.isVampire
    ensures Tick(v, dt, s, time).usingNightVision
  {
  }

  /**
   * Infection grows only for infected non-vampires. From a level in [0, 1]
   * with a non-negative increase, the player converts exactly when level
   * plus increase reaches 1, and otherwise the level rises by exactly the
   * increase; the level stays in [0, 1] and no other field changes.
   */
  lemma InfectionProgress(v: PlayerView, dt: real, s: TaskSettings)
    requires 0.0 <= v.infectionLevel <= 1.0 && s.infectionRate * dt >= 0.0
    ensures v.isVampire || !Infected(v) ==> InfectionStep(v, dt, s) == v
    ensures !v.isVampire && Infected(v) ==>
              (InfectionStep(v, dt, s).isVampire <==> v.infectionLevel + s.infectionRate * dt >= 1.0)
    ensures !v.isVampire && Infected(v) && v.infectionLevel + s.infectionRate * dt < 1.0 ==>
              InfectionStep(v, dt, s).infectionLevel == v.infectionLevel + s.infectionRate * dt
    ensures 0.0 <= InfectionStep(v, dt, s).infectionLevel <= 1.0
    ensures InfectionStep(v, dt, s) == v.(isVampire := InfectionStep(v, dt, s).isVampire,
                                          infectionLevel := InfectionStep(v, dt, s).infectionLevel)
  {
  }

  /** A tick that turns a player into a vampire leaves infection at 0. */
  lemma TickConversionResetsInfection(v: PlayerView, dt: real, s: TaskSettings, time: int)
    requires !v.isVampire && Tick(v, dt, s, time).isVampire
    ensures Tick(v, dt, s, time).infectionLevel == 0.0
  {
  }

  /** Infection 0.9 at rate 0.05 over two seconds reaches 1.0 and converts. */
  lemma InfectionCompletesExample(v: PlayerView, time: int)
    requires !v.isVampire && v.infectionLevel == 0.9
    ensures Tick(v, 2.0, TaskSettings(0.05, 2.0, 15.0, 0.1, 0.05, 1.0), time).isVampire
    ensures Tick(v, 2.0, TaskSettings(0.05, 2.0, 15.0, 0.1, 0.05, 1.0), time).infectionLevel == 0.0
  {
  }

  /**
   * A tick with zero elapsed time settles the record: a second such tick
   * changes nothing more, unless the first one converted the player.
   */
  lemma {:induction false} ZeroTickSettles(v: PlayerView, s: TaskSettings, time: int)
    requires 0.0 <= v.blood <= MAX_BLOOD
    requires v.isVampire || v.infectionLevel < 1.0
    ensures Tick(Tick(v, 0.0, s, time), 0.0, s, time) == Tick(v, 0.0, s, time)
  {
    if v.isVampire {
      var b := BloodStep(v, 0.0, s);
      assert b == v;
      var l := BloodlustStep(b, 0.0, s);
      assert l.blood == v.blood;
      assert l.bloodlusting == (v.blood < s.bloodlustThreshold);
    }
  }

  /**
   * Without that exception the statement fails: a human at infection 1.0
   * converts during the first zero-length tick, and the second then turns
   * night vision on.
   */
  lemma ZeroTickConversionDiffers(v: PlayerView, s: TaskSettings, time: int)
    requires !v.isVampire && v.infectionLevel == 1.0 && !v.usingNightVision
    ensures !Tick(v, 0.0, s, time).usingNightVision
    ensures Tick(Tick(v, 0.0, s, time), 0.0, s, time).usingNightVision
  {
  }
}

=== FILE: wrappers.dfy ===
/** Option and Result values for the null returns and exceptions of the plugin. */
module Wrappers {
  datatype Option<T> = None | Some(value: T)
  {
    function GetOr(default: T): (r: T)
    {
      match this
      case None => default
      case Some(v) => v
    }
  }

  datatype Result<T, E> = Ok(value: T) | Err(error: E)
}
